=== FILE: README.md ===
# PetTime backend — a Dafny model

PetTime is an Express/Sequelize backend for a pet-grooming shop. Customers
register and log in, register pets, and book appointments (`agendamentos`)
for a service (`servico`), with optional grooming (`tosa`), extra services
and products. Staff approve bookings or change their status, and that
notifies the pet's owner. This project models the decision logic of that
backend as pure Dafny functions over immutable data, and proves what each
handler promises.

The model has these parts:

* **Booking routes** (`Agendamentos`, `agendamentos.dfy`). `POST /agendamentos` is a fixed chain of checks, and the first failing check wins:
  1. the required fields;
  2. the `H:MM`/`HH:MM` pattern;
  3. the 09:00–16:00 whole-hour window;
  4. date validity;
  5. Sunday;
  6. the past;
  7. the pet, the service and the optional grooming option;
  8. the slot conflict.

  A request that passes every check becomes a `pendente` booking with its association lists. `PUT /:id/approve` and `PUT /:id/status` rewrite the status and notify the owner. `GET /` filters by status.
* **Scheduling helpers** (`Business`): the list of free start times; the validator that collects every error; service durations, computed exactly in tenths of a minute; and a pet's age in years and months.
* **Validators and formatters** (`Validators`, `Formatters`): the e-mail check, the Brazilian phone number with its area-code (DDD) table, the CPF and its two check digits, the password and name rules, the phone/CPF/CEP masks, word capitalisation, and age in years.
* **Authentication** (`Auth`, `AuthMiddleware`, `Usuarios`): the token helpers, the guard in front of `/usuarios/me`, register, login, deleting an account, and the `/me` profile read and partial update.
* **Notifications** (`Notificacoes`, `PushTokens`): listing, counting and marking in-app notifications, and the in-memory device-token registry of `routes/notifications.js`.
* **Pets** (`Pets`): the pet service, with soft delete and filtered listings, the NOT NULL and foreign-key constraints the migrations put on `pets`, and the pet controller.

Tables are sequences of rows, and a row's primary key is its 1-based position (`Table`). A handler takes the tables and returns a status-coded answer together with the new tables. A failing handler returns the tables unchanged, which models the transaction rollback.

Request fields are `Option` values (`None` is `undefined` or `null`). Where the code treats `undefined` and `null` differently, a field is a `Js.Campo`: absent, `null`, or a value. Ids in a JSON body are taken to be numbers, and a query parameter is taken as the integer it parses to, with `None` for one that is absent or empty. JavaScript numbers are modelled as integers. Where the code tests JavaScript types or truthiness, a field is a `Js.Value`. Everything the code gets from its environment is a parameter:
* the clock and the date parser (`Calendar.Clock`, `Calendar.Date`);
* bcrypt (`hash`, `compare`);
* JWT (`Auth.Jwt`: `sign`, `verify`, `decode`);
* the row that `findOne` returns when several match (`pick`).

## Model

| member | source | states |
|---|---|---|
| Agendamentos.CasarHorario | pettime-backend/src/routes/agendamentos.js:92-99 | a matched time has hour at most 23 and minute at most 59 |
| Agendamentos.CasarHorarioIff | pettime-backend/src/routes/agendamentos.js:92-99 | the pattern yields (h, m) exactly for `HH:MM` with h ≤ 23, m ≤ 59, or `H:MM` with h ≤ 9 |
| Agendamentos.CasarHoraMinuto | pettime-backend/src/routes/agendamentos.js:92-99 | every `HH:MM` text the slot helper of business.js prints is read back by the route as the same hour and minute |
| Agendamentos.JanelaOitoHoras | pettime-backend/src/routes/agendamentos.js:92-107 | the format and window checks together accept exactly the eight texts 09:00 … 16:00 and their one-digit-hour spellings 9:00 |
| Agendamentos.Encontrado | pettime-backend/src/routes/agendamentos.js:174-177 | the row `findOne` returns is a row of exactly that raw data and horario, and there is none only when no row has them |
| Agendamentos.PrimeiraRecusa | pettime-backend/src/routes/agendamentos.js:84-184 | the first refusing check from a position on: it refuses, and every check between the position and it passes; none means all pass |
| Agendamentos.CriarCom | pettime-backend/src/routes/agendamentos.js:67-233 | a refused request leaves every table as it was; a stored booking gets the next id, status `pendente` whatever was sent, tosaId and observacao null when falsy, taxiDog as `!!taxiDog`, the product and extra-service lists only when they are non-empty arrays, and nothing else changes |
| Agendamentos.CriarPrimeiraFalha | pettime-backend/src/routes/agendamentos.js:84-184 | the request fails at check e exactly when e refuses it and every earlier check passes |
| Agendamentos.CriarSucesso | pettime-backend/src/routes/agendamentos.js:84-199 | the booking is stored exactly when no check refuses it |
| Agendamentos.CamposAusentes | pettime-backend/src/routes/agendamentos.js:84-88 | a falsy petId, servicoId, data or horario gives the 400 of the first check and changes nothing |
| Agendamentos.AgoraEhPassado | pettime-backend/src/routes/agendamentos.js:136-140 | a booking instant equal to now counts as past |
| Agendamentos.TosaSoQuandoDada | pettime-backend/src/routes/agendamentos.js:160-169 | the grooming option never refuses a request whose tosaId is falsy |
| Agendamentos.ConflitoDecide | pettime-backend/src/routes/agendamentos.js:172-199 | once every earlier check passes, the slot decision alone chooses between the 409 and the insert |
| Agendamentos.Criar | pettime-backend/src/routes/agendamentos.js:67-233 | a refusal changes nothing; past the earlier checks the route answers 409 exactly when the one row `findOne` returns holds the slot, and stores the booking exactly when it does not |
| Agendamentos.ConflitoPelaLinhaEncontrada | pettime-backend/src/routes/agendamentos.js:173-184 | a 409 arises exactly when the found row's status is one of the five that hold a slot; a found `concluido` or `reprovado` row never blocks |
| Agendamentos.NoveHorasDuasGrafias | pettime-backend/src/routes/agendamentos.js:112-115 | `9:00` and `09:00` name the same time and instant text, yet a booking at `09:00` does not block one at `9:00` |
| Agendamentos.CriarCorrigido | pettime-backend/src/routes/agendamentos.js:172-199 | past the earlier checks, a 409 exactly when some booking of the slot holds it, and the insert exactly when none does |
| Agendamentos.CriarCorrigidoPreservaExclusivo | pettime-backend/src/routes/agendamentos.js:172-199 | the corrected create never leaves two slot-holding bookings at the same data and horario |
| Agendamentos.UmaLinhaNoHorario | pettime-backend/src/routes/agendamentos.js:174-184 | with at most one booking in the slot the route's decision and the corrected one agree for every choice of row |
| Agendamentos.ReservaDuplaAposReprovacao | pettime-backend/src/routes/agendamentos.js:174-199 | after one rejected booking, two valid requests for the same slot are both stored as `pendente`, so the slot is held twice |
| Agendamentos.Dono | pettime-backend/src/routes/agendamentos.js:245 | there is an owner to notify exactly when the booking's pet exists and has a truthy usuarioId, and the owner is that pet's usuarioId |
| Agendamentos.Notificar | pettime-backend/src/routes/agendamentos.js:245-252 | earlier notifications are kept; exactly when the pet has an owner, one more is appended, unread, addressed to the pet's usuarioId, with the given tipo and time |
| Agendamentos.Aprovar | pettime-backend/src/routes/agendamentos.js:237-259 | an unknown id is a 404 with no change; otherwise only that booking's status becomes `aprovado` and one `aprovacao` notification goes to the owner, if any |
| Agendamentos.TipoDoStatus | pettime-backend/src/routes/agendamentos.js:274 | the notification type is `reprovacao` exactly for status `reprovado`, otherwise `status` |
| Agendamentos.AlterarStatus | pettime-backend/src/routes/agendamentos.js:262-285 | 404 for an unknown id and 500 for an absent status, both with no change; otherwise only that booking's status is replaced and one notification typed by the new status goes to the owner, if any |
| Agendamentos.AprovarComoStatus | pettime-backend/src/routes/agendamentos.js:237-285 | approving answers and stores like setting status `aprovado`, and adds as many notifications |
| Agendamentos.ListarDesde | pettime-backend/src/routes/agendamentos.js:30-58 | the listed ids from a position on are exactly the bookings that pass the filters; any given petId, 0 included, filters |
| Agendamentos.Listar | pettime-backend/src/routes/agendamentos.js:30-58 | `GET /agendamentos` lists exactly the bookings whose status is in the list of six and that match the given petId (0 included) and day |
| Agendamentos.ConcluidoListadoSemOcupar | pettime-backend/src/routes/agendamentos.js:44-46 | `concluido` is listed but does not hold a slot, `reprovado` is never listed, and every slot-holding status is listed |
| Business.CalcularProximoHorarioDisponivel | pettime-backend/src/utils/business.js:148-162 | the i-th start is 08:00 + 30·i in zero-padded `HH:MM`, every start ends its service by 18:00, and the list is exactly as long as the count of fitting starts |
| Business.SlotCountBounds | pettime-backend/src/utils/business.js:150-154 | at most 21 starts, at least one for a service of up to 600 minutes, none beyond |
| Business.NumberOf | pettime-backend/src/utils/business.js:71 | `Number` of a blank piece is 0 and of a digit string is its decimal value |
| Business.ValidarAgendamento | pettime-backend/src/utils/business.js:51-91 | a horario that is not a string throws a TypeError at its `split`; otherwise the booking is valid exactly when the error list is empty |
| Business.ReportadosIff | pettime-backend/src/utils/business.js:59-85 | running checks one after another reports exactly the failing ones among them |
| Business.ReportadosOrdem | pettime-backend/src/utils/business.js:59-85 | the errors come out in the order of the checks |
| Business.ValidarAgendamentoErros | pettime-backend/src/utils/business.js:59-85 | for a string horario, each error is reported exactly when its own condition holds, whatever the other fields are |
| Business.ValidarAgendamentoOrdem | pettime-backend/src/utils/business.js:59-85 | for a string horario, the errors come in the order Sunday, past, hours, service, pet, each at most once |
| Business.JanelaComercial | pettime-backend/src/utils/business.js:71-76 | for a `HH:MM` string the validation succeeds and the hours error is reported exactly when the time is before 08:00 or at or after 18:00 |
| Business.UltimoMinuto | pettime-backend/src/utils/business.js:74 | 17:59 is within working hours |
| Business.DezoitoHoras | pettime-backend/src/utils/business.js:74 | 18:00 is outside working hours |
| Business.MinutosDe | pettime-backend/src/utils/business.js:71-72 | hours and minutes around a colon give hours · 60 + minutes |
| Business.ValidarAgendamentoDia | pettime-backend/src/utils/business.js:55-68 | a booking for today that validates is not reported in the past |
| Business.SemMinutoNuncaForaDoHorario | pettime-backend/src/utils/business.js:71-76 | a string horario without a colon has a NaN minute, validates, and is never reported out of hours |
| Business.TempoIndividual | pettime-backend/src/utils/business.js:108-146 | the duration is base × factor rounded to the nearest minute |
| Business.TempoServico | pettime-backend/src/utils/business.js:93-106 | a duration is never negative, and one service takes base × factor rounded |
| Business.SomaAppend | pettime-backend/src/utils/business.js:97-100 | the duration of a concatenated list is the sum of the durations |
| Business.SomaUm | pettime-backend/src/utils/business.js:93-106 | a one-element list takes as long as its service alone |
| Business.TempoCresceComPorte | pettime-backend/src/utils/business.js:130-143 | a larger pet never takes less time |
| Business.TemposEsperados | pettime-backend/tests/unit/business.test.js:122-150 | the durations the unit tests expect: 60, 72, 117, 165 |
| Business.IdadeAnimal | pettime-backend/src/utils/business.js:172-201 | a missing or future birth date gives 0 years and 0 months, an invalid one NaN, and otherwise years ≥ 0 and months in 0..11 |
| Business.IdadeAnimalContaMeses | pettime-backend/src/utils/business.js:184-200 | years · 12 + months is the number of monthly anniversaries reached |
| Validators.MatchEmail | pettime-backend/src/utils/validators.js:12 | the scanner accepts exactly the language of the e-mail pattern |
| Validators.ValidarEmail | pettime-backend/src/utils/validators.js:2-24 | false for a falsy, non-string or blank value and for `..` or a leading or trailing `.` or `@`; true exactly when the trimmed text also matches the pattern; an accepted address, trimmed, has no whitespace, exactly one `@`, and a domain with an inner dot |
| Validators.Ddd | pettime-backend/src/utils/validators.js:40 | the area code is a number 0..99 |
| Validators.ValidarTelefone | pettime-backend/src/utils/validators.js:26-90 | for 10 or 11 digits the phone is valid exactly when the area code is in the table and the third digit is 9 exactly for 11 digits; any other digit count is invalid |
| Validators.CheckDigit | pettime-backend/src/utils/validators.js:111-125 | a check digit is a digit |
| Validators.ValidarCPF | pettime-backend/src/utils/validators.js:92-129 | true exactly for a string whose digits are 11, not all equal, and end in the two mod-11 check digits |
| Validators.CompleteCpf | pettime-backend/src/utils/validators.js:110-126 | any nine digits that are not all equal extend to a valid CPF |
| Validators.CpfCheckDigitsDetermined | pettime-backend/src/utils/validators.js:110-126 | two valid CPFs with the same first nine digits are equal |
| Validators.HasAsciiLetter | pettime-backend/src/utils/validators.js:147 | true exactly when some character is an ASCII letter |
| Validators.HasDigit | pettime-backend/src/utils/validators.js:152 | true exactly when some character is a digit |
| Validators.ValidarSenha | pettime-backend/src/utils/validators.js:131-157 | valid exactly for a string of 8 to 50 UTF-16 code units with an ASCII letter and a digit |
| Validators.SenhaContaUnidadesUtf16 | pettime-backend/src/utils/validators.js:137-144 | a character above U+FFFF counts twice: a letter, a digit and three emoji pass, with two emoji the password is too short |
| Validators.SenhaLimiteUtf16 | pettime-backend/src/utils/validators.js:142-144 | 49 characters plus one emoji is 51 code units and is refused, while 49 plain characters pass |
| Text.Utf16Length | pettime-backend/src/utils/validators.js:137 | a string's `length` lies between its number of characters and twice that, and equals it exactly when no character is above U+FFFF |
| Validators.AllNameChars | pettime-backend/src/utils/validators.js:182 | true exactly when every character is a letter, a character from U+00C0 to U+00FF, whitespace or a hyphen |
| Validators.ValidarNome | pettime-backend/src/utils/validators.js:159-187 | valid exactly when the trimmed text has 2 to 100 UTF-16 code units (one per name character), a space, and only name characters |
| Validators.NomeAcceptsMultiplicationSign | pettime-backend/src/utils/validators.js:182 | the range À-ÿ lets the multiplication sign × through: `word ×` is a valid name |
| Formatters.FormatarTelefone | pettime-backend/src/utils/formatters.js:2-27 | falsy or non-string input, text already holding `(`, `)` and `-`, and text without 10 or 11 digits come back unchanged |
| Formatters.FormatarTelefoneMasks | pettime-backend/src/utils/formatters.js:16-23 | 11 digits come out as `(AA) NNNNN-NNNN` and 10 as `(AA) NNNN-NNNN`, with the same digits |
| Formatters.FormatarCPF | pettime-backend/src/utils/formatters.js:29-49 | input with both `.` and `-`, or without 11 digits, comes back unchanged |
| Formatters.FormatarCPFMasks | pettime-backend/src/utils/formatters.js:43-45 | 11 digits come out as `XXX.XXX.XXX-XX` with the same digits |
| Formatters.FormatarCEP | pettime-backend/src/utils/formatters.js:51-71 | input with `-`, or without 8 digits, comes back unchanged |
| Formatters.FormatarCEPMasks | pettime-backend/src/utils/formatters.js:65-67 | 8 digits come out as `XXXXX-XXX` with the same digits |
| Formatters.FitsDigitsUnique | pettime-backend/src/utils/formatters.js:17-66 | a mask and a digit string determine the formatted text |
| Formatters.FormattersKeepDigits | pettime-backend/src/utils/formatters.js:8-66 | stripping the non-digits from any output gives the input's digits |
| Formatters.FormattersIdempotent | pettime-backend/src/utils/formatters.js:11-70 | formatting a phone, CPF or CEP twice is formatting it once |
| Formatters.FormattingPreservesValidity | pettime-backend/src/utils/formatters.js:2-49 | formatting does not change whether a phone number or a CPF is valid |
| Formatters.CapRuns | pettime-backend/src/utils/formatters.js:161-170 | same length; separators stay; an ASCII letter is upper-cased exactly when it starts a word, otherwise lower-cased; other characters are kept |
| Formatters.CapitalizarPalavras | pettime-backend/src/utils/formatters.js:156-171 | non-strings come back unchanged; a string keeps its length and separators, and each word becomes upper-first, lower-rest |
| Formatters.CaseMapsKeepSeparators | pettime-backend/src/utils/formatters.js:162-168 | case mapping never creates or removes a separator and is idempotent |
| Formatters.CapitalizarIdempotent | pettime-backend/src/utils/formatters.js:156-171 | capitalising twice is capitalising once |
| Formatters.CalcularIdade | pettime-backend/src/utils/formatters.js:73-97 | a missing or future birth date gives 0, an invalid one NaN, otherwise a number ≥ 0 |
| Formatters.CalcularIdadeCountsBirthdays | pettime-backend/src/utils/formatters.js:86-96 | the age is the number of birthdays reached |
| Auth.GerarToken | pettime-backend/src/utils/auth.js:7-22 | a falsy or non-object payload is refused with its message; otherwise the signed payload |
| Auth.GerarTokenAceita | pettime-backend/src/utils/auth.js:7-10 | exactly objects and arrays are signed; `null` is refused although its typeof is `"object"` |
| Auth.ValidarToken | pettime-backend/src/utils/auth.js:24-34 | a falsy or non-string token is refused, one that does not verify is refused as invalid or expired, and otherwise the verified claims |
| Auth.ExtrairTokenDoHeader | pettime-backend/src/utils/auth.js:36-48 | a falsy or non-string header gives null, and a token never holds a space |
| Auth.ExtrairTokenDoHeaderIff | pettime-backend/src/utils/auth.js:41-47 | the header yields t exactly when it is `Bearer`, one space and t, with no space in t |
| Auth.BearerSemToken | pettime-backend/src/utils/auth.js:41-47 | `"Bearer "` gives the empty token |
| Auth.EsquemaMinusculo | pettime-backend/src/utils/auth.js:43 | a lower-case `bearer` is refused |
| Auth.EspacoDuplo | pettime-backend/src/utils/auth.js:41-43 | two spaces after the scheme are refused |
| Auth.DecodificarTokenSemValidar | pettime-backend/src/utils/auth.js:50-60 | null for a falsy or non-string token, otherwise the decoded claims |
| Auth.VerificarExpiracaoToken | pettime-backend/src/utils/auth.js:62-71 | an undecodable token, or one without a truthy exp, counts as expired |
| Auth.VerificarExpiracaoSegundos | pettime-backend/src/utils/auth.js:69-70 | a token with a truthy exp is expired exactly when the current time in milliseconds has reached the second after exp |
| Auth.GerarTokenRecuperacao | pettime-backend/src/utils/auth.js:73-87 | a falsy or non-string e-mail is refused; otherwise a one-hour token for that e-mail with tipo `recuperacao` |
| Auth.ValidarTokenRecuperacao | pettime-backend/src/utils/auth.js:89-97 | accepted exactly when the token verifies and its tipo is `recuperacao` |
| Auth.RecuperacaoIdaEVolta | pettime-backend/src/utils/auth.js:73-97 | given a library whose `verify` accepts a fresh token and gives back its email and tipo, a recovery token made for an e-mail validates, with that e-mail and tipo `recuperacao` |
| Auth.SessaoNaoRecupera | pettime-backend/src/utils/auth.js:92-94 | a verified token of another tipo is refused as a recovery token |
| AuthMiddleware.TokenDoCabecalho | pettime-backend/src/middlewares/authMiddleware.js:6 | no header gives no token, and a token never holds a space |
| AuthMiddleware.Autenticar | pettime-backend/src/middlewares/authMiddleware.js:5-25 | the request goes on exactly when a non-empty token verifies and names an existing, not deleted account, and then with that id; a missing token gives "Token não fornecido." |
| AuthMiddleware.TokenDoCabecalhoQualquerEsquema | pettime-backend/src/middlewares/authMiddleware.js:6 | the second piece is the token whatever the first piece says |
| AuthMiddleware.TokenDoCabecalhoIgnoraResto | pettime-backend/src/middlewares/authMiddleware.js:6 | pieces after the second are ignored |
| AuthMiddleware.TokenDoCabecalhoEstendeExtrair | pettime-backend/src/middlewares/authMiddleware.js:6 | whenever the strict helper of auth.js finds a token, the guard reads the same one |
| AuthMiddleware.EsquemaBasicAceito | pettime-backend/src/middlewares/authMiddleware.js:6 | `Basic x` gives the guard token x, although the strict helper refuses it |
| AuthMiddleware.ExcluidoBarrado | pettime-backend/src/middlewares/authMiddleware.js:17-20 | after the account is deleted its tokens are refused |
| Usuarios.FindByEmail | pettime-backend/src/controllers/usuarioController.js:12 | the first row with that e-mail, and none only when no row has it |
| Usuarios.Register | pettime-backend/src/controllers/usuarioController.js:8-32 | a taken e-mail is a 400, and only a complete body with a new e-mail is a 200; only a 200 adds a row, holding the hash of the password and tipo `cliente` when none is given |
| Usuarios.RegisterPreservaEmailsUnicos | pettime-backend/src/models/usuario.js:8-12 | registering keeps e-mails unique |
| Usuarios.Entrar | pettime-backend/src/controllers/usuarioController.js:34-54 | an absent e-mail makes the lookup throw, a 500; a `null` or unknown e-mail is a 400, then a deleted account is a 403 before the password is compared, then on a live account a missing password makes bcrypt throw, a 500, a wrong one is a 401 and a matching one succeeds; success signs the id and tipo for 8 hours and returns only id, nome and tipo |
| Usuarios.ContaDoEmail | pettime-backend/src/controllers/usuarioController.js:38 | a given e-mail finds the first row with it; `null` finds no row, since the column is NOT NULL |
| Usuarios.RegistrarEntaoEntrar | pettime-backend/src/controllers/usuarioController.js:17-49 | whoever registers can then log in with the same password |
| Usuarios.ExcluirConta | pettime-backend/src/controllers/usuarioController.js:56-67 | an unknown caller is a 404 with no change; otherwise only that row's deletado becomes true |
| Usuarios.ExcluidoNaoEntra | pettime-backend/src/controllers/usuarioController.js:42-44 | a deleted account is refused at login with 403 |
| Usuarios.VerPerfil | pettime-backend/src/routes/usuarioRoutes.js:12-29 | 404 for an unknown caller, otherwise exactly nome, email, telefone and endereco |
| Usuarios.PerfilAlteradoReLido | pettime-backend/src/routes/usuarioRoutes.js:12-57 | after a successful profile update, reading the profile gives back the answered profile |
| Usuarios.AlterarPerfil | pettime-backend/src/routes/usuarioRoutes.js:31-57 | 404 for an unknown caller; an e-mail taken by another row fails the unique index with no change; otherwise only the caller's row changes and the answer is its new profile |
| Usuarios.AlterarPerfilCampos | pettime-backend/src/routes/usuarioRoutes.js:37-44 | each field is replaced only when given; the hash changes only for a truthy password; tipo and deletado stay |
| Usuarios.AlterarPerfilPreservaEmailsUnicos | pettime-backend/src/routes/usuarioRoutes.js:38-45 | the partial update keeps e-mails unique |
| Usuarios.AlterarNadaNaoMuda | pettime-backend/src/routes/usuarioRoutes.js:37-45 | an empty body changes nothing |
| Notificacoes.Inserir | pettime-backend/src/controllers/notificacaoController.js:9 | insertion adds exactly the one id |
| Notificacoes.InserirDecrescente | pettime-backend/src/controllers/notificacaoController.js:9 | insertion keeps the newest-first order |
| Notificacoes.Ordenar | pettime-backend/src/controllers/notificacaoController.js:9 | sorting is a permutation |
| Notificacoes.OrdenarDecrescente | pettime-backend/src/controllers/notificacaoController.js:9 | the sort is newest first |
| Notificacoes.DoUsuario | pettime-backend/src/controllers/notificacaoController.js:7-8 | exactly the caller's rows from a position on, in increasing id |
| Notificacoes.Listar | pettime-backend/src/controllers/notificacaoController.js:4-15 | exactly the caller's notifications, each once, newest first |
| Notificacoes.ContarNaoLidas | pettime-backend/src/controllers/notificacaoController.js:17-25 | the count is the number of the caller's unread notifications |
| Notificacoes.MarcarComoLida | pettime-backend/src/controllers/notificacaoController.js:27-39 | 404 with no change unless the id is one of the caller's notifications; otherwise only its lida flag becomes true |
| Notificacoes.MarcarComoLidaIdempotente | pettime-backend/src/controllers/notificacaoController.js:31-35 | marking twice is marking once |
| Notificacoes.MarcarComoLidaContagem | pettime-backend/src/controllers/notificacaoController.js:31-35 | the caller's unread set loses just that row, and other users' unread sets stay |
| Notificacoes.MarcarTodas | pettime-backend/src/controllers/notificacaoController.js:41-49 | the caller's rows become read and every other row stays |
| Notificacoes.MarcarTodasZera | pettime-backend/src/controllers/notificacaoController.js:44 | afterwards the caller has nothing unread and other users' unread sets are as before |
| PushTokens.RegistrarToken | pettime-backend/src/routes/notifications.js:12-45 | a falsy token or user is a 400 with no change; otherwise the token is appended to that user's list unless already there, other users stay, and a non-string token is a 500 after the change |
| PushTokens.RegistrarPreservaSemDuplicatas | pettime-backend/src/routes/notifications.js:23-30 | no list ever holds a token twice |
| PushTokens.RegistrarIdempotente | pettime-backend/src/routes/notifications.js:27-30 | registering the same token again changes nothing |
| PushTokens.EnviarParaUsuario | pettime-backend/src/routes/notifications.js:51-68 | 400 exactly when a field is falsy, 404 exactly when the user has no token, otherwise the user's token list |
| PushTokens.RegistradoRecebe | pettime-backend/src/routes/notifications.js:23-68 | a registered token is among the devices of a later send to that user, with keys compared structurally as the `Map` does for primitive values |
| PushTokens.EnviarParaUsuarios | pettime-backend/src/routes/notifications.js:97-108 | 400 exactly when userIds is not an array or title or body is falsy; otherwise one `demo-token-<id>` per id, in order |
| PushTokens.TokenDemoInjetivo | pettime-backend/src/routes/notifications.js:108 | distinct numeric ids get distinct placeholder tokens |
| Js.NumToStringInjective | pettime-backend/src/routes/notifications.js:108 | distinct numbers print differently |
| Pets.CriarPet | pettime-backend/src/services/petService.js:4-11 | the insert fails, writing nothing, exactly when usuarioId is not the id of a user or deletado is given as null (NOT NULL and foreign-key columns); otherwise the row is appended with the given fields, and deletado is the body's value or false when left out |
| Pets.CriadoOcultoDasListas | pettime-backend/src/services/petService.js:4-20 | a pet created with deletado true for an existing user is in neither listing but is found by id |
| Pets.CriadoListado | pettime-backend/src/services/petService.js:4-20 | a pet created without deletado for an existing user is in the full listing and in its owner's |
| Pets.Filtrar | pettime-backend/src/services/petService.js:15 | exactly the listed rows from a position on, in increasing id |
| Pets.TodosPets | pettime-backend/src/services/petService.js:13-20 | exactly the pets not deleted |
| Pets.PetsDoUsuario | pettime-backend/src/services/petService.js:60-67 | exactly the pets of that user that are not deleted |
| Pets.PetPorId | pettime-backend/src/services/petService.js:22-32 | an unknown id fails with "Error fetching pet: Pet not found"; otherwise the row, deleted or not |
| Pets.AtualizarPet | pettime-backend/src/services/petService.js:34-45 | an unknown id fails with "Error updating pet: Pet not found"; then an update setting deletado to null or usuarioId to null or to a non-user fails and writes nothing; otherwise only that row changes |
| Pets.AtualizarPetCampos | pettime-backend/src/services/petService.js:40 | an update the constraints accept succeeds; only the fields the body gives change, deletado included, a nullable field given as null is cleared, and the owner stays a user |
| Pets.AtualizarRecusado | pettime-backend/src/controllers/petController.js:45-57 | a null deletado, a null usuarioId or a usuarioId that is not a user gives 500 with the table unchanged |
| Pets.AtualizarNadaNaoMuda | pettime-backend/src/services/petService.js:40 | an empty body leaves the table as it was |
| Pets.ExcluirPet | pettime-backend/src/services/petService.js:47-58 | an unknown id fails with "Error deleting pet: Pet not found"; otherwise only that row's deletado becomes true |
| Pets.ExcluidoSomeDasListas | pettime-backend/src/services/petService.js:13-67 | a deleted pet leaves both listings but is still found by id |
| Pets.ComFoto | pettime-backend/src/controllers/petController.js:15-17 | with an upload foto becomes `/uploads/pets/` + its file name, without one the body is unchanged |
| Pets.CadastrarPet | pettime-backend/src/controllers/petController.js:3-28 | 400 with no change exactly when nome, raca, idade, porte or usuarioId is falsy; then 500 with no change exactly when the database refuses the row; otherwise 201 and the new row |
| Pets.CadastroRecusadoPeloBanco | pettime-backend/src/controllers/petController.js:19-26 | with the required fields present, an owner that is not a user or a null deletado gives 500 and no new row |
| Pets.CadastrarPetFoto | pettime-backend/src/controllers/petController.js:15-19 | the stored foto is the upload's path when there is an upload, else the body's |
| Pets.IdadeZeroRecusada | pettime-backend/src/controllers/petController.js:8-12 | a pet of age 0 is refused |
| Pets.ListarPets | pettime-backend/src/controllers/petController.js:30-43 | with a usuarioId the user's listing, otherwise the full listing |
| Pets.ListaDoUsuarioEstaNaGeral | pettime-backend/src/controllers/petController.js:32-38 | the user's listing is the full listing restricted to that user |
| Pets.AlterarPet | pettime-backend/src/controllers/petController.js:45-57 | 500 with no change exactly for an unknown id or an update the database refuses; otherwise 200 and the update, the upload's path overriding the body's foto |
| Pets.RemoverPet | pettime-backend/src/controllers/petController.js:59-67 | 500 with no change for an unknown id; otherwise 200 and the soft delete |

## Left out

- Transactions, concurrency and the race between the conflict check and the insert: every handler is one atomic step.
- JavaScript `Date` is not modelled. Parsing, the host time zone, `getDay` and the current time are parameters. Whether the engine accepts a date text is left to the `parse` parameter.
- bcrypt and JWT are parameters. The `iat`, `nonce` and `timestamp` claims, which hold the clock and `Math.random`, are not modelled.
- `calcularPrecoServico` and `formatarMoeda` are left out: they need floating-point multipliers and locale currency formatting.
- `removerAcentos`, `formatarDataBR` and `formatarDataHoraBR` are left out: they need Unicode normalisation and host-time-zone dates.
- `validarCapacidadeDiaria` always returns true and is left out.
- The Firebase push sending and `services/pushNotificationService.js` are left out. The send routes return the device list they would send to.
- The `/all` and `/send-to-topic` routes and the booking notification routes of `routes/notifications.js` are left out. That router is not mounted by `app.js`, so its routes are modelled as written but are unreachable in the running app.
- Multer uploads are represented by the uploaded file name. Bootstrap (`app.js`, `server.js`) and the maintenance scripts are left out.
- The unmounted controllers, services and routes are left out, as are the plain CRUD controllers for products, services, extra services and grooming options.
- Business.TempoServico: a service and a pet are given by their `tipo` and `porte`. A `null` or `undefined` service, array element or pet makes the code throw a TypeError, and that is not modelled.
- Business.TempoIndividual: as for Business.TempoServico, a `null` or `undefined` service or pet, which throws, is not modelled.
- Auth.GerarToken: `sign` is total. jsonwebtoken throws when the payload already carries `exp` and an `expiresIn` is given, and that throw is not modelled.
- Database failures are left out: lost connections, and foreign-key errors from `setProdutos` and `setServicosAdicionais` on unknown ids. Every such failure is a 500 in the handlers. In the guard of `middlewares/authMiddleware.js`, a failed user lookup falls into the same `catch` as a bad token and is a 401 "Token inválido.".
- Route and query ids are taken as already-parsed integers, so a non-numeric id is not modelled.
- `updatedAt` and the other timestamps Sequelize maintains are left out. `createdAt` of a notification is the instant passed in.
- Object values are compared structurally, where JavaScript compares references. Only the registry's keys and tokens, which are JSON values, depend on this.
- Agendamentos.CasarHorario: only string values of `horario` are modelled. The code applies `String()` to other JSON types, and then `padStart` throws and gives a 500.
- Agendamentos.Listar: the list is in id order. The route sorts by `data` descending, and that order is not modelled.
- Agendamentos.Listar: the day filter is the `noDia` parameter, because it compares a `DATE` column with a time-zone-dependent range.
- Agendamentos.CriarCom: only string values of `data` are modelled. A number or object sent as `data` is not.
- Agendamentos.CriarCom: `data` is compared as raw text, as the conflict lookup receives it. The column's `DATE` normalisation is not modelled.
- Notificacoes.Listar: rows with equal `createdAt` come in an order the database does not fix. The contract states the order by `createdAt` only.
- Business.NumberOf: only an optional sign and decimal digits are modelled. Fractions, exponents, hexadecimal and `Infinity` are NaN in the model, although `Number` accepts them.
- Formatters.CapitalizarPalavras: case mapping is modelled for ASCII letters only, and other characters keep their case.
- Formatters.CapRuns: as for Formatters.CapitalizarPalavras, only ASCII letters change case. `toUpperCase` and `toLowerCase` also map accented letters such as `é`, and there a word start differs.
- Usuarios.Register: a lookup with an absent e-mail throws and gives 500. With several rows of one e-mail, the model takes the first of them, not an arbitrary one.
- Pets.CadastrarPet: multipart bodies carry strings, so an age of `"0"` is truthy there. The model takes the age as a number, as a JSON body gives it.
- Pets.AtualizarPet: body fields other than the seven pet columns, such as `id`, are not modelled.
- Pets.CriarPet: an `id` in the body does not choose the new row's key; keys are positions. A non-boolean `deletado` is not modelled. The text of a database refusal is the driver's and is represented by a fixed string.
- Pets.CadastrarPet: as for Pets.CriarPet, a body `id` is not modelled.
- Numbers: JavaScript numbers are modelled as integers, so fractional values, such as a fractional `duracao` in `calcularProximoHorarioDisponivel`, are not modelled.

## Findings

| source | as written | input that shows it | evidently intended | confidence | as-written member | corrected member |
|---|---|---|---|---|---|---|
| pettime-backend/src/routes/agendamentos.js:172-184 | The conflict check calls `findOne({ where: { data, horario } })` with no status filter. It then looks only at that one row's status, so a rejected or completed booking in the slot hides an active one. | The store holds one `reprovado` booking at a slot. Two valid requests for that slot then follow. `findOne` returns the rejected row both times, and both requests are stored as `pendente`. | A 409 whenever any booking of the slot holds it: the comment at line 172 says so, and so does the five-status list. | not executed | Agendamentos.ReservaDuplaAposReprovacao | Agendamentos.CriarCorrigidoPreservaExclusivo |

=== FILE: agendamentos.dfy ===
/**
 * `routes/agendamentos.js`: booking an appointment, approving it, changing
 * its status and listing the appointments that hold a slot.
 *
 * The store holds the tables the route reads and writes. Creating runs in
 * a transaction that is rolled back on every early return, so it is one
 * atomic step here: a refused request leaves the store as it was. How the
 * host parses a date-time string, which weekday an instant falls on and the
 * current instant come from a `Calendar.Clock`.
 */
module Agendamentos {
  import opened Wrappers
  import opened Js
  import opened Text
  import opened Table
  import opened Calendar
  import Pets
  import Notificacoes
  import Business

  // ---------------------------------------------------------------- horario

  /** `/^([0-1]?\d|2[0-3]):([0-5]\d)$/.exec(horario)`: the hour and minute
      groups as numbers, or `None` when the text does not match. */
  function CasarHorario(s: string): (r: Option<(nat, nat)>)
    ensures r.Some? ==> r.value.0 <= 23 && r.value.1 <= 59
  {
    if |s| == 4 && IsDigit(s[0]) && s[1] == ':' && '0' <= s[2] <= '5' && IsDigit(s[3]) then
      Some((DigitValue(s[0]), 10 * DigitValue(s[2]) + DigitValue(s[3])))
    else if |s| == 5 && s[2] == ':' && '0' <= s[3] <= '5' && IsDigit(s[4])
      && (('0' <= s[0] <= '1' && IsDigit(s[1])) || (s[0] == '2' && '0' <= s[1] <= '3')) then
      Some((10 * DigitValue(s[0]) + DigitValue(s[1]), 10 * DigitValue(s[3]) + DigitValue(s[4])))
    else None
  }

  /** `HH:MM`, both parts with two digits. */
  function Texto(h: nat, m: nat): (s: string)
    requires h < 100 && m < 100
  {
    [DigitChar(h / 10), DigitChar(h % 10), ':', DigitChar(m / 10), DigitChar(m % 10)]
  }

  /** `H:MM`, a one-digit hour. */
  function TextoCurto(h: nat, m: nat): (s: string)
    requires h < 10 && m < 100
  {
    [DigitChar(h), ':', DigitChar(m / 10), DigitChar(m % 10)]
  }

  lemma DigitCharValue(c: char)
    requires IsDigit(c)
    ensures DigitChar(DigitValue(c)) == c
  {
  }

  /** The pattern accepts exactly the times 00:00 to 23:59, written with two
      hour digits or, below ten, with one. */
  lemma CasarHorarioIff(s: string, h: nat, m: nat)
    ensures CasarHorario(s) == Some((h, m)) <==>
      h <= 23 && m <= 59 && (s == Texto(h, m) || (h < 10 && s == TextoCurto(h, m)))
  {
    if CasarHorario(s) == Some((h, m)) {
      if |s| == 4 {
        DigitCharValue(s[0]); DigitCharValue(s[2]); DigitCharValue(s[3]);
        assert s == TextoCurto(h, m);
      } else {
        DigitCharValue(s[0]); DigitCharValue(s[1]); DigitCharValue(s[3]); DigitCharValue(s[4]);
        assert s == Texto(h, m);
      }
    }
  }

  /** Every time the scheduling helper prints is read back by the route's
      pattern as the same hour and minute. */
  lemma CasarHoraMinuto(m: nat)
    requires m < 24 * 60
    ensures CasarHorario(Business.HoraMinuto(m)) == Some((m / 60, m % 60))
  {
    Pad2Small(m / 60);
    Pad2Small(m % 60);
    var s := Business.HoraMinuto(m);
    DigitCharValue(s[0]); DigitCharValue(s[1]); DigitCharValue(s[3]); DigitCharValue(s[4]);
    assert s == Texto(m / 60, m % 60);
    CasarHorarioIff(s, m / 60, m % 60);
  }

  /** The route's window: whole hours from 09:00 to 16:00. */
  predicate NaJanela(hm: (nat, nat))
  {
    hm.1 == 0 && 9 <= hm.0 <= 16
  }

  /** The format and window checks together accept a time exactly when it
      is one of the eight whole hours from 9 to 16 (nine spellings, as 9
      can be written with one digit). */
  lemma JanelaOitoHoras(s: string)
    ensures CasarHorario(s).Some? && NaJanela(CasarHorario(s).value) <==>
      exists h :: 9 <= h <= 16 && (s == Texto(h, 0) || (h == 9 && s == TextoCurto(9, 0)))
  {
    if CasarHorario(s).Some? {
      var hm := CasarHorario(s).value;
      CasarHorarioIff(s, hm.0, hm.1);
    }
    if h :| 9 <= h <= 16 && (s == Texto(h, 0) || (h == 9 && s == TextoCurto(9, 0))) {
      CasarHorarioIff(s, h, 0);
    }
  }

  // ------------------------------------------------------------------ store

  /** A row of `agendamentos` with its product and extra-service sets. */
  datatype Agendamento = Agendamento(
    petId: int,
    servicoId: int,
    tosaId: Option<int>,
    data: string,
    horario: string,
    taxiDog: bool,
    observacao: Option<string>,
    status: string,
    produtos: seq<Value>,
    adicionais: seq<Value>)

  /** The tables the route touches; services and grooming options only
      matter through which ids exist. */
  datatype Loja = Loja(
    agendamentos: seq<Agendamento>,
    pets: seq<Pets.Pet>,
    servicos: set<int>,
    tosas: set<int>,
    notificacoes: seq<Notificacoes.Notificacao>)

  /** The body of `POST /agendamentos`. */
  datatype Pedido = Pedido(
    petId: Option<int>,
    servicoId: Option<int>,
    tosaId: Option<int>,
    data: Option<string>,
    horario: Option<string>,
    taxiDog: Value,
    observacao: Option<string>,
    produtos: Value,
    servicosAdicionais: Value)

  /** The statuses that hold a slot against a new booking. */
  const StatusQueOcupam: seq<string> := ["pendente", "aprovado", "em espera", "em andamento", "a caminho"]

  predicate Ocupa(status: string)
  {
    status in StatusQueOcupam
  }

  /** The positions of the rows booked at exactly this `data` and `horario`
      text, from position `i` on. */
  function NoHorario(ags: seq<Agendamento>, data: string, horario: string, i: nat): (r: seq<nat>)
    requires i <= |ags|
    ensures forall k :: 0 <= k < |r| ==> i <= r[k] < |ags| && ags[r[k]].data == data && ags[r[k]].horario == horario
    ensures forall j :: i <= j < |ags| && ags[j].data == data && ags[j].horario == horario ==> j in r
    decreases |ags| - i
  {
    if i == |ags| then []
    else if ags[i].data == data && ags[i].horario == horario then [i] + NoHorario(ags, data, horario, i + 1)
    else NoHorario(ags, data, horario, i + 1)
  }

  /** `Agendamento.findOne({ where: { data, horario } })`: one of the rows of
      that slot, the one `pick` designates; which one the database returns
      is not specified. */
  function Encontrado(ags: seq<Agendamento>, data: string, horario: string, pick: nat): (r: Option<nat>)
    ensures r.Some? ==> r.value < |ags| && ags[r.value].data == data && ags[r.value].horario == horario
    ensures r.None? <==> forall j :: 0 <= j < |ags| ==> !(ags[j].data == data && ags[j].horario == horario)
  {
    var ms := NoHorario(ags, data, horario, 0);
    if |ms| == 0 then None else Some(ms[pick % |ms|])
  }

  // ------------------------------------------------------------ the checks

  /** The checks of `POST /agendamentos`, in the order they run. */
  datatype Etapa =
    | Campos | Formato | Janela | DataInvalida | Domingo | Passado
    | SemPet | SemServico | SemTosa | Conflito

  function Posicao(e: Etapa): nat
  {
    match e
    case Campos => 0
    case Formato => 1
    case Janela => 2
    case DataInvalida => 3
    case Domingo => 4
    case Passado => 5
    case SemPet => 6
    case SemServico => 7
    case SemTosa => 8
    case Conflito => 9
  }

  function Status(e: Etapa): int
  {
    match e
    case SemPet => 404
    case SemServico => 404
    case SemTosa => 404
    case Conflito => 409
    case _ => 400
  }

  function Mensagem(e: Etapa): string
  {
    match e
    case Campos => "Campos obrigat\U{00F3}rios ausentes."
    case Formato => "Hor\U{00E1}rio inv\U{00E1}lido. Use HH:mm."
    case Janela => "Hor\U{00E1}rio fora da janela de atendimento."
    case DataInvalida => "Data ou hor\U{00E1}rio inv\U{00E1}lidos."
    case Domingo => "Agendamentos n\U{00E3}o s\U{00E3}o permitidos aos domingos."
    case Passado => "N\U{00E3}o \U{00E9} poss\U{00ED}vel agendar em hor\U{00E1}rio passado."
    case SemPet => "Pet n\U{00E3}o encontrado."
    case SemServico => "Servi\U{00E7}o n\U{00E3}o encontrado."
    case SemTosa => "Tosa n\U{00E3}o encontrada."
    case Conflito => "Hor\U{00E1}rio indispon\U{00ED}vel. J\U{00E1} existe agendamento neste hor\U{00E1}rio."
  }

  /** The local date-time text handed to `new Date`, the hour padded to two
      digits. */
  function TextoDataHora(data: string, horario: string): string
  {
    data + "T" + PadStart(horario, 5, '0') + ":00"
  }

  /** The instant of the booking, `None` for an Invalid Date. */
  function Instante(p: Pedido, clock: Clock): Option<int>
  {
    if p.data.Some? && p.horario.Some? then clock.parse(TextoDataHora(p.data.value, p.horario.value)) else None
  }

  /** Whether check `e` refuses the request, given whether the slot counts
      as taken. */
  predicate Falha(e: Etapa, p: Pedido, loja: Loja, clock: Clock, ocupado: bool)
  {
    match e
    case Campos => !(PresentInt(p.petId) && PresentInt(p.servicoId) && PresentStr(p.data) && PresentStr(p.horario))
    case Formato => p.horario.Some? && CasarHorario(p.horario.value).None?
    case Janela => p.horario.Some? && CasarHorario(p.horario.value).Some? && !NaJanela(CasarHorario(p.horario.value).value)
    case DataInvalida => Instante(p, clock).None?
    case Domingo => Instante(p, clock).Some? && clock.weekday(Instante(p, clock).value) == 0
    case Passado => Instante(p, clock).Some? && Instante(p, clock).value <= clock.now
    case SemPet => FindByPk(loja.pets, p.petId).None?
    case SemServico => p.servicoId.None? || p.servicoId.value !in loja.servicos
    case SemTosa => PresentInt(p.tosaId) && p.tosaId.value !in loja.tosas
    case Conflito => ocupado
  }

  // --------------------------------------------------------------- create

  datatype Criacao = Falhou(etapa: Etapa) | Criado(id: int)

  /** The association set `setX(list)` leaves: the list when it is a
      non-empty array, otherwise none. */
  function Associados(v: Value): seq<Value>
  {
    if v.Arr? && |v.items| > 0 then v.items else []
  }

  /** The checks in the order the route runs them. */
  const Etapas: seq<Etapa> := [Campos, Formato, Janela, DataInvalida, Domingo, Passado, SemPet, SemServico, SemTosa, Conflito]

  /** `Etapas` lists every check once, at its position. */
  lemma EtapasNaOrdem()
    ensures |Etapas| == 10
    ensures forall e :: Posicao(e) < |Etapas| && Etapas[Posicao(e)] == e
    ensures forall k :: 0 <= k < |Etapas| ==> Posicao(Etapas[k]) == k
  {
  }

  /** The verdict of every check, in order. */
  function Recusas(p: Pedido, loja: Loja, clock: Clock, ocupado: bool): (r: seq<bool>)
    ensures |r| == |Etapas|
    ensures forall k :: 0 <= k < |r| ==> r[k] == Falha(Etapas[k], p, loja, clock, ocupado)
  {
    seq(|Etapas|, k requires 0 <= k < |Etapas| => Falha(Etapas[k], p, loja, clock, ocupado))
  }

  /** The first refusing position from `i` on. */
  function PrimeiraRecusa(bs: seq<bool>, i: nat): (r: Option<nat>)
    requires i <= |bs|
    ensures r.Some? ==> i <= r.value < |bs| && bs[r.value] && forall j :: i <= j < r.value ==> !bs[j]
    ensures r.None? ==> forall j :: i <= j < |bs| ==> !bs[j]
    decreases |bs| - i
  {
    if i == |bs| then None
    else if bs[i] then Some(i)
    else PrimeiraRecusa(bs, i + 1)
  }

  /** The create chain with the conflict decision given: every check in
      order, the first failure wins, then the insert with status
      `pendente`. */
  function CriarCom(p: Pedido, loja: Loja, clock: Clock, ocupado: bool): (r: (Criacao, Loja))
    ensures r.0.Falhou? ==> r.1 == loja
    ensures r.0.Criado? ==>
      && p.petId.Some? && p.servicoId.Some? && p.data.Some? && p.horario.Some?
      && r.0.id == |loja.agendamentos| + 1
      && r.1 == loja.(agendamentos := r.1.agendamentos)
      && |r.1.agendamentos| == |loja.agendamentos| + 1
      && r.1.agendamentos[..|loja.agendamentos|] == loja.agendamentos
      && var novo := r.1.agendamentos[|loja.agendamentos|];
      && novo.petId == p.petId.value && novo.servicoId == p.servicoId.value
      && novo.data == p.data.value && novo.horario == p.horario.value
      && novo.status == "pendente"
      && novo.tosaId == (if PresentInt(p.tosaId) then p.tosaId else None)
      && novo.taxiDog == Truthy(p.taxiDog)
      && novo.observacao == (if PresentStr(p.observacao) then p.observacao else None)
      && novo.produtos == Associados(p.produtos)
      && novo.adicionais == Associados(p.servicosAdicionais)
  {
    var bs := Recusas(p, loja, clock, ocupado);
    match PrimeiraRecusa(bs, 0)
    case Some(k) => (Falhou(Etapas[k]), loja)
    case None =>
      assert !bs[0];
      var novo := Agendamento(
        p.petId.value, p.servicoId.value,
        if PresentInt(p.tosaId) then p.tosaId else None,
        p.data.value, p.horario.value,
        Truthy(p.taxiDog),
        if PresentStr(p.observacao) then p.observacao else None,
        "pendente",
        Associados(p.produtos), Associados(p.servicosAdicionais));
      (Criado(|loja.agendamentos| + 1), loja.(agendamentos := loja.agendamentos + [novo]))
  }

  /** The request fails at `e` exactly when `e` refuses it and no earlier
      check does. */
  lemma {:induction false} CriarPrimeiraFalha(e: Etapa, p: Pedido, loja: Loja, clock: Clock, ocupado: bool)
    ensures CriarCom(p, loja, clock, ocupado).0 == Falhou(e) <==>
      Falha(e, p, loja, clock, ocupado) && forall e' :: Posicao(e') < Posicao(e) ==> !Falha(e', p, loja, clock, ocupado)
  {
    var bs := Recusas(p, loja, clock, ocupado);
    var n := Posicao(e);
    EtapasNaOrdem();
    if CriarCom(p, loja, clock, ocupado).0 == Falhou(e) {
      var k := PrimeiraRecusa(bs, 0).value;
      assert Etapas[k] == e;
      assert k == n;
      forall e' | Posicao(e') < n
        ensures !Falha(e', p, loja, clock, ocupado)
      {
        assert !bs[Posicao(e')];
      }
    }
    if Falha(e, p, loja, clock, ocupado) && forall e' :: Posicao(e') < n ==> !Falha(e', p, loja, clock, ocupado) {
      assert bs[n];
      forall j | 0 <= j < n
        ensures !bs[j]
      {
        assert Posicao(Etapas[j]) == j;
      }
      var r := PrimeiraRecusa(bs, 0);
      assert r == Some(n);
    }
  }

  /** The request is stored exactly when no check refuses it. */
  lemma {:induction false} CriarSucesso(p: Pedido, loja: Loja, clock: Clock, ocupado: bool)
    ensures CriarCom(p, loja, clock, ocupado).0.Criado? <==> forall e :: !Falha(e, p, loja, clock, ocupado)
  {
    var bs := Recusas(p, loja, clock, ocupado);
    EtapasNaOrdem();
    if CriarCom(p, loja, clock, ocupado).0.Criado? {
      forall e
        ensures !Falha(e, p, loja, clock, ocupado)
      {
        assert !bs[Posicao(e)];
      }
    } else {
      var k := PrimeiraRecusa(bs, 0).value;
      assert Falha(Etapas[k], p, loja, clock, ocupado);
    }
  }

  /** A request without one of the four required fields is a 400 before
      anything is looked up. */
  lemma CamposAusentes(p: Pedido, loja: Loja, clock: Clock, ocupado: bool)
    requires !PresentInt(p.petId) || !PresentInt(p.servicoId) || !PresentStr(p.data) || !PresentStr(p.horario)
    ensures CriarCom(p, loja, clock, ocupado) == (Falhou(Campos), loja)
    ensures Status(Campos) == 400
  {
    CriarPrimeiraFalha(Campos, p, loja, clock, ocupado);
  }

  /** The booking's instant equal to the current instant counts as past. */
  lemma AgoraEhPassado(p: Pedido, loja: Loja, clock: Clock, ocupado: bool)
    requires forall e :: Posicao(e) < Posicao(Passado) ==> !Falha(e, p, loja, clock, ocupado)
    requires Instante(p, clock) == Some(clock.now)
    ensures CriarCom(p, loja, clock, ocupado).0 == Falhou(Passado)
  {
    CriarPrimeiraFalha(Passado, p, loja, clock, ocupado);
  }

  /** The grooming option is looked up only when `tosaId` is truthy. */
  lemma TosaSoQuandoDada(p: Pedido, loja: Loja, clock: Clock, ocupado: bool)
    requires !PresentInt(p.tosaId)
    ensures CriarCom(p, loja, clock, ocupado).0 != Falhou(SemTosa)
  {
    CriarPrimeiraFalha(SemTosa, p, loja, clock, ocupado);
  }

  /** The conflict decision of the route as written: the one row `findOne`
      returns for the raw `(data, horario)` pair holds the slot. */
  predicate ConflitoEncontrado(p: Pedido, loja: Loja, pick: nat)
  {
    p.data.Some? && p.horario.Some? &&
    var i := Encontrado(loja.agendamentos, p.data.value, p.horario.value, pick);
    i.Some? && Ocupa(loja.agendamentos[i.value].status)
  }

  /** Every check that runs before the conflict check passes. */
  predicate ValidoAteConflito(p: Pedido, loja: Loja, clock: Clock)
  {
    forall e :: Posicao(e) < Posicao(Conflito) ==> !Falha(e, p, loja, clock, false)
  }

  /** Once the earlier checks pass, the conflict decision alone chooses
      between the 409 and the insert. */
  lemma {:induction false} ConflitoDecide(p: Pedido, loja: Loja, clock: Clock, ocupado: bool)
    ensures CriarCom(p, loja, clock, ocupado).0 == Falhou(Conflito) <==> ValidoAteConflito(p, loja, clock) && ocupado
    ensures CriarCom(p, loja, clock, ocupado).0.Criado? <==> ValidoAteConflito(p, loja, clock) && !ocupado
  {
    assert forall e :: e != Conflito ==> (Falha(e, p, loja, clock, ocupado) <==> Falha(e, p, loja, clock, false));
    assert forall e :: Posicao(e) < Posicao(Conflito) <==> e != Conflito;
    CriarPrimeiraFalha(Conflito, p, loja, clock, ocupado);
    CriarSucesso(p, loja, clock, ocupado);
  }

  /** `POST /agendamentos` as written: past the other checks, the answer is
      a 409 exactly when the row `findOne` returns holds the slot. */
  function Criar(p: Pedido, loja: Loja, clock: Clock, pick: nat): (r: (Criacao, Loja))
    ensures r.0.Falhou? ==> r.1 == loja
    ensures r.0 == Falhou(Conflito) <==> ValidoAteConflito(p, loja, clock) && ConflitoEncontrado(p, loja, pick)
    ensures r.0.Criado? <==> ValidoAteConflito(p, loja, clock) && !ConflitoEncontrado(p, loja, pick)
  {
    ConflitoDecide(p, loja, clock, ConflitoEncontrado(p, loja, pick));
    CriarCom(p, loja, clock, ConflitoEncontrado(p, loja, pick))
  }

  /** A 409 is decided by the status of the row found alone: a completed or
      rejected booking in the same slot does not block. */
  lemma ConflitoPelaLinhaEncontrada(p: Pedido, loja: Loja, pick: nat)
    requires p.data.Some? && p.horario.Some?
    ensures var i := Encontrado(loja.agendamentos, p.data.value, p.horario.value, pick);
      && (i.None? ==> !ConflitoEncontrado(p, loja, pick))
      && (i.Some? ==> (ConflitoEncontrado(p, loja, pick) <==> Ocupa(loja.agendamentos[i.value].status)))
      && (i.Some? && loja.agendamentos[i.value].status in {"concluido", "reprovado"} ==> !ConflitoEncontrado(p, loja, pick))
  {
  }

  /** The slot is the raw text: a booking at `9:00` does not see one at
      `09:00`, although both name the same instant. */
  lemma NoveHorasDuasGrafias(p: Pedido, loja: Loja, pick: nat)
    requires p.data.Some? && p.horario == Some(TextoCurto(9, 0))
    requires forall j :: 0 <= j < |loja.agendamentos| ==> loja.agendamentos[j].horario == Texto(9, 0)
    ensures !ConflitoEncontrado(p, loja, pick)
    ensures PadStart(TextoCurto(9, 0), 5, '0') == Texto(9, 0)
    ensures CasarHorario(TextoCurto(9, 0)) == CasarHorario(Texto(9, 0)) == Some((9, 0))
  {
    assert |TextoCurto(9, 0)| != |Texto(9, 0)|;
    CasarHorarioIff(TextoCurto(9, 0), 9, 0);
    CasarHorarioIff(Texto(9, 0), 9, 0);
  }

  // --------------------------------------------------- slot exclusivity

  /** No two bookings of one slot both hold it. */
  predicate SlotExclusivo(ags: seq<Agendamento>)
  {
    forall i, j :: 0 <= i < j < |ags| && ags[i].data == ags[j].data && ags[i].horario == ags[j].horario ==>
      !(Ocupa(ags[i].status) && Ocupa(ags[j].status))
  }

  /** Some booking of the slot holds it. */
  predicate OcupadoPorAlguem(ags: seq<Agendamento>, data: string, horario: string)
  {
    exists i :: 0 <= i < |ags| && ags[i].data == data && ags[i].horario == horario && Ocupa(ags[i].status)
  }

  /** The conflict decision the comment above the check describes: any
      booking of the slot that holds it. */
  predicate ConflitoCorrigido(p: Pedido, loja: Loja)
  {
    p.data.Some? && p.horario.Some? && OcupadoPorAlguem(loja.agendamentos, p.data.value, p.horario.value)
  }

  /** `POST /agendamentos` with the conflict check over every booking of the
      slot. */
  function CriarCorrigido(p: Pedido, loja: Loja, clock: Clock): (r: (Criacao, Loja))
    ensures r.0.Falhou? ==> r.1 == loja
    ensures r.0 == Falhou(Conflito) <==> ValidoAteConflito(p, loja, clock) && ConflitoCorrigido(p, loja)
    ensures r.0.Criado? <==> ValidoAteConflito(p, loja, clock) && !ConflitoCorrigido(p, loja)
  {
    ConflitoDecide(p, loja, clock, ConflitoCorrigido(p, loja));
    CriarCom(p, loja, clock, ConflitoCorrigido(p, loja))
  }

  /** The corrected create never puts a second holding booking in a slot. */
  lemma CriarCorrigidoPreservaExclusivo(p: Pedido, loja: Loja, clock: Clock)
    requires SlotExclusivo(loja.agendamentos)
    ensures SlotExclusivo(CriarCorrigido(p, loja, clock).1.agendamentos)
  {
    var r := CriarCorrigido(p, loja, clock);
    if r.0.Criado? {
      var ags := loja.agendamentos;
      var ags' := r.1.agendamentos;
      var n := |ags|;
      assert !Falha(Conflito, p, loja, clock, ConflitoCorrigido(p, loja)) by {
        CriarSucesso(p, loja, clock, ConflitoCorrigido(p, loja));
      }
      forall i, j | 0 <= i < j < |ags'| && ags'[i].data == ags'[j].data && ags'[i].horario == ags'[j].horario
        ensures !(Ocupa(ags'[i].status) && Ocupa(ags'[j].status))
      {
        assert ags'[i] == ags[i];
        if j < n {
          assert ags'[j] == ags[j];
        } else {
          assert !(ags[i].data == p.data.value && ags[i].horario == p.horario.value && Ocupa(ags[i].status));
        }
      }
    }
  }

  /** With at most one booking in the slot the two conflict decisions
      agree, whatever row `findOne` would return. */
  lemma UmaLinhaNoHorario(p: Pedido, loja: Loja, pick: nat)
    requires p.data.Some? && p.horario.Some?
    requires forall i, j :: 0 <= i < j < |loja.agendamentos| ==>
      !(loja.agendamentos[i].data == loja.agendamentos[j].data == p.data.value &&
        loja.agendamentos[i].horario == loja.agendamentos[j].horario == p.horario.value)
    ensures ConflitoEncontrado(p, loja, pick) == ConflitoCorrigido(p, loja)
  {
    var ags := loja.agendamentos;
    var f := Encontrado(ags, p.data.value, p.horario.value, pick);
    if ConflitoCorrigido(p, loja) {
      var k :| 0 <= k < |ags| && ags[k].data == p.data.value && ags[k].horario == p.horario.value && Ocupa(ags[k].status);
      assert f.Some?;
      if f.value < k {
        assert false;
      } else if k < f.value {
        assert false;
      }
    }
  }

  /** With no refusing check the request is stored under the next id. */
  lemma CriaSemFalhas(p: Pedido, loja: Loja, clock: Clock)
    requires forall e :: e != Conflito ==> !Falha(e, p, loja, clock, false)
    ensures CriarCom(p, loja, clock, false).0 == Criado(|loja.agendamentos| + 1)
  {
    CriarSucesso(p, loja, clock, false);
  }

  /** The checks before the conflict do not read the bookings. */
  lemma ValidacoesSemAgendamentos(p: Pedido, loja: Loja, loja': Loja, clock: Clock)
    requires loja'.pets == loja.pets && loja'.servicos == loja.servicos && loja'.tosas == loja.tosas
    requires forall e :: e != Conflito ==> !Falha(e, p, loja, clock, false)
    ensures forall e :: e != Conflito ==> !Falha(e, p, loja', clock, false)
  {
    forall e | e != Conflito
      ensures !Falha(e, p, loja', clock, false)
    {
      assert Falha(e, p, loja', clock, false) == Falha(e, p, loja, clock, false);
    }
  }

  /** The slot lookup over one or two rows, all of that slot. */
  lemma NoHorarioTodos(ags: seq<Agendamento>, data: string, horario: string)
    requires 1 <= |ags| <= 2
    requires forall j :: 0 <= j < |ags| ==> ags[j].data == data && ags[j].horario == horario
    ensures NoHorario(ags, data, horario, 0) == if |ags| == 1 then [0] else [0, 1]
  {
    assert NoHorario(ags, data, horario, |ags|) == [];
    if |ags| == 2 {
      assert NoHorario(ags, data, horario, 1) == [1];
    }
  }

  /** The route as written can double-book: after a rejected booking of a
      slot, a first request books it, and a second request whose `findOne`
      returns the rejected row books it again. */
  lemma ReservaDuplaAposReprovacao(p: Pedido, loja: Loja, clock: Clock, pick: nat)
    requires forall e :: e != Conflito ==> !Falha(e, p, loja, clock, false)
    requires p.data.Some? && p.horario.Some?
    requires |loja.agendamentos| == 1
    requires loja.agendamentos[0].data == p.data.value && loja.agendamentos[0].horario == p.horario.value
    requires loja.agendamentos[0].status == "reprovado"
    ensures var l1 := Criar(p, loja, clock, pick).1;
      && Criar(p, loja, clock, pick).0 == Criado(2)
      && Criar(p, l1, clock, 0).0 == Criado(3)
      && !SlotExclusivo(Criar(p, l1, clock, 0).1.agendamentos)
  {
    var d, h := p.data.value, p.horario.value;
    assert !Ocupa("reprovado");
    NoHorarioTodos(loja.agendamentos, d, h);
    assert !ConflitoEncontrado(p, loja, pick);
    CriaSemFalhas(p, loja, clock);
    var l1 := Criar(p, loja, clock, pick).1;
    NoHorarioTodos(l1.agendamentos, d, h);
    assert !ConflitoEncontrado(p, l1, 0);
    ValidacoesSemAgendamentos(p, loja, l1, clock);
    CriaSemFalhas(p, l1, clock);
    var ags2 := Criar(p, l1, clock, 0).1.agendamentos;
    assert ags2[1].status == "pendente" && ags2[2].status == "pendente";
    assert Ocupa("pendente");
  }

  // --------------------------------------------------- approve and status

  /** The account a notification about booking `a` goes to: the pet's
      owner, when the pet exists and has a truthy `usuarioId`. */
  function Dono(loja: Loja, a: Agendamento): (r: Option<int>)
    ensures r.Some? <==> FindByPk(loja.pets, Some(a.petId)).Some? && FindByPk(loja.pets, Some(a.petId)).value.usuarioId != 0
    ensures r.Some? ==> HasId(loja.pets, a.petId) && r == Some(Get(loja.pets, a.petId).usuarioId)
  {
    var pet := FindByPk(loja.pets, Some(a.petId));
    if pet.Some? && pet.value.usuarioId != 0 then Some(pet.value.usuarioId) else None
  }

  /** Appends a notification for the owner of booking `a`, if there is one. */
  function Notificar(loja: Loja, a: Agendamento, tipo: string, titulo: string, mensagem: string, agora: int): (r: seq<Notificacoes.Notificacao>)
    ensures |r| == |loja.notificacoes| + (if Dono(loja, a).Some? then 1 else 0)
    ensures r[..|loja.notificacoes|] == loja.notificacoes
    ensures Dono(loja, a).Some? ==>
      var n := r[|loja.notificacoes|];
      n.usuarioId == Dono(loja, a).value && n.tipo == tipo && !n.lida && n.createdAt == agora
  {
    match Dono(loja, a)
    case None => loja.notificacoes
    case Some(u) => loja.notificacoes + [Notificacoes.Notificacao(u, tipo, titulo, mensagem, false, agora)]
  }

  datatype Resposta = Resposta(status: int, mensagem: string)

  const NaoEncontrado := "Agendamento n\U{00E3}o encontrado"

  /** `PUT /agendamentos/:id/approve`. */
  function Aprovar(id: Option<int>, loja: Loja, agora: int): (r: (Resposta, Loja))
    ensures FindByPk(loja.agendamentos, id).None? <==> r.0.status == 404
    ensures r.0.status == 404 ==> r.1 == loja
    ensures r.0.status != 404 ==>
      && r.0.status == 200
      && r.1.pets == loja.pets && r.1.servicos == loja.servicos && r.1.tosas == loja.tosas
      && r.1.agendamentos == Put(loja.agendamentos, id.value, Get(loja.agendamentos, id.value).(status := "aprovado"))
      && var dono := Dono(loja, Get(loja.agendamentos, id.value));
      && (dono.None? ==> r.1.notificacoes == loja.notificacoes)
      && (dono.Some? ==>
            && |r.1.notificacoes| == |loja.notificacoes| + 1
            && r.1.notificacoes[..|loja.notificacoes|] == loja.notificacoes
            && r.1.notificacoes[|loja.notificacoes|].usuarioId == dono.value
            && r.1.notificacoes[|loja.notificacoes|].tipo == "aprovacao"
            && !r.1.notificacoes[|loja.notificacoes|].lida)
  {
    match FindByPk(loja.agendamentos, id)
    case None => (Resposta(404, NaoEncontrado), loja)
    case Some(a) =>
      var ags := Put(loja.agendamentos, id.value, a.(status := "aprovado"));
      var ns := Notificar(loja, a, "aprovacao", "Agendamento aprovado",
                          "Seu agendamento #" + IntToString(id.value) + " foi aprovado.", agora);
      (Resposta(200, "ok"), loja.(agendamentos := ags, notificacoes := ns))
  }

  /** The notification type for a new status. */
  function TipoDoStatus(status: string): (tipo: string)
    ensures tipo == "reprovacao" <==> status == "reprovado"
    ensures tipo != "reprovacao" ==> tipo == "status"
  {
    if status == "reprovado" then "reprovacao" else "status"
  }

  /** `PUT /agendamentos/:id/status`: an absent status fails the NOT NULL
      column when saving, which the route answers with 500. */
  function AlterarStatus(id: Option<int>, status: Option<string>, loja: Loja, agora: int): (r: (Resposta, Loja))
    ensures FindByPk(loja.agendamentos, id).None? <==> r.0.status == 404
    ensures r.0.status in {200, 404, 500}
    ensures r.0.status != 200 ==> r.1 == loja
    ensures r.0.status == 500 <==> FindByPk(loja.agendamentos, id).Some? && status.None?
    ensures r.0.status == 200 ==>
      && status.Some?
      && r.1.pets == loja.pets && r.1.servicos == loja.servicos && r.1.tosas == loja.tosas
      && r.1.agendamentos == Put(loja.agendamentos, id.value, Get(loja.agendamentos, id.value).(status := status.value))
      && var dono := Dono(loja, Get(loja.agendamentos, id.value));
      && (dono.None? ==> r.1.notificacoes == loja.notificacoes)
      && (dono.Some? ==>
            && |r.1.notificacoes| == |loja.notificacoes| + 1
            && r.1.notificacoes[..|loja.notificacoes|] == loja.notificacoes
            && r.1.notificacoes[|loja.notificacoes|].usuarioId == dono.value
            && r.1.notificacoes[|loja.notificacoes|].tipo == TipoDoStatus(status.value))
  {
    match FindByPk(loja.agendamentos, id)
    case None => (Resposta(404, NaoEncontrado), loja)
    case Some(a) =>
      if status.None? then (Resposta(500, "Erro ao alterar status"), loja)
      else
        var ags := Put(loja.agendamentos, id.value, a.(status := status.value));
        var ns := Notificar(loja, a, TipoDoStatus(status.value), "Status do agendamento atualizado",
                            "Agendamento #" + IntToString(id.value) + " agora est\U{00E1}: " + status.value + ".", agora);
        (Resposta(200, "ok"), loja.(agendamentos := ags, notificacoes := ns))
  }

  /** Approving is setting the status to `aprovado`, except for the
      notification's type and text. */
  lemma AprovarComoStatus(id: Option<int>, loja: Loja, agora: int)
    ensures Aprovar(id, loja, agora).0.status == AlterarStatus(id, Some("aprovado"), loja, agora).0.status
    ensures Aprovar(id, loja, agora).1.agendamentos == AlterarStatus(id, Some("aprovado"), loja, agora).1.agendamentos
    ensures |Aprovar(id, loja, agora).1.notificacoes| == |AlterarStatus(id, Some("aprovado"), loja, agora).1.notificacoes|
  {
  }

  // ------------------------------------------------------------------ list

  /** The statuses `GET /agendamentos` shows: the slot-holding ones and
      `concluido`. */
  const StatusListados: seq<string> := StatusQueOcupam + ["concluido"]

  /** The filters of `GET /agendamentos`. Query values are strings, so any
      given `petId`, `0` included, is truthy and filters; `None` is an absent
      or empty one. `noDia(d, q)` says the stored date `d` falls within the
      local day of the query date `q`. */
  predicate Listado(a: Agendamento, petId: Option<int>, data: Option<string>, noDia: (string, string) -> bool)
  {
    && (petId.Some? ==> a.petId == petId.value)
    && (PresentStr(data) ==> noDia(a.data, data.value))
    && a.status in StatusListados
  }

  /** The ids of the listed bookings from position `i` on. */
  function ListarDesde(ags: seq<Agendamento>, petId: Option<int>, data: Option<string>,
                       noDia: (string, string) -> bool, i: nat): (r: seq<int>)
    requires i <= |ags|
    ensures forall k :: 0 <= k < |r| ==> i < r[k] <= |ags| && Listado(Get(ags, r[k]), petId, data, noDia)
    ensures forall id :: i < id <= |ags| && Listado(Get(ags, id), petId, data, noDia) ==> id in r
    decreases |ags| - i
  {
    if i == |ags| then []
    else if Listado(ags[i], petId, data, noDia) then [i + 1] + ListarDesde(ags, petId, data, noDia, i + 1)
    else ListarDesde(ags, petId, data, noDia, i + 1)
  }

  /** `GET /agendamentos`. */
  function Listar(loja: Loja, petId: Option<int>, data: Option<string>, noDia: (string, string) -> bool): (r: seq<int>)
    ensures forall id :: id in r <==> HasId(loja.agendamentos, id) && Listado(Get(loja.agendamentos, id), petId, data, noDia)
  {
    ListarDesde(loja.agendamentos, petId, data, noDia, 0)
  }

  /** A completed booking is listed although it no longer holds its slot;
      a rejected one is never listed. */
  lemma ConcluidoListadoSemOcupar(a: Agendamento)
    ensures a.status == "concluido" ==> a.status in StatusListados && !Ocupa(a.status)
    ensures a.status == "reprovado" ==> a.status !in StatusListados
    ensures Ocupa(a.status) ==> a.status in StatusListados
  {
  }
}

=== FILE: auth.dfy ===
/**
 * The token helpers of `utils/auth.js`. Signing, verifying and decoding a
 * JSON Web Token are parameters of the model: `Jwt` bundles what the
 * `jsonwebtoken` library does with the configured secret.
 */
module Auth {
  import opened Wrappers
  import opened Js
  import opened Text

  /** The claims the handlers read back from a token; `None` is a claim the
      token does not carry. */
  datatype Claims = Claims(id: Option<int>, email: Option<string>, tipo: Option<string>, exp: Option<int>)

  /** `jwt.sign(payload, secret, { expiresIn })` with the expiry in seconds,
      `jwt.verify(token, secret)` (`None` when it throws) and
      `jwt.decode(token)` (`None` for `null` or a throw). */
  datatype Jwt = Jwt(
    sign: (Claims, int) -> string,
    verify: string -> Option<Claims>,
    decode: string -> Option<Claims>)

  const OitoHoras := 8 * 60 * 60
  const UmaHora := 60 * 60

  /** A string argument the guards accept: truthy and of type string. */
  predicate StringValida(v: Value)
  {
    Truthy(v) && v.Str?
  }

  /** `gerarToken(payload)`: the guard rejects a falsy or non-object payload;
      the claims added (`iat`, `nonce`) are part of `sign`. */
  function GerarToken(payload: Value, sign: Value -> string): (r: Result<string, string>)
    ensures r.Err? <==> !Truthy(payload) || !TypeofObject(payload)
    ensures r.Err? ==> r.error == "Payload deve ser um objeto v\U{00E1}lido"
    ensures r.Ok? ==> r.value == sign(payload)
  {
    if !Truthy(payload) || !TypeofObject(payload) then Err("Payload deve ser um objeto v\U{00E1}lido")
    else Ok(sign(payload))
  }

  /** Exactly objects and arrays are signed: `null`, whose `typeof` is
      also `"object"`, is refused for being falsy, and a string or number
      for its type. */
  lemma GerarTokenAceita(payload: Value, sign: Value -> string)
    ensures GerarToken(payload, sign).Ok? <==> payload.Obj? || payload.Arr?
  {
  }

  /** `validarToken(token)`. */
  function ValidarToken(token: Value, jwt: Jwt): (r: Result<Claims, string>)
    ensures !StringValida(token) ==> r == Err("Token deve ser uma string v\U{00E1}lida")
    ensures StringValida(token) && jwt.verify(token.s).None? ==> r == Err("Token inv\U{00E1}lido ou expirado")
    ensures r.Ok? <==> StringValida(token) && jwt.verify(token.s).Some?
    ensures r.Ok? ==> jwt.verify(token.s) == Some(r.value)
  {
    if !Truthy(token) || !token.Str? then Err("Token deve ser uma string v\U{00E1}lida")
    else
      match jwt.verify(token.s)
      case None => Err("Token inv\U{00E1}lido ou expirado")
      case Some(c) => Ok(c)
  }

  /** `extrairTokenDoHeader(h)`: the second piece when the header splits on
      single spaces into exactly `Bearer` and one more piece. */
  function ExtrairTokenDoHeader(h: Value): (r: Option<string>)
    ensures !StringValida(h) ==> r == None
    ensures r.Some? ==> ' ' !in r.value
  {
    if !Truthy(h) || !h.Str? then None
    else
      var parts := Split(h.s, ' ');
      if |parts| != 2 || parts[0] != "Bearer" then None
      else Some(parts[1])
  }

  /** The header yields `t` exactly when it is `Bearer`, one space and `t`,
      and `t` has no space of its own. */
  lemma {:induction false} ExtrairTokenDoHeaderIff(s: string, t: string)
    ensures ExtrairTokenDoHeader(Str(s)) == Some(t) <==> (s == "Bearer " + t && ' ' !in t)
  {
    if s == "Bearer " + t && ' ' !in t {
      assert "Bearer" + [' '] + t == s;
      assert Join(["Bearer", t], ' ') == s;
      assert ' ' !in "Bearer";
      SplitUnique(s, ' ', ["Bearer", t]);
    }
    if ExtrairTokenDoHeader(Str(s)) == Some(t) {
      var parts := Split(s, ' ');
      assert Join(parts, ' ') == parts[0] + [' '] + Join(parts[1..], ' ');
      assert parts[1..] == [t];
      assert s == "Bearer" + [' '] + t;
    }
  }

  /** `"Bearer "` gives the empty token. */
  lemma BearerSemToken()
    ensures ExtrairTokenDoHeader(Str("Bearer ")) == Some("")
  {
    ExtrairTokenDoHeaderIff("Bearer ", "");
    assert "Bearer " == "Bearer " + [];
  }

  /** The scheme is case-sensitive: `bearer` is refused. */
  lemma EsquemaMinusculo(t: string)
    ensures ExtrairTokenDoHeader(Str("bearer " + t)) == None
  {
  }

  /** Two spaces after the scheme make three pieces, which are refused. */
  lemma {:induction false} EspacoDuplo(t: string)
    ensures ExtrairTokenDoHeader(Str("Bearer  " + t)) == None
  {
    var s := "Bearer  " + t;
    var x := ExtrairTokenDoHeader(Str(s)).GetOr([]);
    ExtrairTokenDoHeaderIff(s, x);
    TokenComecaComEspaco(s, x);
  }

  lemma TokenComecaComEspaco(s: string, x: string)
    requires |s| > 7 && s[7] == ' '
    ensures s == "Bearer " + x ==> ' ' in x
  {
    if s == "Bearer " + x {
      assert x[0] == s[7];
    }
  }

  /** `decodificarTokenSemValidar(token)`. */
  function DecodificarTokenSemValidar(token: Value, jwt: Jwt): (r: Option<Claims>)
    ensures !StringValida(token) ==> r == None
    ensures StringValida(token) ==> r == jwt.decode(token.s)
  {
    if !Truthy(token) || !token.Str? then None else jwt.decode(token.s)
  }

  /** `verificarExpiracaoToken(token)` at the instant `agoraMs` (milliseconds
      since the epoch): a token that does not decode or has no truthy `exp`
      counts as expired; otherwise it is expired when `exp` is before the
      current whole second. */
  function VerificarExpiracaoToken(token: Value, jwt: Jwt, agoraMs: int): (expirado: bool)
    ensures DecodificarTokenSemValidar(token, jwt).None? ==> expirado
    ensures var d := DecodificarTokenSemValidar(token, jwt);
      d.Some? && !PresentInt(d.value.exp) ==> expirado
  {
    var decoded := DecodificarTokenSemValidar(token, jwt);
    if decoded.None? || !PresentInt(decoded.value.exp) then true
    else
      var agora := agoraMs / 1000;
      decoded.value.exp.value < agora
  }

  /** A token with an `exp` claim is expired exactly when a whole second has
      begun after `exp`: `exp` equal to the current second is still valid. */
  lemma VerificarExpiracaoSegundos(token: Value, jwt: Jwt, agoraMs: int)
    requires DecodificarTokenSemValidar(token, jwt).Some?
    requires PresentInt(DecodificarTokenSemValidar(token, jwt).value.exp)
    ensures var exp := DecodificarTokenSemValidar(token, jwt).value.exp.value;
      VerificarExpiracaoToken(token, jwt, agoraMs) <==> (exp + 1) * 1000 <= agoraMs
  {
  }

  /** `gerarTokenRecuperacao(email)`: a token for `{ email, tipo:
      'recuperacao' }` valid for one hour. */
  function GerarTokenRecuperacao(email: Value, jwt: Jwt): (r: Result<string, string>)
    ensures r.Err? <==> !StringValida(email)
    ensures r.Err? ==> r.error == "Email deve ser uma string v\U{00E1}lida"
    ensures r.Ok? ==> r.value == jwt.sign(Claims(None, Some(email.s), Some("recuperacao"), None), UmaHora)
  {
    if !Truthy(email) || !email.Str? then Err("Email deve ser uma string v\U{00E1}lida")
    else Ok(jwt.sign(Claims(None, Some(email.s), Some("recuperacao"), None), 60 * 60))
  }

  /** `validarTokenRecuperacao(token)`: a verified token whose `tipo` is
      `'recuperacao'`. */
  function ValidarTokenRecuperacao(token: Value, jwt: Jwt): (r: Result<Claims, string>)
    ensures ValidarToken(token, jwt).Err? ==> r == ValidarToken(token, jwt)
    ensures r.Ok? <==> ValidarToken(token, jwt).Ok? && ValidarToken(token, jwt).value.tipo == Some("recuperacao")
    ensures r.Ok? ==> r == ValidarToken(token, jwt)
  {
    match ValidarToken(token, jwt)
    case Err(e) => Err(e)
    case Ok(decoded) =>
      if decoded.tipo != Some("recuperacao") then Err("Token de recupera\U{00E7}\U{00E3}o inv\U{00E1}lido")
      else Ok(decoded)
  }

  /** What the library promises of a fresh token: it is non-empty, and
      `verify` accepts it and gives back its `email` and `tipo` (with `iat`
      and `exp` of the library's own). */
  ghost predicate VerificaOQueAssina(jwt: Jwt)
  {
    forall c, e ::
      && jwt.sign(c, e) != []
      && jwt.verify(jwt.sign(c, e)).Some?
      && jwt.verify(jwt.sign(c, e)).value.email == c.email
      && jwt.verify(jwt.sign(c, e)).value.tipo == c.tipo
  }

  /** A recovery token validates to its own e-mail. */
  lemma RecuperacaoIdaEVolta(email: string, jwt: Jwt)
    requires email != []
    requires VerificaOQueAssina(jwt)
    ensures var t := GerarTokenRecuperacao(Str(email), jwt);
      && t.Ok?
      && var v := ValidarTokenRecuperacao(Str(t.value), jwt);
      && v.Ok? && v.value.email == Some(email) && v.value.tipo == Some("recuperacao")
  {
  }

  /** A session token never passes as a recovery token. */
  lemma SessaoNaoRecupera(token: Value, jwt: Jwt)
    requires ValidarToken(token, jwt).Ok? && ValidarToken(token, jwt).value.tipo != Some("recuperacao")
    ensures ValidarTokenRecuperacao(token, jwt) == Err("Token de recupera\U{00E7}\U{00E3}o inv\U{00E1}lido")
  {
  }
}

=== FILE: auth_middleware.dfy ===
/**
 * `middlewares/authMiddleware.js`: the guard in front of the `/me` routes.
 * The token is the second space-separated piece of the `Authorization`
 * header, whatever the first piece says; `verify` stands for
 * `jwt.verify` with the configured secret.
 */
module AuthMiddleware {
  import opened Wrappers
  import opened Text
  import opened Table
  import Js
  import Auth
  import Usuarios

  datatype Decisao =
    | NaoAutorizado(mensagem: string)
    | Prossegue(userId: Option<int>)

  /** `authorization?.split(' ')[1]`, `None` when there is no such piece. */
  function TokenDoCabecalho(h: Option<string>): (r: Option<string>)
    ensures h.None? ==> r.None?
    ensures r.Some? ==> ' ' !in r.value
  {
    if h.None? then None
    else
      var parts := Split(h.value, ' ');
      if |parts| < 2 then None else Some(parts[1])
  }

  /** An account the guard lets through: it exists and is not deleted. */
  predicate Ativo(t: seq<Usuarios.Usuario>, id: Option<int>)
  {
    FindByPk(t, id).Some? && !FindByPk(t, id).value.deletado
  }

  /** The guard's decision: no token, a token that does not verify, an
      unknown or deleted account are all 401; otherwise the request goes on
      with the token's `id`. */
  function Autenticar(h: Option<string>, verify: string -> Option<Auth.Claims>, t: seq<Usuarios.Usuario>): (r: Decisao)
    ensures r.Prossegue? <==>
      && TokenDoCabecalho(h).Some? && TokenDoCabecalho(h).value != []
      && verify(TokenDoCabecalho(h).value).Some?
      && Ativo(t, verify(TokenDoCabecalho(h).value).value.id)
    ensures r.Prossegue? ==> r.userId == verify(TokenDoCabecalho(h).value).value.id
    ensures r.NaoAutorizado? && (TokenDoCabecalho(h).None? || TokenDoCabecalho(h).value == []) ==>
      r.mensagem == "Token n\U{00E3}o fornecido."
  {
    var token := TokenDoCabecalho(h);
    if token.None? || token.value == [] then NaoAutorizado("Token n\U{00E3}o fornecido.")
    else
      match verify(token.value)
      case None => NaoAutorizado("Token inv\U{00E1}lido.")
      case Some(decoded) =>
        var usuario := FindByPk(t, decoded.id);
        if usuario.None? || usuario.value.deletado then NaoAutorizado("Usu\U{00E1}rio n\U{00E3}o autorizado.")
        else Prossegue(decoded.id)
  }

  /** The second piece is taken whatever the first piece says. */
  lemma {:induction false} TokenDoCabecalhoQualquerEsquema(w: string, x: string)
    requires ' ' !in w && ' ' !in x
    ensures TokenDoCabecalho(Some(w + " " + x)) == Some(x)
  {
    var s := w + " " + x;
    assert s == Join([w, x], ' ');
    SplitUnique(s, ' ', [w, x]);
  }

  /** Pieces after the second are ignored: `Bearer a b` authenticates with `a`. */
  lemma {:induction false} TokenDoCabecalhoIgnoraResto(w: string, x: string, y: string)
    requires ' ' !in w && ' ' !in x
    ensures TokenDoCabecalho(Some(w + " " + x + " " + y)) == Some(x)
  {
    var s := w + " " + x + " " + y;
    var ys := Split(y, ' ');
    var parts := [w, x] + ys;
    assert parts[1..] == [x] + ys && ([x] + ys)[1..] == ys;
    assert Join(parts, ' ') == w + [' '] + (x + [' '] + Join(ys, ' '));
    assert s == Join(parts, ' ');
    SplitUnique(s, ' ', parts);
  }

  /** Wherever the strict helper of `utils/auth.js` finds a token, the guard
      reads the same one. */
  lemma TokenDoCabecalhoEstendeExtrair(s: string, x: string)
    requires Auth.ExtrairTokenDoHeader(Js.Str(s)) == Some(x)
    ensures TokenDoCabecalho(Some(s)) == Some(x)
  {
    Auth.ExtrairTokenDoHeaderIff(s, x);
    assert ' ' !in "Bearer";
    TokenDoCabecalhoQualquerEsquema("Bearer", x);
  }

  /** ... but the guard also accepts another scheme, which the helper refuses. */
  lemma EsquemaBasicAceito(x: string)
    requires ' ' !in x
    ensures TokenDoCabecalho(Some("Basic " + x)) == Some(x)
    ensures Auth.ExtrairTokenDoHeader(Js.Str("Basic " + x)) == None
  {
    assert ' ' !in "Basic";
    TokenDoCabecalhoQualquerEsquema("Basic", x);
    assert "Basic" + " " + x == "Basic " + x;
    var y := Auth.ExtrairTokenDoHeader(Js.Str("Basic " + x)).GetOr([]);
    Auth.ExtrairTokenDoHeaderIff("Basic " + x, y);
    NaoComecaComBearer(x, y);
  }

  lemma NaoComecaComBearer(x: string, y: string)
    ensures "Basic " + x != "Bearer " + y
  {
    assert ("Basic " + x)[1] == 'a';
    assert ("Bearer " + y)[1] == 'e';
  }

  /** Deleting an account locks its tokens out at the guard. */
  lemma ExcluidoBarrado(h: Option<string>, verify: string -> Option<Auth.Claims>, t: seq<Usuarios.Usuario>,
                        userId: Option<int>)
    requires TokenDoCabecalho(h).Some? && verify(TokenDoCabecalho(h).value).Some?
    requires verify(TokenDoCabecalho(h).value).value.id == userId
    ensures Autenticar(h, verify, Usuarios.ExcluirConta(userId, t).1).NaoAutorizado?
  {
  }
}

=== FILE: business.dfy ===
/**
 * The scheduling rules of `utils/business.js`: the list of free start times,
 * the error-accumulating appointment check, service durations by service
 * type and pet size, and a pet's age in years and months.
 */
module Business {
  import opened Wrappers
  import opened Js
  import opened Text
  import opened Calendar

  // ------------------------------------------------------------ start times

  /** The working day in minutes since midnight, and the step between slots. */
  const Abertura := 8 * 60
  const Fechamento := 18 * 60
  const Intervalo := 30

  /** The `i`-th candidate start time. */
  function SlotStart(i: nat): nat
  {
    Abertura + Intervalo * i
  }

  /** `HH:MM` with both parts zero-padded to two digits. */
  function HoraMinuto(m: nat): string
  {
    Pad2(m / 60) + ":" + Pad2(m % 60)
  }

  /** How many start times fit a service of `duracao` minutes. */
  function SlotCount(duracao: int): nat
  {
    if duracao <= Fechamento - Abertura then (Fechamento - Abertura - duracao) / Intervalo + 1 else 0
  }

  /** `calcularProximoHorarioDisponivel(data, duracao)`: every half-hour start
      from 08:00 whose service ends by 18:00. */
  method CalcularProximoHorarioDisponivel(duracao: int) returns (horarios: seq<string>)
    ensures |horarios| == SlotCount(duracao)
    ensures forall i :: 0 <= i < |horarios| ==>
      Abertura <= SlotStart(i) && SlotStart(i) + duracao <= Fechamento
    ensures forall i :: 0 <= i < |horarios| ==> horarios[i] == HoraMinuto(SlotStart(i))
  {
    horarios := [];
    var horario := Abertura;
    while horario + duracao <= Fechamento
      invariant horario == SlotStart(|horarios|)
      invariant |horarios| == 0 || SlotStart(|horarios| - 1) + duracao <= Fechamento
      invariant forall i :: 0 <= i < |horarios| ==>
        SlotStart(i) + duracao <= Fechamento && horarios[i] == HoraMinuto(SlotStart(i))
      decreases Fechamento - duracao - horario
    {
      horarios := horarios + [HoraMinuto(horario)];
      horario := horario + Intervalo;
    }
    SlotCountExato(duracao, |horarios|);
  }

  /** The slot count is the first index whose service would end after 18:00. */
  lemma SlotCountExato(duracao: int, n: nat)
    requires n == 0 || SlotStart(n - 1) + duracao <= Fechamento
    requires SlotStart(n) + duracao > Fechamento
    ensures SlotCount(duracao) == n
  {
    if n > 0 {
      assert 30 * (n - 1) <= 600 - duracao < 30 * n;
    }
  }

  /** No slot list is longer than the 20 half-hours of the working day. */
  lemma SlotCountBounds(duracao: int)
    requires duracao >= 0
    ensures SlotCount(duracao) <= 21
    ensures duracao <= 600 ==> SlotCount(duracao) >= 1
    ensures SlotCount(duracao) == 0 <==> duracao > 600
  {
  }

  // ------------------------------------------------- appointment validation

  /** `Number(text)` on a piece of `horario`: `None` stands for NaN. */
  function NumberOf(s: string): (r: Option<int>)
    ensures Trim(s) == [] ==> r == Some(0)
    ensures AllDigits(Trim(s)) && Trim(s) != [] ==> r == Some(ParseNat(Trim(s)))
  {
    var t := Trim(s);
    if t == [] then Some(0)
    else if AllDigits(t) then Some(ParseNat(t))
    else if (t[0] == '-' || t[0] == '+') && |t| > 1 && AllDigits(t[1..]) then
      var k: int := ParseNat(t[1..]);
      Some(if t[0] == '-' then -k else k)
    else None
  }

  /** `hora * 60 + minuto` from `horario.split(':').map(Number)`; a missing
      minute is `Number(undefined)`, NaN. */
  function Minutos(horario: string): Option<int>
  {
    MinutosDasPartes(Split(horario, ':'))
  }

  function MinutosDasPartes(parts: seq<string>): Option<int>
  {
    if |parts| < 2 then None
    else
      var hora := NumberOf(parts[0]);
      var minuto := NumberOf(parts[1]);
      if hora.Some? && minuto.Some? then Some(hora.value * 60 + minuto.value) else None
  }

  /** The errors `validarAgendamento` can report, in the order it checks them. */
  datatype Erro = Domingo | Passado | ForaDoHorario | ServicoObrigatorio | PetObrigatorio

  function Rank(e: Erro): nat
  {
    match e
    case Domingo => 0
    case Passado => 1
    case ForaDoHorario => 2
    case ServicoObrigatorio => 3
    case PetObrigatorio => 4
  }

  function Mensagem(e: Erro): string
  {
    match e
    case Domingo => "N\U{00E3}o funcionamos aos domingos"
    case Passado => "Data n\U{00E3}o pode ser no passado"
    case ForaDoHorario => "Hor\U{00E1}rio fora do funcionamento"
    case ServicoObrigatorio => "Servi\U{00E7}o \U{00E9} obrigat\U{00F3}rio"
    case PetObrigatorio => "Pet \U{00E9} obrigat\U{00F3}rio"
  }

  /** The fields `validarAgendamento` reads. */
  datatype Entrada = Entrada(data: Value, horario: Value, servicoId: Value, petId: Value)

  datatype Validacao = Validacao(valido: bool, erros: seq<Erro>)

  /** The day `new Date(data + 'T00:00:00')` names, if it parses. */
  function Dia(a: Entrada, clock: Clock): Option<int>
  {
    clock.parse(ToString(a.data) + "T00:00:00")
  }

  /** The five checks, each on its own. */
  predicate EhDomingo(a: Entrada, clock: Clock)
  {
    Dia(a, clock).Some? && clock.weekday(Dia(a, clock).value) == 0
  }

  predicate EhPassado(a: Entrada, clock: Clock)
  {
    Dia(a, clock).Some? && Dia(a, clock).value < clock.startOfToday
  }

  predicate ForaDoExpediente(horario: string)
  {
    Minutos(horario).Some? && (Minutos(horario).value < Abertura || Minutos(horario).value >= Fechamento)
  }

  predicate Aplica(e: Erro, a: Entrada, clock: Clock)
  {
    match e
    case Domingo => EhDomingo(a, clock)
    case Passado => EhPassado(a, clock)
    case ForaDoHorario => a.horario.Str? && ForaDoExpediente(a.horario.s)
    case ServicoObrigatorio => !Truthy(a.servicoId)
    case PetObrigatorio => !Truthy(a.petId)
  }

  /** The checks of `validarAgendamento`, in the order it runs them. */
  const Checagens: seq<Erro> := [Domingo, Passado, ForaDoHorario, ServicoObrigatorio, PetObrigatorio]

  /** Runs the checks `es` one after the other; each failing one appends its
      error. */
  function Reportados(es: seq<Erro>, a: Entrada, clock: Clock): seq<Erro>
  {
    if es == [] then []
    else (if Aplica(es[0], a, clock) then [es[0]] else []) + Reportados(es[1..], a, clock)
  }

  /** `validarAgendamento(a)`: `horario.split` throws a TypeError unless
      `horario` is a string, whatever the date checks before it found;
      otherwise valid exactly when no check reported an error. */
  function ValidarAgendamento(a: Entrada, clock: Clock): (r: Result<Validacao, string>)
    ensures r.Err? <==> !a.horario.Str?
    ensures r.Ok? ==> (r.value.valido <==> r.value.erros == [])
  {
    if !a.horario.Str? then Err("TypeError")
    else
      var erros := Reportados(Checagens, a, clock);
      Ok(Validacao(|erros| == 0, erros))
  }

  /** A run reports exactly the failing checks among those it runs. */
  lemma {:induction false} ReportadosIff(es: seq<Erro>, a: Entrada, clock: Clock, e: Erro)
    ensures e in Reportados(es, a, clock) <==> e in es && Aplica(e, a, clock)
  {
    if es != [] {
      ReportadosIff(es[1..], a, clock, e);
      assert es == [es[0]] + es[1..];
    }
  }

  /** Errors in strictly increasing check order. */
  predicate EmOrdem(es: seq<Erro>)
  {
    forall i, j :: 0 <= i < j < |es| ==> Rank(es[i]) < Rank(es[j])
  }

  /** A run keeps the order of the checks. */
  lemma {:induction false} ReportadosOrdem(es: seq<Erro>, a: Entrada, clock: Clock)
    requires EmOrdem(es)
    ensures EmOrdem(Reportados(es, a, clock))
  {
    if es != [] {
      var rest := Reportados(es[1..], a, clock);
      ReportadosOrdem(es[1..], a, clock);
      var r := Reportados(es, a, clock);
      if Aplica(es[0], a, clock) {
        assert r == [es[0]] + rest;
        forall i, j | 0 <= i < j < |r|
          ensures Rank(r[i]) < Rank(r[j])
        {
          var x := rest[j - 1];
          assert r[j] == x;
          if i > 0 {
            assert r[i] == rest[i - 1];
          } else {
            ReportadosIff(es[1..], a, clock, x);
            assert x in es[1..] by {
              assert x in rest;
            }
            var k :| 0 <= k < |es[1..]| && es[1..][k] == x;
            assert es[k + 1] == x;
            assert r[0] == es[0];
            assert Rank(es[0]) < Rank(es[k + 1]);
          }
        }
      } else {
        assert r == [] + rest;
        assert r == rest;
      }
    }
  }

  /** Every check runs: each error is reported exactly when its own condition
      holds, whatever the other fields are. */
  lemma ValidarAgendamentoErros(a: Entrada, clock: Clock)
    ensures ValidarAgendamento(a, clock).Ok? ==>
      forall e :: e in ValidarAgendamento(a, clock).value.erros <==> Aplica(e, a, clock)
  {
    forall e | ValidarAgendamento(a, clock).Ok?
      ensures e in ValidarAgendamento(a, clock).value.erros <==> Aplica(e, a, clock)
    {
      ReportadosIff(Checagens, a, clock, e);
      assert e in Checagens by {
        assert Checagens[Rank(e)] == e;
      }
    }
  }

  /** The errors come in check order, each at most once. */
  lemma ValidarAgendamentoOrdem(a: Entrada, clock: Clock)
    ensures ValidarAgendamento(a, clock).Ok? ==> EmOrdem(ValidarAgendamento(a, clock).value.erros)
  {
    assert forall i :: 0 <= i < |Checagens| ==> Rank(Checagens[i]) == i;
    ReportadosOrdem(Checagens, a, clock);
    if a.horario.Str? {
      assert ValidarAgendamento(a, clock).value.erros == Reportados(Checagens, a, clock);
    }
  }

  /** For a `HH:MM` text the working-hours error is reported exactly when the
      time is before 08:00 or at or after 18:00. */
  lemma {:induction false} JanelaComercial(a: Entrada, clock: Clock, h: string, m: string)
    requires |h| == 2 && |m| == 2 && AllDigits(h) && AllDigits(m)
    requires a.horario == Str(h + [':'] + m)
    ensures ValidarAgendamento(a, clock).Ok?
    ensures ForaDoHorario in ValidarAgendamento(a, clock).value.erros <==>
      (ParseNat(h) * 60 + ParseNat(m) < 8 * 60 || ParseNat(h) * 60 + ParseNat(m) >= 18 * 60)
  {
    MinutosDe(h, m);
    ValidarAgendamentoErros(a, clock);
  }

  /** 17:59 is inside working hours and 18:00 is not. */
  lemma UltimoMinuto(a: Entrada, clock: Clock)
    requires a.horario == Str("17:59")
    ensures ValidarAgendamento(a, clock).Ok? && ForaDoHorario !in ValidarAgendamento(a, clock).value.erros
  {
    assert a.horario == Str("17" + [':'] + "59");
    JanelaComercial(a, clock, "17", "59");
  }

  lemma DezoitoHoras(a: Entrada, clock: Clock)
    requires a.horario == Str("18:00")
    ensures ValidarAgendamento(a, clock).Ok? && ForaDoHorario in ValidarAgendamento(a, clock).value.erros
  {
    assert a.horario == Str("18" + [':'] + "00");
    JanelaComercial(a, clock, "18", "00");
  }

  /** Two digit strings around a colon give hours times 60 plus minutes. */
  lemma {:induction false} MinutosDe(h: string, m: string)
    requires h != [] && m != [] && AllDigits(h) && AllDigits(m)
    ensures Minutos(h + [':'] + m) == Some(ParseNat(h) * 60 + ParseNat(m))
  {
    DigitsHaveNoColon(h);
    DigitsHaveNoColon(m);
    MinutosSplit(h, m);
    var x := ParseNat(h);
    var y := ParseNat(m);
    NumberOfDigits(h);
    NumberOfDigits(m);
    MinutosDasPartesSome(h, m, x, y);
  }

  lemma DigitsHaveNoColon(s: string)
    requires AllDigits(s)
    ensures ':' !in s
  {
  }

  lemma {:induction false} MinutosSplit(h: string, m: string)
    requires ':' !in h && ':' !in m
    ensures Minutos(h + [':'] + m) == MinutosDasPartes([h, m])
  {
    SplitOf(h, m);
  }

  lemma MinutosDasPartesSome(h: string, m: string, x: int, y: int)
    requires NumberOf(h) == Some(x) && NumberOf(m) == Some(y)
    ensures MinutosDasPartes([h, m]) == Some(x * 60 + y)
  {
    assert [h, m][0] == h && [h, m][1] == m;
  }

  lemma {:induction false} NumberOfDigits(s: string)
    requires s != [] && AllDigits(s)
    ensures NumberOf(s) == Some(ParseNat(s))
  {
    TrimDigits(s);
  }

  lemma {:induction false} TrimDigits(s: string)
    requires s != [] && AllDigits(s)
    ensures Trim(s) == s
  {
    assert !IsSpace(s[0]);
    assert !IsSpace(s[|s| - 1]);
    assert LeadingSpaces(s) == 0;
    assert TrailingSpaces(s) == 0;
  }

  lemma {:induction false} SplitOf(h: string, m: string)
    requires ':' !in h && ':' !in m
    ensures Split(h + [':'] + m, ':') == [h, m]
  {
    assert Join([h, m], ':') == h + [':'] + m;
    SplitUnique(h + [':'] + m, ':', [h, m]);
  }

  /** The past check is by day: an appointment for today is not in the past,
      and a text without a minute part is never out of hours. */
  lemma ValidarAgendamentoDia(a: Entrada, clock: Clock)
    requires Dia(a, clock) == Some(clock.startOfToday)
    ensures ValidarAgendamento(a, clock).Ok? ==> Passado !in ValidarAgendamento(a, clock).value.erros
  {
    ValidarAgendamentoErros(a, clock);
  }

  lemma SemMinutoNuncaForaDoHorario(a: Entrada, clock: Clock)
    requires a.horario.Str? && ':' !in a.horario.s
    ensures ValidarAgendamento(a, clock).Ok? && ForaDoHorario !in ValidarAgendamento(a, clock).value.erros
  {
    SplitNoSep(a.horario.s, ':');
    ValidarAgendamentoErros(a, clock);
  }

  // ------------------------------------------------------------- durations

  /** Base minutes by `servico.tipo`. */
  function TempoBase(tipo: Value): nat
  {
    if tipo == Str("banho") then 60
    else if tipo == Str("tosa") then 90
    else if tipo == Str("unha") then 15
    else if tipo == Str("completo") then 120
    else 60
  }

  /** The size factor by `pet.porte`, in tenths. */
  function Fator10(porte: Value): nat
  {
    if porte == Str("pequeno") then 8
    else if porte == Str("medio") then 10
    else if porte == Str("grande") then 13
    else if porte == Str("gigante") then 17
    else 10
  }

  /** `calcularTempoIndividual(servico, pet)`: `Math.round(base * fator)`,
      computed exactly in tenths; halves round up. */
  function TempoIndividual(tipo: Value, porte: Value): (r: int)
    ensures 10 * r - 5 <= TempoBase(tipo) * Fator10(porte) < 10 * r + 5
  {
    (TempoBase(tipo) * Fator10(porte) + 5) / 10
  }

  /** The `servico` argument: one service, or an array of them. */
  datatype Servicos = Um(tipo: Value) | Varios(tipos: seq<Value>)

  function Soma(tipos: seq<Value>, porte: Value): (r: int)
    ensures r >= 0
  {
    if tipos == [] then 0 else TempoIndividual(tipos[0], porte) + Soma(tipos[1..], porte)
  }

  /** `calcularTempoServico(servico, pet)`. */
  function TempoServico(s: Servicos, porte: Value): (r: int)
    ensures r >= 0
    ensures s.Um? ==> 10 * r - 5 <= TempoBase(s.tipo) * Fator10(porte) < 10 * r + 5
  {
    match s
    case Um(t) => TempoIndividual(t, porte)
    case Varios(ts) => Soma(ts, porte)
  }

  /** The total of a list is additive: the time of a concatenation is the
      sum of the times, and a one-element list takes as long as its service. */
  lemma {:induction false} SomaAppend(a: seq<Value>, b: seq<Value>, porte: Value)
    ensures TempoServico(Varios(a + b), porte) == TempoServico(Varios(a), porte) + TempoServico(Varios(b), porte)
  {
    if a == [] {
      assert a + b == b;
    } else {
      assert (a + b)[1..] == a[1..] + b;
      SomaAppend(a[1..], b, porte);
    }
  }

  lemma SomaUm(t: Value, porte: Value)
    ensures TempoServico(Varios([t]), porte) == TempoServico(Um(t), porte)
  {
    assert [t][1..] == [];
    assert Soma([t], porte) == TempoIndividual(t, porte) + Soma([], porte);
  }

  /** Larger pets never take less time: pequeno, medio, grande, gigante. */
  lemma TempoCresceComPorte(tipo: Value)
    ensures TempoIndividual(tipo, Str("pequeno")) <= TempoIndividual(tipo, Str("medio"))
    ensures TempoIndividual(tipo, Str("medio")) <= TempoIndividual(tipo, Str("grande"))
    ensures TempoIndividual(tipo, Str("grande")) <= TempoIndividual(tipo, Str("gigante"))
  {
  }

  /** The durations the unit tests expect. */
  lemma TemposEsperados()
    ensures TempoServico(Um(Str("banho")), Str("medio")) == 60
    ensures TempoServico(Um(Str("tosa")), Str("pequeno")) == 72
    ensures TempoServico(Um(Str("tosa")), Str("grande")) == 117
    ensures TempoServico(Varios([Str("banho"), Str("tosa"), Str("unha")]), Str("medio")) == 165
    ensures TempoServico(Um(Str("unha")), Str("grande")) == 20
  {
    assert [Str("banho"), Str("tosa"), Str("unha")][1..] == [Str("tosa"), Str("unha")];
    assert [Str("tosa"), Str("unha")][1..] == [Str("unha")];
  }

  // ------------------------------------------------------------ animal age

  datatype Idade = Idade(anos: int, meses: int) | IdadeNaN

  /** `calcularIdadeAnimal(x)` for a fixed "now". */
  function IdadeAnimal(birth: BirthDate, hoje: Date): (r: Idade)
    ensures birth.Missing? ==> r == Idade(0, 0)
    ensures birth.InvalidDate? ==> r == IdadeNaN
    ensures birth.At? && Later(birth.date, hoje) ==> r == Idade(0, 0)
    ensures birth.At? ==> r.Idade? && r.anos >= 0 && 0 <= r.meses <= 11
  {
    match birth
    case Missing => Idade(0, 0)
    case InvalidDate => IdadeNaN
    case At(n) =>
      if Later(n, hoje) then Idade(0, 0)
      else
        var anos := hoje.year - n.year;
        var meses := hoje.month - n.month;
        var (anos, meses) := if meses < 0 then (anos - 1, meses + 12) else (anos, meses);
        var (anos, meses) :=
          if hoje.day < n.day then
            if meses - 1 < 0 then (anos - 1, meses - 1 + 12) else (anos, meses - 1)
          else (anos, meses);
        Idade(if anos > 0 then anos else 0, if meses > 0 then meses else 0)
  }

  /** For a birth date not in the future, `anos * 12 + meses` is the number
      of whole months lived: that many monthly anniversaries have been
      reached and the next one has not. */
  lemma IdadeAnimalContaMeses(n: Date, hoje: Date)
    requires !Later(n, hoje)
    ensures var r := IdadeAnimal(At(n), hoje);
      MonthsReached(n, hoje, r.anos * 12 + r.meses) && !MonthsReached(n, hoje, r.anos * 12 + r.meses + 1)
  {
  }
}

=== FILE: calendar.dfy ===
/**
 * Dates as the source reads them through `Date` getters: a broken-down
 * local date-time. Parsing a date string, the host time zone and the clock
 * are outside the model; callers pass already broken-down values.
 */
module Calendar {
  import opened Wrappers

  /** `getFullYear()`, `getMonth()` (0 to 11), `getDate()` (1 to 31) and the
      milliseconds since local midnight. */
  datatype DateTime = DateTime(year: int, month: int, day: int, msOfDay: int)

  predicate ValidDateTime(d: DateTime)
  {
    0 <= d.month <= 11 && 1 <= d.day <= 31 && 0 <= d.msOfDay < 86400000
  }

  /** A date-time a `Date` object can report. */
  type Date = d: DateTime | ValidDateTime(d) witness DateTime(1970, 0, 1, 0)

  /** What `new Date(x)` gives for a birth date after the source's `!x` check. */
  datatype BirthDate = Missing | InvalidDate | At(date: Date)

  /** `a > b` on `Date` objects: `a` is a strictly later instant. */
  predicate Later(a: DateTime, b: DateTime)
  {
    || a.year > b.year
    || (a.year == b.year && a.month > b.month)
    || (a.year == b.year && a.month == b.month && a.day > b.day)
    || (a.year == b.year && a.month == b.month && a.day == b.day && a.msOfDay > b.msOfDay)
  }

  /** The `k`-th birthday of someone born on `b` falls on or before `t`. */
  predicate YearsReached(b: DateTime, t: DateTime, k: int)
  {
    || b.year + k < t.year
    || (b.year + k == t.year && b.month < t.month)
    || (b.year + k == t.year && b.month == t.month && b.day <= t.day)
  }

  /** The date `k` months after `b` (same day of the month) falls on or before `t`. */
  predicate MonthsReached(b: DateTime, t: DateTime, k: int)
  {
    var from := b.year * 12 + b.month + k;
    var to := t.year * 12 + t.month;
    from < to || (from == to && b.day <= t.day)
  }

  /** The host environment of a handler: how `new Date(text)` parses (to
      milliseconds since the epoch, or `None` for an Invalid Date), the
      weekday `getDay()` reports for an instant (0 is Sunday), the current
      instant, and the instant of today's local midnight. */
  datatype Clock = Clock(
    parse: string -> Option<int>,
    weekday: int -> int,
    now: int,
    startOfToday: int)
}

=== FILE: formatters.dfy ===
/**
 * The display formatters of `utils/formatters.js`: phone, CPF and CEP
 * masks, word capitalisation, and age from a birth date. Every formatter
 * returns its argument unchanged when it is not a non-empty string.
 */
module Formatters {
  import opened Js
  import opened Text
  import opened Calendar
  import Validators

  // ----------------------------------------------------------------- masks

  /** `t` fits the mask `p`: same length, a digit wherever `p` has `#`, and
      the character of `p` everywhere else. */
  predicate Fits(p: string, t: string)
  {
    && |t| == |p|
    && forall i :: 0 <= i < |p| ==> if p[i] == '#' then IsDigit(t[i]) else t[i] == p[i]
  }

  /** The masks the formatters produce. */
  const PhoneMask11: string := "(" + "##" + ") " + "#####" + "-" + "####"
  const PhoneMask10: string := "(" + "##" + ") " + "####" + "-" + "####"
  const CpfMask: string := "###" + "." + "###" + "." + "###" + "-" + "##"
  const CepMask: string := "#####" + "-" + "###"

  lemma FitsAppend(p1: string, t1: string, p2: string, t2: string)
    requires Fits(p1, t1) && Fits(p2, t2)
    ensures Fits(p1 + p2, t1 + t2)
  {
    forall i | 0 <= i < |p1 + p2|
      ensures if (p1 + p2)[i] == '#' then IsDigit((t1 + t2)[i]) else (t1 + t2)[i] == (p1 + p2)[i]
    {
      if i >= |p1| {
        assert (p1 + p2)[i] == p2[i - |p1|] && (t1 + t2)[i] == t2[i - |p1|];
      }
    }
  }

  lemma FitsHoles(d: string, n: nat)
    requires AllDigits(d) && |d| == n
    ensures Fits(seq(n, _ => '#'), d)
  {
  }

  /** Two texts that fit the same mask and carry the same digits are equal:
      the mask and the digit string together determine the formatted text. */
  lemma {:induction false} FitsDigitsUnique(p: string, t: string, u: string)
    requires Fits(p, t) && Fits(p, u) && Digits(t) == Digits(u)
    ensures t == u
  {
    if p != [] {
      assert Fits(p[1..], t[1..]) && Fits(p[1..], u[1..]);
      if p[0] == '#' {
        assert Digits(t) == [t[0]] + Digits(t[1..]);
        assert Digits(u) == [u[0]] + Digits(u[1..]);
        assert Digits(t)[1..] == Digits(t[1..]);
      } else {
        assert !IsDigit(p[0]) || IsDigit(p[0]);
        if IsDigit(p[0]) {
          assert Digits(t) == [t[0]] + Digits(t[1..]) && Digits(u) == [u[0]] + Digits(u[1..]);
          assert Digits(t)[1..] == Digits(t[1..]);
        }
      }
      FitsDigitsUnique(p[1..], t[1..], u[1..]);
      assert t == [t[0]] + t[1..] && u == [u[0]] + u[1..];
    }
  }

  /** Appends a fixed piece and a run of digits, keeping track of the mask
      the text fits and the digits it carries. */
  lemma Step(p: string, t: string, lit: string, d: string, n: nat)
    requires Fits(p, t) && AllDigits(d) && |d| == n
    requires forall i :: 0 <= i < |lit| ==> lit[i] != '#' && !IsDigit(lit[i])
    ensures Fits(p + lit + seq(n, _ => '#'), t + lit + d)
    ensures Digits(t + lit + d) == Digits(t) + d
  {
    assert Fits(lit, lit);
    FitsAppend(p, t, lit, lit);
    FitsHoles(d, n);
    FitsAppend(p + lit, t + lit, seq(n, _ => '#'), d);
    DigitsAppend(t + lit, d);
    DigitsAppend(t, lit);
    DigitsOfNonDigits(lit);
    DigitsOfDigits(d);
  }

  lemma FillPhone11(d: string)
    requires |d| == 11 && AllDigits(d)
    ensures var t := "(" + d[..2] + ") " + d[2..7] + "-" + d[7..];
      Fits(PhoneMask11, t) && Digits(t) == d
  {
    Step([], [], "(", d[..2], 2);
    Step("(" + "##", [] + "(" + d[..2], ") ", d[2..7], 5);
    Step("(" + "##" + ") " + "#####", [] + "(" + d[..2] + ") " + d[2..7], "-", d[7..], 4);
    assert [] + "(" + d[..2] == "(" + d[..2];
    assert d[..2] + d[2..7] + d[7..] == d;
  }

  lemma FillPhone10(d: string)
    requires |d| == 10 && AllDigits(d)
    ensures var t := "(" + d[..2] + ") " + d[2..6] + "-" + d[6..];
      Fits(PhoneMask10, t) && Digits(t) == d
  {
    Step([], [], "(", d[..2], 2);
    Step("(" + "##", [] + "(" + d[..2], ") ", d[2..6], 4);
    Step("(" + "##" + ") " + "####", [] + "(" + d[..2] + ") " + d[2..6], "-", d[6..], 4);
    assert [] + "(" + d[..2] == "(" + d[..2];
    assert d[..2] + d[2..6] + d[6..] == d;
  }

  lemma FillCpf(d: string)
    requires |d| == 11 && AllDigits(d)
    ensures var t := d[..3] + "." + d[3..6] + "." + d[6..9] + "-" + d[9..];
      Fits(CpfMask, t) && Digits(t) == d
  {
    Step([], [], [], d[..3], 3);
    Step([] + [] + "###", [] + [] + d[..3], ".", d[3..6], 3);
    Step("###" + "." + "###", d[..3] + "." + d[3..6], ".", d[6..9], 3);
    Step("###" + "." + "###" + "." + "###", d[..3] + "." + d[3..6] + "." + d[6..9], "-", d[9..], 2);
    assert [] + [] + "###" == "###" && [] + [] + d[..3] == d[..3];
    assert d[..3] + d[3..6] + d[6..9] + d[9..] == d;
  }

  lemma FillCep(d: string)
    requires |d| == 8 && AllDigits(d)
    ensures var t := d[..5] + "-" + d[5..];
      Fits(CepMask, t) && Digits(t) == d
  {
    Step([], [], [], d[..5], 5);
    Step([] + [] + "#####", [] + [] + d[..5], "-", d[5..], 3);
    assert [] + [] + "#####" == "#####" && [] + [] + d[..5] == d[..5];
    assert d[..5] + d[5..] == d;
  }

  // ------------------------------------------------------------ formatters

  predicate PhoneLooksFormatted(s: string)
  {
    '(' in s && ')' in s && '-' in s
  }

  /** `formatarTelefone(v)`: 11 digits become `(AA) NNNNN-NNNN`, 10 digits
      `(AA) NNNN-NNNN`; anything else, or text that already has `(`, `)` and
      `-`, is returned as given. */
  function FormatarTelefone(v: Value): (r: Value)
    ensures !Truthy(v) || !v.Str? ==> r == v
    ensures v.Str? && PhoneLooksFormatted(v.s) ==> r == v
    ensures v.Str? && |Digits(v.s)| != 10 && |Digits(v.s)| != 11 ==> r == v
    ensures r.Str? == v.Str?
  {
    if !Truthy(v) || !v.Str? then v
    else
      var d := Digits(v.s);
      if PhoneLooksFormatted(v.s) then v
      else if |d| == 11 then Str("(" + d[..2] + ") " + d[2..7] + "-" + d[7..])
      else if |d| == 10 then Str("(" + d[..2] + ") " + d[2..6] + "-" + d[6..])
      else v
  }

  /** An unformatted phone with 11 (10) digits comes out as the only text
      that fits `(##) #####-####` (`(##) ####-####`) and carries those digits. */
  lemma FormatarTelefoneMasks(v: Value)
    requires v.Str? && !PhoneLooksFormatted(v.s)
    ensures var d := Digits(v.s); var r := FormatarTelefone(v);
      && (|d| == 11 ==> Fits(PhoneMask11, r.s) && Digits(r.s) == d)
      && (|d| == 10 ==> Fits(PhoneMask10, r.s) && Digits(r.s) == d)
  {
    var d := Digits(v.s);
    if |d| == 11 {
      FillPhone11(d);
    } else if |d| == 10 {
      FillPhone10(d);
    }
  }

  /** `formatarCPF(v)`: 11 digits become `XXX.XXX.XXX-XX`; text that has both
      `.` and `-`, or another digit count, is returned as given. */
  function FormatarCPF(v: Value): (r: Value)
    ensures !Truthy(v) || !v.Str? ==> r == v
    ensures v.Str? && '.' in v.s && '-' in v.s ==> r == v
    ensures v.Str? && |Digits(v.s)| != 11 ==> r == v
    ensures r.Str? == v.Str?
  {
    if !Truthy(v) || !v.Str? then v
    else
      var d := Digits(v.s);
      if '.' in v.s && '-' in v.s then v
      else if |d| == 11 then Str(d[..3] + "." + d[3..6] + "." + d[6..9] + "-" + d[9..])
      else v
  }

  lemma FormatarCPFMasks(v: Value)
    requires v.Str? && !('.' in v.s && '-' in v.s) && |Digits(v.s)| == 11
    ensures Fits(CpfMask, FormatarCPF(v).s) && Digits(FormatarCPF(v).s) == Digits(v.s)
  {
    FillCpf(Digits(v.s));
  }

  /** `formatarCEP(v)`: 8 digits become `XXXXX-XXX`; text with a `-`, or
      another digit count, is returned as given. */
  function FormatarCEP(v: Value): (r: Value)
    ensures !Truthy(v) || !v.Str? ==> r == v
    ensures v.Str? && '-' in v.s ==> r == v
    ensures v.Str? && |Digits(v.s)| != 8 ==> r == v
    ensures r.Str? == v.Str?
  {
    if !Truthy(v) || !v.Str? then v
    else
      var d := Digits(v.s);
      if '-' in v.s then v
      else if |d| == 8 then Str(d[..5] + "-" + d[5..])
      else v
  }

  lemma FormatarCEPMasks(v: Value)
    requires v.Str? && '-' !in v.s && |Digits(v.s)| == 8
    ensures Fits(CepMask, FormatarCEP(v).s) && Digits(FormatarCEP(v).s) == Digits(v.s)
  {
    FillCep(Digits(v.s));
  }

  /** Formatting keeps the digits: stripping the non-digits of the output of
      any of the three formatters gives the digits of the input. */
  lemma FormattersKeepDigits(v: Value)
    requires v.Str?
    ensures Digits(FormatarTelefone(v).s) == Digits(v.s)
    ensures Digits(FormatarCPF(v).s) == Digits(v.s)
    ensures Digits(FormatarCEP(v).s) == Digits(v.s)
  {
    if !PhoneLooksFormatted(v.s) {
      FormatarTelefoneMasks(v);
    }
    if !('.' in v.s && '-' in v.s) && |Digits(v.s)| == 11 {
      FormatarCPFMasks(v);
    }
    if '-' !in v.s && |Digits(v.s)| == 8 {
      FormatarCEPMasks(v);
    }
  }

  /** Formatting twice is formatting once: a masked output already carries
      the characters that make the formatter leave it alone. */
  lemma FormattersIdempotent(v: Value)
    ensures FormatarTelefone(FormatarTelefone(v)) == FormatarTelefone(v)
    ensures FormatarCPF(FormatarCPF(v)) == FormatarCPF(v)
    ensures FormatarCEP(FormatarCEP(v)) == FormatarCEP(v)
  {
    var r := FormatarTelefone(v);
    if r != v {
      FormatarTelefoneMasks(v);
      assert r.s[0] == '(' && r.s[3] == ')';
      assert r.s[9] == '-' || r.s[10] == '-';
    }
    var c := FormatarCPF(v);
    if c != v {
      FormatarCPFMasks(v);
      assert c.s[3] == '.' && c.s[11] == '-';
    }
    var e := FormatarCEP(v);
    if e != v {
      FormatarCEPMasks(v);
      assert e.s[5] == '-';
    }
  }

  /** Formatting does not change whether a phone number or CPF is valid. */
  lemma FormattingPreservesValidity(v: Value)
    requires v.Str?
    ensures Validators.ValidarTelefone(FormatarTelefone(v)) == Validators.ValidarTelefone(v)
    ensures Validators.CpfDigitsValid(Digits(FormatarCPF(v).s)) == Validators.CpfDigitsValid(Digits(v.s))
  {
    FormattersKeepDigits(v);
  }

  // -------------------------------------------------------- capitalisation

  /** A separator of `capitalizarPalavras`: whitespace or a hyphen. */
  predicate IsSep(c: char)
  {
    IsSpace(c) || c == '-'
  }

  function LowerAscii(c: char): char
  {
    if 'A' <= c <= 'Z' then (c as int + 32) as char else c
  }

  function UpperAscii(c: char): char
  {
    if 'a' <= c <= 'z' then (c as int - 32) as char else c
  }

  /** Position `i` begins a word: it is first, or follows a separator. */
  predicate WordStart(s: string, i: int)
    requires 0 <= i < |s|
  {
    i == 0 || IsSep(s[i - 1])
  }

  /** One character after `toLowerCase()` and, at the start of a piece of the
      split, `charAt(0).toUpperCase()`. */
  function CapChar(c: char, start: bool): char
  {
    if start then UpperAscii(LowerAscii(c)) else LowerAscii(c)
  }

  /** The lower-case, split on separators, upper-case-first, join pipeline of
      `capitalizarPalavras`; `first` says whether `s` begins a piece. */
  function CapRuns(s: string, first: bool): (r: string)
    ensures |r| == |s|
    ensures forall i :: 0 <= i < |s| ==>
      r[i] == CapChar(s[i], if i == 0 then first else IsSep(s[i - 1]))
  {
    if s == [] then []
    else [CapChar(s[0], first)] + CapRuns(s[1..], IsSep(s[0]))
  }

  /** `capitalizarPalavras(v)` on ASCII letters. */
  function CapitalizarPalavras(v: Value): (r: Value)
    ensures !Truthy(v) || !v.Str? ==> r == v
    ensures v.Str? ==> r.Str? && |r.s| == |v.s|
    ensures v.Str? ==> forall i :: 0 <= i < |v.s| ==>
      r.s[i] == (if IsSep(v.s[i]) then v.s[i]
                 else if WordStart(v.s, i) then UpperAscii(v.s[i])
                 else LowerAscii(v.s[i]))
  {
    if !Truthy(v) || !v.Str? then v
    else Str(CapRuns(v.s, true))
  }

  lemma CaseMapsKeepSeparators(c: char)
    ensures IsSep(UpperAscii(c)) == IsSep(c) && IsSep(LowerAscii(c)) == IsSep(c)
    ensures UpperAscii(UpperAscii(c)) == UpperAscii(c)
    ensures LowerAscii(LowerAscii(c)) == LowerAscii(c)
  {
  }

  /** Capitalising twice is capitalising once. */
  lemma CapitalizarIdempotent(v: Value)
    ensures CapitalizarPalavras(CapitalizarPalavras(v)) == CapitalizarPalavras(v)
  {
    var r := CapitalizarPalavras(v);
    if v.Str? && v.s != [] {
      var r2 := CapitalizarPalavras(r);
      forall i | 0 <= i < |v.s|
        ensures IsSep(r.s[i]) == IsSep(v.s[i])
      {
        CaseMapsKeepSeparators(v.s[i]);
      }
      forall i | 0 <= i < |v.s|
        ensures r2.s[i] == r.s[i]
      {
        CaseMapsKeepSeparators(v.s[i]);
        assert WordStart(r.s, i) == WordStart(v.s, i);
      }
    }
  }

  // ------------------------------------------------------------------- age

  /** `calcularIdade(x)` for a fixed "today": whole years since the birth
      date, 0 for a missing or future date, NaN for an unparseable one. */
  function CalcularIdade(birth: BirthDate, today: Date): (r: Value)
    ensures birth.Missing? ==> r == Num(0)
    ensures birth.InvalidDate? ==> r == NaN
    ensures birth.At? ==> r.Num? && r.n >= 0
    ensures birth.At? && Later(birth.date, today) ==> r == Num(0)
  {
    match birth
    case Missing => Num(0)
    case InvalidDate => NaN
    case At(b) =>
      if Later(b, today) then Num(0)
      else
        var idade := today.year - b.year;
        var idade := if today.month < b.month || (today.month == b.month && today.day < b.day)
                     then idade - 1 else idade;
        Num(if idade > 0 then idade else 0)
  }

  /** For a birth date not in the future, the age is the number of birthdays
      already reached: the `k`-th is reached and the next is not. */
  lemma CalcularIdadeCountsBirthdays(b: Date, today: Date)
    requires !Later(b, today)
    ensures var r := CalcularIdade(At(b), today);
      YearsReached(b, today, r.n) && !YearsReached(b, today, r.n + 1)
  {
  }
}

=== FILE: js.dfy ===
/**
 * The few JavaScript value semantics the handlers depend on: dynamic types
 * (for `typeof` and `Array.isArray` checks), truthiness, and `String(v)`.
 * Numbers are integers here; floating point is not modelled.
 */
module Js {
  import opened Wrappers
  import Text

  /** A JSON-ish JavaScript value. `Obj` stands for any plain object. */
  datatype Value =
    | Undefined
    | Null
    | Bool(b: bool)
    | Num(n: int)
    | NaN
    | Str(s: string)
    | Arr(items: seq<Value>)
    | Obj

  /** JavaScript truthiness: `false`, `0`, `NaN`, `""`, `null`, `undefined` are falsy. */
  predicate Truthy(v: Value)
  {
    match v
    case Undefined => false
    case Null => false
    case Bool(b) => b
    case Num(n) => n != 0
    case NaN => false
    case Str(s) => s != []
    case Arr(_) => true
    case Obj => true
  }

  /** `typeof v === 'object'` (true for `null`, arrays and objects). */
  predicate TypeofObject(v: Value)
  {
    v.Null? || v.Arr? || v.Obj?
  }

  /** A field of a JSON request body: left out (`undefined`), or given,
      possibly as `null`. */
  datatype Campo<T> = Ausente | Dado(v: Option<T>)

  /** Truthiness of a typed optional string field of a request body. */
  predicate PresentStr(o: Option<string>)
  {
    o.Some? && o.value != []
  }

  /** Truthiness of a typed optional integer field of a request body. */
  predicate PresentInt(o: Option<int>)
  {
    o.Some? && o.value != 0
  }

  /** `String(v)`, as used in template literals. */
  function ToString(v: Value): (r: string)
    decreases v, 1
  {
    match v
    case Undefined => "undefined"
    case Null => "null"
    case Bool(b) => if b then "true" else "false"
    case Num(n) => Text.IntToString(n)
    case NaN => "NaN"
    case Str(s) => s
    case Arr(items) => JoinFrom(v, 0)
    case Obj => "[object Object]"
  }

  /** `Array.prototype.join(',')` of the elements from index `k` on, where
      `null` and `undefined` elements print as "". */
  function JoinFrom(whole: Value, k: nat): (r: string)
    requires whole.Arr? && k <= |whole.items|
    decreases whole, 0, |whole.items| - k
  {
    if k == |whole.items| then ""
    else
      var e := whole.items[k];
      var first := if e.Undefined? || e.Null? then "" else ToString(e);
      if k + 1 == |whole.items| then first else first + "," + JoinFrom(whole, k + 1)
  }

  /** Numbers print as their decimal text, so distinct numbers print differently. */
  lemma NumToStringInjective(a: int, b: int)
    requires ToString(Num(a)) == ToString(Num(b))
    ensures a == b
  {
    Text.IntToStringInjective(a, b);
  }
}

=== FILE: notificacoes.dfy ===
/**
 * `controllers/notificacaoController.js`: the in-app notifications of one
 * user. Every route sits behind the authentication guard, so the caller's
 * id is a known integer. `createdAt` is the insertion timestamp.
 */
module Notificacoes {
  import opened Table

  datatype Notificacao = Notificacao(
    usuarioId: int,
    tipo: string,
    titulo: string,
    mensagem: string,
    lida: bool,
    createdAt: int)

  datatype Resposta = Resposta(status: int, mensagem: string)

  /** A notification of user `u` that is still unread. */
  predicate NaoLidaDe(n: Notificacao, u: int)
  {
    n.usuarioId == u && !n.lida
  }

  /** The positions of the unread notifications of `u`: the rows
      `count({ where: { usuarioId, lida: false } })` counts. */
  function NaoLidas(t: seq<Notificacao>, u: int): set<nat>
  {
    set i | 0 <= i < |t| && NaoLidaDe(t[i], u)
  }

  // ------------------------------------------------------------------ listar

  /** The `createdAt` of row `id` (0 for an unknown id). */
  function Quando(t: seq<Notificacao>, id: int): int
  {
    if HasId(t, id) then Get(t, id).createdAt else 0
  }

  /** Sorted newest first by `createdAt`. */
  predicate Decrescente(t: seq<Notificacao>, ids: seq<int>)
  {
    forall a, b :: 0 <= a < b < |ids| ==> Quando(t, ids[a]) >= Quando(t, ids[b])
  }

  /** Inserts `id` before the first entry strictly older than it. */
  function Inserir(t: seq<Notificacao>, id: int, ids: seq<int>): (r: seq<int>)
    ensures multiset(r) == multiset(ids) + multiset{id}
  {
    if ids == [] then [id]
    else if Quando(t, ids[0]) < Quando(t, id) then [id] + ids
    else
      assert ids == [ids[0]] + ids[1..];
      [ids[0]] + Inserir(t, id, ids[1..])
  }

  /** Insertion keeps the order. */
  lemma {:induction false} InserirDecrescente(t: seq<Notificacao>, id: int, ids: seq<int>)
    requires Decrescente(t, ids)
    ensures Decrescente(t, Inserir(t, id, ids))
  {
    if ids != [] && Quando(t, ids[0]) >= Quando(t, id) {
      var rest := Inserir(t, id, ids[1..]);
      InserirDecrescente(t, id, ids[1..]);
      var r := [ids[0]] + rest;
      forall b | 0 < b < |r|
        ensures Quando(t, r[0]) >= Quando(t, r[b])
      {
        assert r[b] in multiset(ids[1..]) + multiset{id} by {
          assert r[b] == rest[b - 1];
        }
      }
    }
  }

  /** Insertion sort of ids by `createdAt`, newest first. */
  function Ordenar(t: seq<Notificacao>, ids: seq<int>): (r: seq<int>)
    ensures multiset(r) == multiset(ids)
  {
    if ids == [] then []
    else
      assert ids == [ids[0]] + ids[1..];
      Inserir(t, ids[0], Ordenar(t, ids[1..]))
  }

  lemma {:induction false} OrdenarDecrescente(t: seq<Notificacao>, ids: seq<int>)
    ensures Decrescente(t, Ordenar(t, ids))
  {
    if ids != [] {
      OrdenarDecrescente(t, ids[1..]);
      InserirDecrescente(t, ids[0], Ordenar(t, ids[1..]));
    }
  }

  /** The ids of `u`'s notifications from position `i` on, in id order. */
  function DoUsuario(t: seq<Notificacao>, u: int, i: nat): (r: seq<int>)
    requires i <= |t|
    ensures forall k :: 0 <= k < |r| ==> HasId(t, r[k]) && Get(t, r[k]).usuarioId == u && r[k] > i
    ensures forall id :: i < id <= |t| && Get(t, id).usuarioId == u ==> id in r
    ensures forall a, b :: 0 <= a < b < |r| ==> r[a] < r[b]
    decreases |t| - i
  {
    if i == |t| then []
    else if t[i].usuarioId == u then [i + 1] + DoUsuario(t, u, i + 1)
    else DoUsuario(t, u, i + 1)
  }

  /** `listar`: the caller's notifications, newest first. */
  function Listar(t: seq<Notificacao>, u: int): (r: seq<int>)
    ensures forall k :: 0 <= k < |r| ==> HasId(t, r[k]) && Get(t, r[k]).usuarioId == u
    ensures forall id :: HasId(t, id) && Get(t, id).usuarioId == u ==> id in r
    ensures forall a, b :: 0 <= a < b < |r| ==> r[a] != r[b]
    ensures Decrescente(t, r)
  {
    var ids := DoUsuario(t, u, 0);
    var r := Ordenar(t, ids);
    SemRepeticao(ids, r);
    OrdenarDecrescente(t, ids);
    forall k | 0 <= k < |r|
      ensures HasId(t, r[k]) && Get(t, r[k]).usuarioId == u
    {
      assert r[k] in multiset(ids);
    }
    forall id | HasId(t, id) && Get(t, id).usuarioId == u
      ensures id in r
    {
      assert id in multiset(ids);
    }
    r
  }

  /** A permutation of a strictly increasing sequence repeats nothing. */
  lemma SemRepeticao(ids: seq<int>, r: seq<int>)
    requires forall a, b :: 0 <= a < b < |ids| ==> ids[a] < ids[b]
    requires multiset(r) == multiset(ids)
    ensures forall a, b :: 0 <= a < b < |r| ==> r[a] != r[b]
  {
    forall a, b | 0 <= a < b < |r|
      ensures r[a] != r[b]
    {
      if r[a] == r[b] {
        var x := r[a];
        assert multiset(r)[x] >= 2 by {
          assert r == r[..a] + [x] + r[a + 1..b] + [x] + r[b + 1..];
        }
        MultiplicidadeUm(ids, x);
      }
    }
  }

  /** In a strictly increasing sequence every value occurs at most once. */
  lemma {:induction false} MultiplicidadeUm(ids: seq<int>, x: int)
    requires forall a, b :: 0 <= a < b < |ids| ==> ids[a] < ids[b]
    ensures multiset(ids)[x] <= 1
  {
    if ids != [] {
      assert ids == [ids[0]] + ids[1..];
      MultiplicidadeUm(ids[1..], x);
      if ids[0] == x {
        assert x !in ids[1..];
      }
    }
  }

  // ------------------------------------------------------------ contar

  /** `contarNaoLidas`: one pass over the table. */
  method ContarNaoLidas(t: seq<Notificacao>, u: int) returns (count: nat)
    ensures count == |NaoLidas(t, u)|
  {
    count := 0;
    var i := 0;
    while i < |t|
      invariant 0 <= i <= |t|
      invariant count == |set k | 0 <= k < i && NaoLidaDe(t[k], u)|
    {
      var antes := set k | 0 <= k < i && NaoLidaDe(t[k], u);
      var depois := set k | 0 <= k < i + 1 && NaoLidaDe(t[k], u);
      if NaoLidaDe(t[i], u) {
        assert depois == antes + {i};
        count := count + 1;
      } else {
        assert depois == antes;
      }
      i := i + 1;
    }
    assert NaoLidas(t, u) == set k | 0 <= k < i && NaoLidaDe(t[k], u);
  }

  // ------------------------------------------------------ marcar como lida

  /** The row `findOne({ where: { id, usuarioId } })` finds. */
  predicate DoChamador(t: seq<Notificacao>, id: int, u: int)
  {
    HasId(t, id) && Get(t, id).usuarioId == u
  }

  /** `marcarComoLida`: only a notification of the caller, and only its
      `lida` flag. */
  function MarcarComoLida(t: seq<Notificacao>, u: int, id: int): (r: (Resposta, seq<Notificacao>))
    ensures |r.1| == |t|
    ensures r.0.status == 404 <==> !DoChamador(t, id, u)
    ensures r.0.status == 404 ==> r.1 == t
    ensures r.0.status != 404 ==> r.0.status == 200 && Get(r.1, id) == Get(t, id).(lida := true)
    ensures forall k :: HasId(t, k) && k != id ==> Get(r.1, k) == Get(t, k)
  {
    if !DoChamador(t, id, u) then (Resposta(404, "Notifica\U{00E7}\U{00E3}o n\U{00E3}o encontrada"), t)
    else (Resposta(200, "ok"), Put(t, id, Get(t, id).(lida := true)))
  }

  /** Marking twice is marking once. */
  lemma MarcarComoLidaIdempotente(t: seq<Notificacao>, u: int, id: int)
    ensures var t1 := MarcarComoLida(t, u, id).1;
      MarcarComoLida(t1, u, id) == (MarcarComoLida(t, u, id).0, t1)
  {
    var t1 := MarcarComoLida(t, u, id).1;
    if DoChamador(t, id, u) {
      assert Get(t1, id).(lida := true) == Get(t1, id);
      assert t1[id - 1 := Get(t1, id)] == t1;
    }
  }

  /** Marking one notification read lowers the caller's unread count by at
      most one and never touches another user's count. */
  lemma MarcarComoLidaContagem(t: seq<Notificacao>, u: int, id: int, v: int)
    ensures var t1 := MarcarComoLida(t, u, id).1;
      && NaoLidas(t1, u) == NaoLidas(t, u) - {id - 1}
      && (v != u ==> NaoLidas(t1, v) == NaoLidas(t, v))
  {
    var t1 := MarcarComoLida(t, u, id).1;
    assert forall k :: 0 <= k < |t| && k != id - 1 ==> t1[k] == t[k] by {
      forall k | 0 <= k < |t| && k != id - 1
        ensures t1[k] == t[k]
      {
        assert Get(t1, k + 1) == t1[k];
      }
    }
  }

  // ------------------------------------------------------ marcar todas

  /** `marcarTodasComoLidas`: one bulk update of the caller's unread rows. */
  function MarcarTodas(t: seq<Notificacao>, u: int): (r: seq<Notificacao>)
    ensures |r| == |t|
    ensures forall k :: 0 <= k < |t| && t[k].usuarioId != u ==> r[k] == t[k]
    ensures forall k :: 0 <= k < |t| && t[k].usuarioId == u ==> r[k] == t[k].(lida := true)
  {
    seq(|t|, k requires 0 <= k < |t| => if NaoLidaDe(t[k], u) then t[k].(lida := true) else t[k])
  }

  /** Afterwards the caller has nothing unread and every other user's
      unread set is as before. */
  lemma MarcarTodasZera(t: seq<Notificacao>, u: int, v: int)
    ensures NaoLidas(MarcarTodas(t, u), u) == {}
    ensures v != u ==> NaoLidas(MarcarTodas(t, u), v) == NaoLidas(t, v)
  {
    var r := MarcarTodas(t, u);
    forall k | 0 <= k < |r|
      ensures !NaoLidaDe(r[k], u)
    {
    }
  }
}

=== FILE: pets.dfy ===
/**
 * `services/petService.js` and `controllers/petController.js`: pets with a
 * soft-delete flag. The table's schema comes from the migrations:
 * `usuarioId` and `deletado` are NOT NULL, `deletado` defaults to false,
 * and `usuarioId` references `usuarios`. Every other column is nullable. A
 * body field is absent, `null`, or a value. An uploaded photo is given by
 * the stored file name the upload middleware chose.
 */
module Pets {
  import opened Wrappers
  import opened Table
  import Usuarios
  import opened Js

  datatype Pet = Pet(
    nome: Option<string>,
    raca: Option<string>,
    idade: Option<int>,
    porte: Option<string>,
    foto: Option<string>,
    usuarioId: int,
    deletado: bool)

  /** The column value after a body field is applied to `atual`. */
  function Aplicar<T>(c: Campo<T>, atual: Option<T>): Option<T>
  {
    if c.Dado? then c.v else atual
  }

  /** The column value a body field gives a new row. */
  function Inicial<T>(c: Campo<T>): Option<T>
  {
    if c.Dado? then c.v else None
  }

  /** A NOT NULL column after a body field that is not `null` is applied. */
  function AplicarValor<T>(c: Campo<T>, atual: T): T
    requires c != Dado(None)
  {
    if c.Dado? then c.v.value else atual
  }

  datatype DadosPet = DadosPet(
    nome: Campo<string>,
    raca: Campo<string>,
    idade: Campo<int>,
    porte: Campo<string>,
    foto: Campo<string>,
    usuarioId: Campo<int>,
    deletado: Campo<bool>)

  /** The text of a database refusal is the driver's and is not modelled. */
  const RecusaDoBanco := "constraint violation"

  /** A `usuarioId` the foreign key accepts: the id of a row of `usuarios`,
      deleted or not (deleting an account only sets its flag). */
  predicate UsuarioExiste(usuarios: seq<Usuarios.Usuario>, c: Campo<int>)
  {
    c.Dado? && c.v.Some? && HasId(usuarios, c.v.value)
  }

  /** The database accepts the insert: `usuarioId` names a user (left out
      or `null` it breaks NOT NULL), and `deletado` is not `null`. */
  predicate InsercaoAceita(d: DadosPet, usuarios: seq<Usuarios.Usuario>)
  {
    UsuarioExiste(usuarios, d.usuarioId) && d.deletado != Dado(None)
  }

  /** The database accepts the update: a given `usuarioId` names a user, and
      `deletado` is not set to `null`. */
  predicate AtualizacaoAceita(d: DadosPet, usuarios: seq<Usuarios.Usuario>)
  {
    (d.usuarioId.Dado? ==> UsuarioExiste(usuarios, d.usuarioId)) && d.deletado != Dado(None)
  }

  // ------------------------------------------------------------- service

  /** `createPet(petData)`: the new row, holding what the body gives; a
      `deletado` the body leaves out takes the column default, false. A row
      the constraints refuse is not written. */
  function CriarPet(d: DadosPet, t: seq<Pet>, usuarios: seq<Usuarios.Usuario>): (r: Result<seq<Pet>, string>)
    ensures r.Ok? <==> InsercaoAceita(d, usuarios)
    ensures r.Err? ==> r.error == "Error creating pet: " + RecusaDoBanco
    ensures r.Ok? ==> |r.value| == |t| + 1 && r.value[..|t|] == t
    ensures r.Ok? ==> var p := r.value[|t|];
      && p.nome == Inicial(d.nome) && p.raca == Inicial(d.raca) && p.idade == Inicial(d.idade)
      && p.porte == Inicial(d.porte) && p.foto == Inicial(d.foto)
      && Some(p.usuarioId) == d.usuarioId.v && HasId(usuarios, p.usuarioId)
      && (d.deletado.Ausente? ==> !p.deletado)
      && (d.deletado.Dado? ==> Some(p.deletado) == d.deletado.v)
  {
    if !InsercaoAceita(d, usuarios) then Err("Error creating pet: " + RecusaDoBanco)
    else
      Ok(Insert(t, Pet(Inicial(d.nome), Inicial(d.raca), Inicial(d.idade), Inicial(d.porte),
                       Inicial(d.foto), d.usuarioId.v.value, AplicarValor(d.deletado, false))))
  }

  /** Which rows a listing keeps: not deleted and, with a user filter, owned
      by that user. */
  predicate Listado(p: Pet, usuarioId: Option<int>)
  {
    !p.deletado && (usuarioId.Some? ==> p.usuarioId == usuarioId.value)
  }

  /** The ids of the rows from position `i` on that `Listado` keeps, in
      insertion order. */
  function Filtrar(t: seq<Pet>, usuarioId: Option<int>, i: nat): (r: seq<int>)
    requires i <= |t|
    ensures forall k :: 0 <= k < |r| ==> i < r[k] <= |t| && Listado(Get(t, r[k]), usuarioId)
    ensures forall id :: i < id <= |t| && Listado(Get(t, id), usuarioId) ==> id in r
    ensures forall a, b :: 0 <= a < b < |r| ==> r[a] < r[b]
    decreases |t| - i
  {
    if i == |t| then []
    else if Listado(t[i], usuarioId) then [i + 1] + Filtrar(t, usuarioId, i + 1)
    else Filtrar(t, usuarioId, i + 1)
  }

  /** `getAllPets()`: `findAll({ where: { deletado: false } })`. */
  function TodosPets(t: seq<Pet>): (r: seq<int>)
    ensures forall id :: id in r <==> HasId(t, id) && !Get(t, id).deletado
  {
    Filtrar(t, None, 0)
  }

  /** `getPetsByUsuarioId(u)`. */
  function PetsDoUsuario(t: seq<Pet>, u: int): (r: seq<int>)
    ensures forall id :: id in r <==> HasId(t, id) && Get(t, id).usuarioId == u && !Get(t, id).deletado
  {
    Filtrar(t, Some(u), 0)
  }

  /** `getPetById(id)`: no filter on `deletado`. */
  function PetPorId(t: seq<Pet>, id: Option<int>): (r: Result<Pet, string>)
    ensures r.Err? <==> FindByPk(t, id).None?
    ensures r.Err? ==> r.error == "Error fetching pet: Pet not found"
    ensures r.Ok? ==> r.value == Get(t, id.value)
  {
    match FindByPk(t, id)
    case None => Err("Error fetching pet: Pet not found")
    case Some(p) => Ok(p)
  }

  /** `updatePet(id, petData)`: every field the body gives is written,
      including an explicit `null` in a nullable column. An update the
      constraints refuse writes nothing. */
  function AtualizarPet(t: seq<Pet>, id: Option<int>, d: DadosPet, usuarios: seq<Usuarios.Usuario>): (r: Result<(Pet, seq<Pet>), string>)
    ensures r.Err? <==> FindByPk(t, id).None? || !AtualizacaoAceita(d, usuarios)
    ensures FindByPk(t, id).None? ==> r == Err("Error updating pet: Pet not found")
    ensures FindByPk(t, id).Some? && !AtualizacaoAceita(d, usuarios) ==> r == Err("Error updating pet: " + RecusaDoBanco)
    ensures r.Ok? ==> |r.value.1| == |t| && Get(r.value.1, id.value) == r.value.0
    ensures r.Ok? ==> forall k :: HasId(t, k) && k != id.value ==> Get(r.value.1, k) == Get(t, k)
  {
    match FindByPk(t, id)
    case None => Err("Error updating pet: Pet not found")
    case Some(p) =>
      if !AtualizacaoAceita(d, usuarios) then Err("Error updating pet: " + RecusaDoBanco)
      else
        var novo := p.(nome := Aplicar(d.nome, p.nome), raca := Aplicar(d.raca, p.raca),
                       idade := Aplicar(d.idade, p.idade), porte := Aplicar(d.porte, p.porte),
                       foto := Aplicar(d.foto, p.foto), usuarioId := AplicarValor(d.usuarioId, p.usuarioId),
                       deletado := AplicarValor(d.deletado, p.deletado));
        Ok((novo, Put(t, id.value, novo)))
  }

  /** Only the fields the body gives change, `deletado` included; a field
      left out keeps its value, and a nullable one given as `null` is
      cleared. The pet stays owned by a user. */
  lemma AtualizarPetCampos(t: seq<Pet>, id: Option<int>, d: DadosPet, usuarios: seq<Usuarios.Usuario>)
    requires FindByPk(t, id).Some? && AtualizacaoAceita(d, usuarios)
    ensures AtualizarPet(t, id, d, usuarios).Ok?
    ensures var antes := Get(t, id.value);
      var depois := AtualizarPet(t, id, d, usuarios).value.0;
      && (d.nome.Ausente? ==> depois.nome == antes.nome)
      && (d.nome.Dado? ==> depois.nome == d.nome.v)
      && (d.raca.Ausente? ==> depois.raca == antes.raca)
      && (d.raca.Dado? ==> depois.raca == d.raca.v)
      && (d.idade.Ausente? ==> depois.idade == antes.idade)
      && (d.idade.Dado? ==> depois.idade == d.idade.v)
      && (d.porte.Ausente? ==> depois.porte == antes.porte)
      && (d.porte.Dado? ==> depois.porte == d.porte.v)
      && (d.foto.Ausente? ==> depois.foto == antes.foto)
      && (d.foto.Dado? ==> depois.foto == d.foto.v)
      && (d.usuarioId.Ausente? ==> depois.usuarioId == antes.usuarioId)
      && (d.usuarioId.Dado? ==> Some(depois.usuarioId) == d.usuarioId.v && HasId(usuarios, depois.usuarioId))
      && (d.deletado.Ausente? ==> depois.deletado == antes.deletado)
      && (d.deletado.Dado? ==> Some(depois.deletado) == d.deletado.v)
  {
  }

  /** A `null` for a NOT NULL column, or an owner that is not a user, fails
      and leaves the table as it was. */
  lemma AtualizarRecusado(t: seq<Pet>, id: Option<int>, d: DadosPet, usuarios: seq<Usuarios.Usuario>)
    requires FindByPk(t, id).Some?
    requires d.deletado == Dado(None) || d.usuarioId == Dado(None)
      || (d.usuarioId.Dado? && d.usuarioId.v.Some? && !HasId(usuarios, d.usuarioId.v.value))
    ensures AlterarPet(id, d, None, t, usuarios) == (Resposta(500, "Erro ao atualizar pet"), t)
  {
  }

  /** An empty body leaves the table as it was. */
  lemma AtualizarNadaNaoMuda(t: seq<Pet>, id: Option<int>, usuarios: seq<Usuarios.Usuario>)
    requires FindByPk(t, id).Some?
    ensures AtualizarPet(t, id, DadosPet(Ausente, Ausente, Ausente, Ausente, Ausente, Ausente, Ausente), usuarios).value.1 == t
  {
    var p := Get(t, id.value);
    assert t[id.value - 1 := p] == t;
  }

  /** `deletePet(id)`: sets `deletado` and nothing else. */
  function ExcluirPet(t: seq<Pet>, id: Option<int>): (r: Result<seq<Pet>, string>)
    ensures r.Err? <==> FindByPk(t, id).None?
    ensures r.Err? ==> r.error == "Error deleting pet: Pet not found"
    ensures r.Ok? ==> |r.value| == |t| && Get(r.value, id.value) == Get(t, id.value).(deletado := true)
    ensures r.Ok? ==> forall k :: HasId(t, k) && k != id.value ==> Get(r.value, k) == Get(t, k)
  {
    match FindByPk(t, id)
    case None => Err("Error deleting pet: Pet not found")
    case Some(p) => Ok(Put(t, id.value, p.(deletado := true)))
  }

  /** A deleted pet leaves both listings but is still found by id. */
  lemma ExcluidoSomeDasListas(t: seq<Pet>, id: Option<int>, u: int)
    requires FindByPk(t, id).Some?
    ensures var t1 := ExcluirPet(t, id).value;
      && id.value !in TodosPets(t1)
      && id.value !in PetsDoUsuario(t1, u)
      && PetPorId(t1, id) == Ok(Get(t, id.value).(deletado := true))
  {
  }

  /** A body that sets `deletado` to true creates a pet that neither listing
      shows, though it is found by id. */
  lemma CriadoOcultoDasListas(d: DadosPet, t: seq<Pet>, usuarios: seq<Usuarios.Usuario>, u: int)
    requires UsuarioExiste(usuarios, d.usuarioId) && d.deletado == Dado(Some(true))
    ensures CriarPet(d, t, usuarios).Ok?
    ensures var t1 := CriarPet(d, t, usuarios).value;
      && |t| + 1 !in TodosPets(t1)
      && |t| + 1 !in PetsDoUsuario(t1, u)
      && PetPorId(t1, Some(|t| + 1)).Ok?
  {
  }

  /** A body that leaves `deletado` out creates a pet that both the full
      listing and its owner's listing show. */
  lemma CriadoListado(d: DadosPet, t: seq<Pet>, usuarios: seq<Usuarios.Usuario>)
    requires UsuarioExiste(usuarios, d.usuarioId) && d.deletado.Ausente?
    ensures CriarPet(d, t, usuarios).Ok?
    ensures |t| + 1 in TodosPets(CriarPet(d, t, usuarios).value)
    ensures |t| + 1 in PetsDoUsuario(CriarPet(d, t, usuarios).value, d.usuarioId.v.value)
  {
  }

  // ---------------------------------------------------------- controller

  /** A truthy string field. */
  predicate PresenteStr(c: Campo<string>)
  {
    c.Dado? && c.v.Some? && c.v.value != []
  }

  /** A truthy integer field: 0 is falsy. */
  predicate PresenteInt(c: Campo<int>)
  {
    c.Dado? && c.v.Some? && c.v.value != 0
  }

  /** The five fields `createPet` requires. */
  predicate Completo(d: DadosPet)
  {
    PresenteStr(d.nome) && PresenteStr(d.raca) && PresenteInt(d.idade)
    && PresenteStr(d.porte) && PresenteInt(d.usuarioId)
  }

  /** The photo path recorded for an uploaded file, if any. */
  function ComFoto(d: DadosPet, arquivo: Option<string>): (r: DadosPet)
    ensures arquivo.None? ==> r == d
    ensures arquivo.Some? ==> r == d.(foto := Dado(Some("/uploads/pets/" + arquivo.value)))
  {
    if arquivo.Some? then d.(foto := Dado(Some("/uploads/pets/" + arquivo.value))) else d
  }

  datatype Resposta = Resposta(status: int, mensagem: string)

  /** `POST /pets`: 400 without the required fields; 500 with no change when
      the database refuses the row; else 201 and the row. */
  function CadastrarPet(d: DadosPet, arquivo: Option<string>, t: seq<Pet>, usuarios: seq<Usuarios.Usuario>): (r: (Resposta, seq<Pet>))
    ensures r.0.status == 400 <==> !Completo(d)
    ensures r.0.status == 500 <==> Completo(d) && !InsercaoAceita(d, usuarios)
    ensures r.0.status == 400 || r.0.status == 500 ==> r.1 == t
    ensures r.0.status != 400 && r.0.status != 500 ==>
      r.0.status == 201 && r.1 == CriarPet(ComFoto(d, arquivo), t, usuarios).value
  {
    if !Completo(d) then (Resposta(400, "Campos obrigat\U{00F3}rios: nome, raca, idade, porte, usuarioId"), t)
    else
      match CriarPet(ComFoto(d, arquivo), t, usuarios)
      case Err(_) => (Resposta(500, "Erro ao cadastrar pet"), t)
      case Ok(t1) => (Resposta(201, "Pet cadastrado com sucesso!"), t1)
  }

  /** A pet registered with an upload stores the path of the upload; without
      one, the body's own `foto`. */
  lemma CadastrarPetFoto(d: DadosPet, arquivo: Option<string>, t: seq<Pet>, usuarios: seq<Usuarios.Usuario>)
    requires Completo(d) && InsercaoAceita(d, usuarios)
    ensures CadastrarPet(d, arquivo, t, usuarios).0.status == 201
    ensures var p := CadastrarPet(d, arquivo, t, usuarios).1[|t|];
      && (arquivo.Some? ==> p.foto == Some("/uploads/pets/" + arquivo.value))
      && (arquivo.None? ==> p.foto == Inicial(d.foto))
      && Some(p.usuarioId) == d.usuarioId.v && p.idade == d.idade.v
  {
  }

  /** A pet of age 0 is refused. */
  lemma IdadeZeroRecusada(d: DadosPet, arquivo: Option<string>, t: seq<Pet>, usuarios: seq<Usuarios.Usuario>)
    requires d.idade == Dado(Some(0))
    ensures CadastrarPet(d, arquivo, t, usuarios) == (Resposta(400, "Campos obrigat\U{00F3}rios: nome, raca, idade, porte, usuarioId"), t)
  {
  }

  /** An owner that is not a user, or a `null` `deletado`, passes the
      required-field check but the insert fails: 500 and no new row. */
  lemma CadastroRecusadoPeloBanco(d: DadosPet, arquivo: Option<string>, t: seq<Pet>, usuarios: seq<Usuarios.Usuario>)
    requires Completo(d)
    requires d.deletado == Dado(None) || !HasId(usuarios, d.usuarioId.v.value)
    ensures CadastrarPet(d, arquivo, t, usuarios) == (Resposta(500, "Erro ao cadastrar pet"), t)
  {
  }

  /** `GET /pets`: a numeric `usuarioId` query selects that user's pets. */
  function ListarPets(usuarioId: Option<int>, t: seq<Pet>): (r: seq<int>)
    ensures usuarioId.None? ==> r == TodosPets(t)
    ensures usuarioId.Some? ==> r == PetsDoUsuario(t, usuarioId.value)
  {
    if usuarioId.Some? then PetsDoUsuario(t, usuarioId.value) else TodosPets(t)
  }

  /** The per-user listing is the full listing restricted to that user. */
  lemma ListaDoUsuarioEstaNaGeral(t: seq<Pet>, u: int)
    ensures forall id :: id in ListarPets(Some(u), t) <==> id in ListarPets(None, t) && Get(t, id).usuarioId == u
  {
  }

  /** `PUT /pets/:id`: the upload's path overrides the body's `foto`; a
      missing pet or an update the database refuses is a 500. */
  function AlterarPet(id: Option<int>, d: DadosPet, arquivo: Option<string>, t: seq<Pet>, usuarios: seq<Usuarios.Usuario>): (r: (Resposta, seq<Pet>))
    ensures r.0.status == 500 <==> FindByPk(t, id).None? || !AtualizacaoAceita(d, usuarios)
    ensures r.0.status == 500 ==> r.1 == t
    ensures r.0.status != 500 ==> r.0.status == 200 && r.1 == AtualizarPet(t, id, ComFoto(d, arquivo), usuarios).value.1
  {
    match AtualizarPet(t, id, ComFoto(d, arquivo), usuarios)
    case Err(e) => (Resposta(500, "Erro ao atualizar pet"), t)
    case Ok((_, t1)) => (Resposta(200, "ok"), t1)
  }

  /** `DELETE /pets/:id`. */
  function RemoverPet(id: Option<int>, t: seq<Pet>): (r: (Resposta, seq<Pet>))
    ensures r.0.status == 500 <==> FindByPk(t, id).None?
    ensures r.0.status == 500 ==> r.1 == t
    ensures r.0.status != 500 ==> r.0.status == 200 && r.1 == ExcluirPet(t, id).value
  {
    match ExcluirPet(t, id)
    case Err(e) => (Resposta(500, "Erro ao excluir pet"), t)
    case Ok(t1) => (Resposta(200, "Pet exclu\U{00ED}do com sucesso!"), t1)
  }
}

=== FILE: push_tokens.dfy ===
/**
 * The in-memory device-token registry of `routes/notifications.js` and the
 * guards of its two send routes. The registry is a JavaScript `Map` from
 * the body's `userId` to the list of that user's device tokens; the keys
 * and tokens keep their JSON types, so `5` and `"5"` are different users.
 * Keys and tokens compare structurally, which is the `Map`'s and
 * `includes`'s comparison for primitive values but not for objects.
 * What the send routes do with the tokens (Firebase calls) is not modelled:
 * they return the list of device tokens they would send to.
 */
module PushTokens {
  import opened Wrappers
  import opened Js

  type Registro = map<Value, seq<Value>>

  datatype Resposta = Resposta(status: int, mensagem: string)

  /** No list holds the same token twice. */
  predicate SemDuplicatas(m: Registro)
  {
    forall u :: u in m ==> forall i, j :: 0 <= i < j < |m[u]| ==> m[u][i] != m[u][j]
  }

  /** `userTokens.get(userId) || []`. */
  function TokensDe(m: Registro, u: Value): seq<Value>
  {
    if u in m then m[u] else []
  }

  /** `POST /token`. Both fields must be truthy. The list gets the token
      appended unless it already holds it. Logging the token's first
      characters throws for a non-string token, after the registry was
      already changed, which the route answers with 500. */
  function RegistrarToken(token: Value, userId: Value, m: Registro): (r: (Resposta, Registro))
    ensures !Truthy(token) || !Truthy(userId) ==> r.0.status == 400 && r.1 == m
    ensures Truthy(token) && Truthy(userId) ==>
      && r.1.Keys == m.Keys + {userId}
      && (forall v :: v in m && v != userId ==> r.1[v] == m[v])
      && (token in TokensDe(m, userId) ==> r.1[userId] == TokensDe(m, userId))
      && (token !in TokensDe(m, userId) ==> r.1[userId] == TokensDe(m, userId) + [token])
      && (r.0.status == 200 <==> token.Str?)
      && (r.0.status != 200 ==> r.0.status == 500)
  {
    if !Truthy(token) || !Truthy(userId) then
      (Resposta(400, "Token FCM e ID do usu\U{00E1}rio s\U{00E3}o obrigat\U{00F3}rios"), m)
    else
      var tokens := if userId in m then m[userId] else [];
      var novos := if token in tokens then tokens else tokens + [token];
      var m' := m[userId := novos];
      if !token.Str? then (Resposta(500, "Erro interno do servidor"), m')
      else (Resposta(200, "Token FCM salvo com sucesso"), m')
  }

  /** Registration never creates a duplicate. */
  lemma RegistrarPreservaSemDuplicatas(token: Value, userId: Value, m: Registro)
    requires SemDuplicatas(m)
    ensures SemDuplicatas(RegistrarToken(token, userId, m).1)
  {
    var m' := RegistrarToken(token, userId, m).1;
    if Truthy(token) && Truthy(userId) {
      var antes := TokensDe(m, userId);
      if token !in antes {
        forall i, j | 0 <= i < j < |m'[userId]|
          ensures m'[userId][i] != m'[userId][j]
        {
          if j == |antes| {
            assert m'[userId][i] == antes[i];
          }
        }
      }
    }
  }

  /** Registering the same token again changes nothing. */
  lemma RegistrarIdempotente(token: Value, userId: Value, m: Registro)
    ensures var m1 := RegistrarToken(token, userId, m).1;
      RegistrarToken(token, userId, m1) == RegistrarToken(token, userId, m)
  {
    var m1 := RegistrarToken(token, userId, m).1;
    if Truthy(token) && Truthy(userId) {
      assert token in TokensDe(m1, userId);
      assert m1[userId := m1[userId]] == m1;
    }
  }

  /** `POST /send-to-user`: the three fields must be truthy and the user
      must have a token; the result is the device list the push goes to. */
  function EnviarParaUsuario(userId: Value, title: Value, body: Value, m: Registro): (r: Result<seq<Value>, Resposta>)
    ensures r.Err? && r.error.status == 400 <==> !Truthy(userId) || !Truthy(title) || !Truthy(body)
    ensures r.Err? && r.error.status == 404 <==>
      Truthy(userId) && Truthy(title) && Truthy(body) && TokensDe(m, userId) == []
    ensures r.Err? ==> r.error.status in {400, 404}
    ensures r.Ok? ==> r.value == TokensDe(m, userId) && r.value != []
  {
    if !Truthy(userId) || !Truthy(title) || !Truthy(body) then
      Err(Resposta(400, "ID do usu\U{00E1}rio, t\U{00ED}tulo e corpo s\U{00E3}o obrigat\U{00F3}rios"))
    else
      var tokens := if userId in m then m[userId] else [];
      if |tokens| == 0 then Err(Resposta(404, "Nenhum token FCM encontrado para o usu\U{00E1}rio"))
      else Ok(tokens)
  }

  /** A token registered for a user is among the devices of a later send.
      Keys compare structurally here, which matches the `Map`'s own
      comparison for strings, numbers and booleans; an object or array
      `userId` is a fresh object on every request, so the `Map` never finds
      it again and this property does not hold for such keys. */
  lemma RegistradoRecebe(token: Value, userId: Value, title: Value, body: Value, m: Registro)
    requires Truthy(token) && Truthy(userId) && Truthy(title) && Truthy(body)
    ensures var m1 := RegistrarToken(token, userId, m).1;
      EnviarParaUsuario(userId, title, body, m1).Ok? && token in EnviarParaUsuario(userId, title, body, m1).value
  {
  }

  /** The placeholder token `/send-to-users` builds for one user id. */
  function TokenDemo(id: Value): string
  {
    "demo-token-" + ToString(id)
  }

  /** `POST /send-to-users`: `userIds` must be an array and `title`, `body`
      truthy; the device list is one placeholder token per id, in order. */
  function EnviarParaUsuarios(userIds: Value, title: Value, body: Value): (r: Result<seq<string>, Resposta>)
    ensures r.Err? <==> !userIds.Arr? || !Truthy(title) || !Truthy(body)
    ensures r.Err? ==> r.error.status == 400
    ensures r.Ok? ==> |r.value| == |userIds.items|
    ensures r.Ok? ==> forall i :: 0 <= i < |r.value| ==> r.value[i] == TokenDemo(userIds.items[i])
  {
    if !Truthy(userIds) || !userIds.Arr? || !Truthy(title) || !Truthy(body) then
      Err(Resposta(400, "Array de IDs de usu\U{00E1}rios, t\U{00ED}tulo e corpo s\U{00E3}o obrigat\U{00F3}rios"))
    else
      Ok(seq(|userIds.items|, i requires 0 <= i < |userIds.items| => TokenDemo(userIds.items[i])))
  }

  /** Distinct numeric ids get distinct placeholder tokens. */
  lemma TokenDemoInjetivo(a: int, b: int)
    requires a != b
    ensures TokenDemo(Num(a)) != TokenDemo(Num(b))
  {
    var p := "demo-token-";
    if TokenDemo(Num(a)) == TokenDemo(Num(b)) {
      assert ToString(Num(a)) == TokenDemo(Num(a))[|p|..];
      assert ToString(Num(b)) == TokenDemo(Num(b))[|p|..];
      NumToStringInjective(a, b);
    }
  }
}

=== FILE: table.dfy ===
/**
 * A database table as the handlers see it: rows in insertion order, the
 * auto-increment primary key of a row being its 1-based position. Nothing
 * in the modelled code deletes a row (deletion is a `deletado` flag).
 */
module Table {
  import opened Wrappers

  predicate HasId<T>(t: seq<T>, id: int)
  {
    1 <= id <= |t|
  }

  function Get<T>(t: seq<T>, id: int): T
    requires HasId(t, id)
  {
    t[id - 1]
  }

  /** `Model.findByPk(id)`: `None` for a missing or unknown key. */
  function FindByPk<T>(t: seq<T>, id: Option<int>): (r: Option<T>)
    ensures r.Some? <==> id.Some? && HasId(t, id.value)
    ensures r.Some? ==> r.value == Get(t, id.value)
  {
    if id.Some? && HasId(t, id.value) then Some(t[id.value - 1]) else None
  }

  /** Writes row `id` back after an `update` or `save`. */
  function Put<T>(t: seq<T>, id: int, v: T): (r: seq<T>)
    requires HasId(t, id)
    ensures |r| == |t| && Get(r, id) == v
    ensures forall k :: HasId(t, k) && k != id ==> Get(r, k) == Get(t, k)
  {
    t[id - 1 := v]
  }

  /** `Model.create(row)`: the new row gets the next id. */
  function Insert<T>(t: seq<T>, v: T): (r: seq<T>)
    ensures |r| == |t| + 1 && Get(r, |r|) == v
    ensures forall k :: HasId(t, k) ==> Get(r, k) == Get(t, k)
  {
    t + [v]
  }
}

=== FILE: text.dfy ===
/**
 * String helpers with the semantics of the JavaScript built-ins the source
 * uses: `\d`, `\s`, `trim()`, `split(sep)`, `padStart`, and decimal
 * printing of integers.
 */
module Text {
  import opened Wrappers

  /** `\d` in a JavaScript regular expression: ASCII digits only. */
  predicate IsDigit(c: char)
  {
    '0' <= c <= '9'
  }

  function DigitValue(c: char): (d: nat)
    requires IsDigit(c)
    ensures d < 10
  {
    c as int - '0' as int
  }

  function DigitChar(d: nat): (c: char)
    requires d < 10
    ensures IsDigit(c) && DigitValue(c) == d
  {
    ('0' as int + d) as char
  }

  predicate AllDigits(s: string)
  {
    forall i :: 0 <= i < |s| ==> IsDigit(s[i])
  }

  /** `s.replace(/\D/g, '')`: the digits of `s`, in order. */
  function Digits(s: string): (r: string)
    ensures AllDigits(r)
    ensures |r| <= |s|
  {
    if s == [] then []
    else if IsDigit(s[0]) then [s[0]] + Digits(s[1..])
    else Digits(s[1..])
  }

  lemma {:induction false} DigitsAppend(a: string, b: string)
    ensures Digits(a + b) == Digits(a) + Digits(b)
  {
    if a == [] {
      assert a + b == b;
    } else {
      assert (a + b)[1..] == a[1..] + b;
      DigitsAppend(a[1..], b);
    }
  }

  lemma {:induction false} DigitsOfDigits(s: string)
    requires AllDigits(s)
    ensures Digits(s) == s
  {
    if s != [] {
      DigitsOfDigits(s[1..]);
    }
  }

  lemma {:induction false} DigitsOfNonDigits(s: string)
    requires forall i :: 0 <= i < |s| ==> !IsDigit(s[i])
    ensures Digits(s) == []
  {
    if s != [] {
      DigitsOfNonDigits(s[1..]);
    }
  }

  /** `\s` in a JavaScript regular expression, which is also the set `trim()` removes. */
  predicate IsSpace(c: char)
  {
    var n := c as int;
    || (9 <= n <= 13) || n == 0x20 || n == 0xA0 || n == 0x1680
    || (0x2000 <= n <= 0x200A) || n == 0x2028 || n == 0x2029
    || n == 0x202F || n == 0x205F || n == 0x3000 || n == 0xFEFF
  }

  /** Number of leading characters of `s` that `trim()` removes. */
  function LeadingSpaces(s: string): (n: nat)
    ensures n <= |s|
    ensures forall i :: 0 <= i < n ==> IsSpace(s[i])
    ensures n < |s| ==> !IsSpace(s[n])
  {
    if s == [] || !IsSpace(s[0]) then 0 else 1 + LeadingSpaces(s[1..])
  }

  /** Number of trailing characters of `s` that `trim()` removes. */
  function TrailingSpaces(s: string): (n: nat)
    ensures n <= |s|
    ensures forall i :: |s| - n <= i < |s| ==> IsSpace(s[i])
    ensures n < |s| ==> !IsSpace(s[|s| - 1 - n])
  {
    if s == [] || !IsSpace(s[|s| - 1]) then 0 else 1 + TrailingSpaces(s[..|s| - 1])
  }

  /** `s.trim()`: the slice `s[a..b]` left after removing the outer whitespace. */
  function Trim(s: string): (r: string)
    ensures |r| <= |s|
    ensures r == [] || (!IsSpace(r[0]) && !IsSpace(r[|r| - 1]))
    ensures r == [] ==> forall i :: 0 <= i < |s| ==> IsSpace(s[i])
    ensures LeadingSpaces(s) + |r| <= |s| && r == s[LeadingSpaces(s)..LeadingSpaces(s) + |r|]
  {
    var a := LeadingSpaces(s);
    var rest := s[a..];
    var t := TrailingSpaces(rest);
    var r := rest[..|rest| - t];
    assert r == s[a..a + |r|];
    r
  }

  /** A string with no whitespace at either end is its own trim. */
  lemma TrimNoOuterSpace(s: string)
    requires s != [] && !IsSpace(s[0]) && !IsSpace(s[|s| - 1])
    ensures Trim(s) == s
  {
    assert LeadingSpaces(s) == 0;
    assert TrailingSpaces(s) == 0;
    assert s[0..][..|s|] == s;
  }

  /** `parts.join([sep])`. */
  function Join(parts: seq<string>, sep: char): string
    requires |parts| >= 1
  {
    if |parts| == 1 then parts[0] else parts[0] + [sep] + Join(parts[1..], sep)
  }

  predicate NoSep(parts: seq<string>, sep: char)
  {
    forall k :: 0 <= k < |parts| ==> sep !in parts[k]
  }

  /** `s.split(sep)` for a one-character separator: the separator-free pieces
      between the occurrences of `sep`, which join back to `s`. */
  function Split(s: string, sep: char): (parts: seq<string>)
    ensures |parts| >= 1
    ensures NoSep(parts, sep)
    ensures Join(parts, sep) == s
  {
    if s == [] then [[]]
    else
      var rest := Split(s[1..], sep);
      if s[0] == sep then
        assert Join([[]] + rest, sep) == [sep] + Join(rest, sep);
        [[]] + rest
      else
        var parts := [[s[0]] + rest[0]] + rest[1..];
        assert |parts| == 1 ==> Join(parts, sep) == [s[0]] + Join(rest, sep);
        assert |parts| > 1 ==> parts[1..] == rest[1..];
        parts
  }

  /** The pieces of `split` are determined by the string: any separator-free
      sequence of pieces that joins to `s` is `Split(s, sep)`. */
  lemma {:induction false} SplitUnique(s: string, sep: char, parts: seq<string>)
    requires |parts| >= 1 && NoSep(parts, sep) && Join(parts, sep) == s
    ensures parts == Split(s, sep)
    decreases |s|, |parts[0]|
  {
    if |parts| == 1 {
      SplitNoSep(s, sep);
    } else if parts[0] == [] {
      assert s == [sep] + Join(parts[1..], sep);
      assert s[1..] == Join(parts[1..], sep);
      SplitUnique(s[1..], sep, parts[1..]);
    } else {
      var p0 := parts[0];
      var shorter := [p0[1..]] + parts[1..];
      assert Join(shorter, sep) == p0[1..] + [sep] + Join(parts[1..], sep);
      assert s == [p0[0]] + Join(shorter, sep);
      assert s[1..] == Join(shorter, sep);
      assert p0[0] != sep by { assert p0[0] in parts[0]; }
      forall k | 0 <= k < |shorter|
        ensures sep !in shorter[k]
      {
        if k == 0 {
          assert forall c :: c in p0[1..] ==> c in p0;
        } else {
          assert shorter[k] == parts[k];
        }
      }
      SplitUnique(s[1..], sep, shorter);
      assert [p0[0]] + shorter[0] == p0;
      assert shorter[1..] == parts[1..];
      assert s[0] == p0[0];
      assert parts == [[p0[0]] + shorter[0]] + shorter[1..];
    }
  }

  lemma {:induction false} SplitNoSep(s: string, sep: char)
    requires sep !in s
    ensures Split(s, sep) == [s]
  {
    if s != [] {
      assert sep !in s[1..] by { assert forall c :: c in s[1..] ==> c in s; }
      SplitNoSep(s[1..], sep);
    }
  }

  /** `s.padStart(width, fill)`. */
  function PadStart(s: string, width: nat, fill: char): (r: string)
    ensures |s| >= width ==> r == s
    ensures |s| < width ==> |r| == width && r[width - |s|..] == s
    ensures |s| < width ==> forall i :: 0 <= i < width - |s| ==> r[i] == fill
  {
    if |s| >= width then s else seq(width - |s|, _ => fill) + s
  }

  /** The decimal text of a natural number, without leading zeros. */
  function NatToString(n: nat): (r: string)
    ensures |r| >= 1 && AllDigits(r)
    ensures r[0] == '0' ==> n == 0
  {
    if n < 10 then [DigitChar(n)] else NatToString(n / 10) + [DigitChar(n % 10)]
  }

  /** The value of a string of decimal digits. */
  function ParseNat(s: string): nat
    requires AllDigits(s)
  {
    if s == [] then 0 else ParseNat(s[..|s| - 1]) * 10 + DigitValue(s[|s| - 1])
  }

  lemma {:induction false} ParseNatToString(n: nat)
    ensures ParseNat(NatToString(n)) == n
  {
    var r := NatToString(n);
    if n >= 10 {
      assert r[..|r| - 1] == NatToString(n / 10);
      ParseNatToString(n / 10);
    }
  }

  /** `String(n)` for an integer. */
  function IntToString(n: int): (r: string)
    ensures |r| >= 1
    ensures r[0] == '-' <==> n < 0
  {
    if n < 0 then "-" + NatToString(-n) else NatToString(n)
  }

  lemma {:induction false} IntToStringInjective(a: int, b: int)
    requires IntToString(a) == IntToString(b)
    ensures a == b
  {
    var s := IntToString(a);
    if a < 0 {
      assert b < 0 by { assert s[0] == '-'; }
      var u := NatToString(-a);
      var v := NatToString(-b);
      assert s == "-" + u && s == "-" + v;
      assert u == s[1..] == v;
      ParseNatToString(-a);
      ParseNatToString(-b);
    } else {
      assert b >= 0 by { assert s[0] != '-'; }
      ParseNatToString(a);
      ParseNatToString(b);
    }
  }

  /** `n.toString().padStart(2, '0')`. */
  function Pad2(n: nat): string
  {
    PadStart(NatToString(n), 2, '0')
  }

  lemma Pad2Small(n: nat)
    requires n < 100
    ensures |Pad2(n)| == 2 && AllDigits(Pad2(n))
    ensures DigitValue(Pad2(n)[0]) == n / 10 && DigitValue(Pad2(n)[1]) == n % 10
  {
    if n >= 10 {
      assert NatToString(n / 10) == [DigitChar(n / 10)];
    }
  }

  /** `s.indexOf(c)`: the first position of `c` in `s`, if any. */
  function IndexOf(s: string, c: char): (r: Option<nat>)
    ensures r.Some? ==> r.value < |s| && s[r.value] == c
    ensures r.Some? ==> forall j :: 0 <= j < r.value ==> s[j] != c
    ensures r.None? <==> c !in s
  {
    if s == [] then None
    else if s[0] == c then Some(0)
    else
      match IndexOf(s[1..], c)
      case None => None
      case Some(k) => Some(k + 1)
  }

  /** `s.length` in JavaScript: the number of UTF-16 code units, where a
      character above U+FFFF takes a surrogate pair. */
  function Utf16Length(s: string): (n: nat)
    ensures |s| <= n <= 2 * |s|
    ensures n == |s| <==> forall i :: 0 <= i < |s| ==> s[i] as int <= 0xFFFF
  {
    if s == [] then 0
    else
      var n := (if s[0] as int > 0xFFFF then 2 else 1) + Utf16Length(s[1..]);
      assert (forall i :: 0 <= i < |s| ==> s[i] as int <= 0xFFFF) <==>
        s[0] as int <= 0xFFFF && forall i :: 0 <= i < |s[1..]| ==> s[1..][i] as int <= 0xFFFF by {
        assert forall i :: 0 < i < |s| ==> s[1..][i - 1] == s[i];
      }
      n
  }

  lemma {:induction false} Utf16LengthAppend(a: string, b: string)
    ensures Utf16Length(a + b) == Utf16Length(a) + Utf16Length(b)
  {
    if a != [] {
      assert (a + b)[1..] == a[1..] + b;
      Utf16LengthAppend(a[1..], b);
    } else {
      assert a + b == b;
    }
  }
}

=== FILE: usuarios.dfy ===
/**
 * Accounts: registration, login and self-deletion from
 * `controllers/usuarioController.js`, and the profile read and partial
 * update of `routes/usuarioRoutes.js`. bcrypt's `hash` and `compare` are
 * parameters; a request body field is `None` when it is absent.
 */
module Usuarios {
  import opened Wrappers
  import opened Js
  import opened Table
  import Auth

  /** A row of `usuarios`. `senha` holds the bcrypt hash. */
  datatype Usuario = Usuario(
    nome: string,
    email: string,
    telefone: Option<string>,
    endereco: Option<string>,
    senha: string,
    tipo: string,
    deletado: bool)

  /** The unique index on `email`. */
  predicate EmailsUnicos(t: seq<Usuario>)
  {
    forall i, j :: 0 <= i < j < |t| ==> t[i].email != t[j].email
  }

  /** `Usuario.findOne({ where: { email } })`: the position of the first row
      with that e-mail. */
  function FindByEmail(t: seq<Usuario>, email: string): (r: Option<nat>)
    ensures r.Some? ==> r.value < |t| && t[r.value].email == email
    ensures r.Some? ==> forall j :: 0 <= j < r.value ==> t[j].email != email
    ensures r.None? <==> forall i :: 0 <= i < |t| ==> t[i].email != email
  {
    if |t| == 0 then None
    else if t[0].email == email then Some(0)
    else
      match FindByEmail(t[1..], email)
      case None => None
      case Some(k) => Some(k + 1)
  }

  /** A handler outcome with no body beyond a message. */
  datatype Resposta = Resposta(status: int, mensagem: string)

  // --------------------------------------------------------------- register

  datatype Cadastro = Cadastro(
    nome: Option<string>,
    email: Option<string>,
    telefone: Option<string>,
    endereco: Option<string>,
    senha: Option<string>,
    tipo: Option<string>)

  /** The row `register` creates from a complete body. */
  predicate NovoUsuario(u: Usuario, b: Cadastro, hash: string -> string)
  {
    && b.nome == Some(u.nome) && b.email == Some(u.email)
    && u.telefone == b.telefone && u.endereco == b.endereco
    && b.senha.Some? && u.senha == hash(b.senha.value)
    && u.tipo == (if PresentStr(b.tipo) then b.tipo.value else "cliente")
    && !u.deletado
  }

  /** `register`: a missing e-mail makes the lookup throw; a taken e-mail is
      refused; a missing password makes `bcrypt.hash` throw; a missing name
      violates the NOT NULL column. */
  function Register(b: Cadastro, t: seq<Usuario>, hash: string -> string): (r: (Resposta, seq<Usuario>))
    ensures r.0.status == 400 <==> b.email.Some? && FindByEmail(t, b.email.value).Some?
    ensures r.0.status == 200 <==>
      b.email.Some? && FindByEmail(t, b.email.value).None? && b.senha.Some? && b.nome.Some?
    ensures r.0.status in {200, 400, 500}
    ensures r.0.status != 200 ==> r.1 == t
    ensures r.0.status == 200 ==> |r.1| == |t| + 1 && r.1[..|t|] == t && NovoUsuario(r.1[|t|], b, hash)
  {
    if b.email.None? then (Resposta(500, "Erro ao criar usu\U{00E1}rio."), t)
    else if FindByEmail(t, b.email.value).Some? then (Resposta(400, "E-mail j\U{00E1} cadastrado."), t)
    else if b.senha.None? then (Resposta(500, "Erro ao criar usu\U{00E1}rio."), t)
    else
      var hashed := hash(b.senha.value);
      if b.nome.None? then (Resposta(500, "Erro ao criar usu\U{00E1}rio."), t)
      else
        var u := Usuario(b.nome.value, b.email.value, b.telefone, b.endereco, hashed,
                         if PresentStr(b.tipo) then b.tipo.value else "cliente", false);
        (Resposta(200, "Usu\U{00E1}rio criado com sucesso!"), Insert(t, u))
  }

  /** Registration keeps e-mails unique. */
  lemma RegisterPreservaEmailsUnicos(b: Cadastro, t: seq<Usuario>, hash: string -> string)
    requires EmailsUnicos(t)
    ensures EmailsUnicos(Register(b, t, hash).1)
  {
    var r := Register(b, t, hash);
    if r.0.status == 200 {
      forall i, j | 0 <= i < j < |r.1|
        ensures r.1[i].email != r.1[j].email
      {
        if j == |t| {
          assert r.1[i] == t[i];
        } else {
          assert r.1[i] == t[i] && r.1[j] == t[j];
        }
      }
    }
  }

  // ------------------------------------------------------------------ login

  datatype Login =
    | Falha(status: int, erro: string)
    | Sucesso(token: string, id: int, nome: string, tipo: string)

  /** The account `findOne({ where: { email } })` finds: a `null` e-mail
      becomes `IS NULL`, which matches no row of the NOT NULL column. */
  function ContaDoEmail(t: seq<Usuario>, email: Campo<string>): (r: Option<nat>)
    ensures email.Dado? && email.v.Some? ==> r == FindByEmail(t, email.v.value)
    ensures email == Dado(None) ==> r == None
  {
    if email.Dado? && email.v.Some? then FindByEmail(t, email.v.value) else None
  }

  /** `login`: an absent e-mail makes the lookup throw; then unknown e-mail,
      deleted account and wrong password; success signs `{ id, tipo }` for
      eight hours. */
  function Entrar(email: Campo<string>, senha: Option<string>, t: seq<Usuario>,
                  compare: (string, string) -> bool, sign: (Auth.Claims, int) -> string): (r: Login)
    ensures email.Ausente? ==> r == Falha(500, "Erro no login.")
    ensures email.Dado? && ContaDoEmail(t, email).None? ==> r == Falha(400, "Usu\U{00E1}rio n\U{00E3}o encontrado.")
    ensures ContaDoEmail(t, email).Some? && t[ContaDoEmail(t, email).value].deletado ==>
      r.Falha? && r.status == 403
    ensures r.Falha? && r.status == 401 ==>
      senha.Some? && ContaDoEmail(t, email).Some? &&
      !compare(senha.value, t[ContaDoEmail(t, email).value].senha)
    ensures r.Sucesso? ==>
      && email.Dado? && email.v.Some? && senha.Some? && ContaDoEmail(t, email).Some?
      && var k := ContaDoEmail(t, email).value;
      && !t[k].deletado && compare(senha.value, t[k].senha)
      && r.id == k + 1 && r.nome == t[k].nome && r.tipo == t[k].tipo
      && r.token == sign(Auth.Claims(Some(k + 1), None, Some(t[k].tipo), None), Auth.OitoHoras)
    ensures ContaDoEmail(t, email).Some? && !t[ContaDoEmail(t, email).value].deletado ==>
      var k := ContaDoEmail(t, email).value;
      && (senha.None? ==> r == Falha(500, "Erro no login."))
      && (senha.Some? && !compare(senha.value, t[k].senha) ==> r == Falha(401, "Senha inv\U{00E1}lida."))
      && (senha.Some? && compare(senha.value, t[k].senha) ==> r.Sucesso?)
  {
    if email.Ausente? then Falha(500, "Erro no login.")
    else
      match ContaDoEmail(t, email)
      case None => Falha(400, "Usu\U{00E1}rio n\U{00E3}o encontrado.")
      case Some(k) =>
        var u := t[k];
        if u.deletado then Falha(403, "Usu\U{00E1}rio exclu\U{00ED}do. N\U{00E3}o \U{00E9} poss\U{00ED}vel fazer login.")
        else if senha.None? then Falha(500, "Erro no login.")
        else if !compare(senha.value, u.senha) then Falha(401, "Senha inv\U{00E1}lida.")
        else
          var id := k + 1;
          Sucesso(sign(Auth.Claims(Some(id), None, Some(u.tipo), None), 8 * 60 * 60), id, u.nome, u.tipo)
  }

  /** Whoever registers can then log in with the same password, given a
      `compare` that accepts a password against its own hash. */
  lemma RegistrarEntaoEntrar(b: Cadastro, t: seq<Usuario>, hash: string -> string,
                             compare: (string, string) -> bool, sign: (Auth.Claims, int) -> string)
    requires Register(b, t, hash).0.status == 200
    requires forall p :: compare(p, hash(p))
    ensures Entrar(Dado(b.email), b.senha, Register(b, t, hash).1, compare, sign).Sucesso?
  {
  }

  // -------------------------------------------------------------- delete me

  /** `deleteMe`: marks the caller's account deleted and changes nothing else. */
  function ExcluirConta(userId: Option<int>, t: seq<Usuario>): (r: (Resposta, seq<Usuario>))
    ensures |r.1| == |t|
    ensures r.0.status == 404 <==> FindByPk(t, userId).None?
    ensures r.0.status == 404 ==> r.1 == t
    ensures r.0.status != 404 ==>
      r.0.status == 200 && Get(r.1, userId.value) == Get(t, userId.value).(deletado := true)
    ensures forall k :: HasId(t, k) && Some(k) != userId ==> Get(r.1, k) == Get(t, k)
  {
    match FindByPk(t, userId)
    case None => (Resposta(404, "Usu\U{00E1}rio n\U{00E3}o encontrado."), t)
    case Some(u) => (Resposta(200, "Usu\U{00E1}rio exclu\U{00ED}do com sucesso!"), Put(t, userId.value, u.(deletado := true)))
  }

  /** A deleted account can no longer log in. */
  lemma ExcluidoNaoEntra(userId: Option<int>, t: seq<Usuario>, senha: Option<string>,
                          compare: (string, string) -> bool, sign: (Auth.Claims, int) -> string)
    requires EmailsUnicos(t)
    requires FindByPk(t, userId).Some?
    ensures var t' := ExcluirConta(userId, t).1;
      Entrar(Dado(Some(Get(t, userId.value).email)), senha, t', compare, sign) ==
        Falha(403, "Usu\U{00E1}rio exclu\U{00ED}do. N\U{00E3}o \U{00E9} poss\U{00ED}vel fazer login.")
  {
    var t' := ExcluirConta(userId, t).1;
    var id := userId.value;
    ExcluirPreservaEmails(userId, t);
    FindByEmailUnico(t', id - 1);
  }

  /** Deleting an account leaves every e-mail where it was. */
  lemma ExcluirPreservaEmails(userId: Option<int>, t: seq<Usuario>)
    ensures var t' := ExcluirConta(userId, t).1;
      |t'| == |t| && forall i :: 0 <= i < |t| ==> t'[i].email == t[i].email
  {
    var t' := ExcluirConta(userId, t).1;
    forall i | 0 <= i < |t|
      ensures t'[i].email == t[i].email
    {
      assert Get(t', i + 1) == t'[i] && Get(t, i + 1) == t[i];
    }
  }

  /** Under the unique index the lookup by e-mail finds the one row. */
  lemma FindByEmailUnico(t: seq<Usuario>, i: nat)
    requires EmailsUnicos(t) && i < |t|
    ensures FindByEmail(t, t[i].email) == Some(i)
  {
  }

  // ------------------------------------------------------------- GET/PUT me

  /** The body of `GET /me` and `PUT /me`: no password hash, no `tipo`. */
  datatype Perfil = Perfil(nome: string, email: string, telefone: Option<string>, endereco: Option<string>)

  function PerfilDe(u: Usuario): Perfil
  {
    Perfil(u.nome, u.email, u.telefone, u.endereco)
  }

  /** `GET /me`. */
  function VerPerfil(userId: Option<int>, t: seq<Usuario>): (r: Result<Perfil, Resposta>)
    ensures r.Err? <==> FindByPk(t, userId).None?
    ensures r.Err? ==> r.error.status == 404
    ensures r.Ok? ==> r.value == PerfilDe(Get(t, userId.value))
  {
    match FindByPk(t, userId)
    case None => Err(Resposta(404, "Usu\U{00E1}rio n\U{00E3}o encontrado"))
    case Some(u) => Ok(PerfilDe(u))
  }

  /** The body of `PUT /me`; `None` is an absent or `null` field. */
  datatype Alteracao = Alteracao(
    nome: Option<string>,
    email: Option<string>,
    telefone: Option<string>,
    endereco: Option<string>,
    senha: Option<string>)

  /** `x ?? y`. */
  function Coalesce<T>(x: Option<T>, y: T): T
  {
    if x.Some? then x.value else y
  }

  /** Some row other than `id` already has e-mail `e`. */
  predicate EmailTomado(t: seq<Usuario>, id: int, e: string)
  {
    exists k :: 0 <= k < |t| && k != id - 1 && t[k].email == e
  }

  /** `PUT /me`: the `??` merges, a new hash only for a truthy password, and a
      failed save (an e-mail taken by another row) as a 500. */
  function AlterarPerfil(userId: Option<int>, a: Alteracao, t: seq<Usuario>, hash: string -> string):
    (r: (Result<Perfil, Resposta>, seq<Usuario>))
    ensures |r.1| == |t|
    ensures FindByPk(t, userId).None? ==> r.0.Err? && r.0.error.status == 404 && r.1 == t
    ensures FindByPk(t, userId).Some? ==>
      (r.0.Err? <==> EmailTomado(t, userId.value, Coalesce(a.email, Get(t, userId.value).email)))
    ensures r.0.Err? ==> r.1 == t
    ensures r.0.Ok? ==> FindByPk(t, userId).Some? && r.0.value == PerfilDe(Get(r.1, userId.value))
    ensures forall k :: HasId(t, k) && Some(k) != userId ==> Get(r.1, k) == Get(t, k)
  {
    match FindByPk(t, userId)
    case None => (Err(Resposta(404, "Usu\U{00E1}rio n\U{00E3}o encontrado")), t)
    case Some(u) =>
      var id := userId.value;
      var novo := u.(nome := Coalesce(a.nome, u.nome),
                     email := Coalesce(a.email, u.email),
                     telefone := if a.telefone.Some? then a.telefone else u.telefone,
                     endereco := if a.endereco.Some? then a.endereco else u.endereco,
                     senha := if PresentStr(a.senha) then hash(a.senha.value) else u.senha);
      if EmailTomado(t, id, novo.email) then
        (Err(Resposta(500, "Erro ao atualizar usu\U{00E1}rio")), t)
      else
        (Ok(PerfilDe(novo)), Put(t, id, novo))
  }

  /** After a successful `PUT /me`, `GET /me` reads back the profile the
      update answered with. */
  lemma PerfilAlteradoReLido(userId: Option<int>, a: Alteracao, t: seq<Usuario>, hash: string -> string)
    requires AlterarPerfil(userId, a, t, hash).0.Ok?
    ensures VerPerfil(userId, AlterarPerfil(userId, a, t, hash).1) == AlterarPerfil(userId, a, t, hash).0
  {
  }

  /** What `PUT /me` stores: a field changes only when the body supplies it,
      the hash only for a non-empty password, and `tipo` and `deletado` never. */
  lemma AlterarPerfilCampos(userId: Option<int>, a: Alteracao, t: seq<Usuario>, hash: string -> string)
    requires FindByPk(t, userId).Some?
    requires AlterarPerfil(userId, a, t, hash).0.Ok?
    ensures var antes := Get(t, userId.value);
      var depois := Get(AlterarPerfil(userId, a, t, hash).1, userId.value);
      && (a.nome.None? ==> depois.nome == antes.nome)
      && (a.nome.Some? ==> depois.nome == a.nome.value)
      && (a.email.None? ==> depois.email == antes.email)
      && (a.email.Some? ==> depois.email == a.email.value)
      && (a.telefone.None? ==> depois.telefone == antes.telefone)
      && (a.telefone.Some? ==> depois.telefone == a.telefone)
      && (a.endereco.None? ==> depois.endereco == antes.endereco)
      && (a.endereco.Some? ==> depois.endereco == a.endereco)
      && (depois.senha != antes.senha ==> PresentStr(a.senha))
      && (PresentStr(a.senha) ==> depois.senha == hash(a.senha.value))
      && depois.tipo == antes.tipo && depois.deletado == antes.deletado
  {
  }

  /** The partial update keeps e-mails unique. */
  lemma AlterarPerfilPreservaEmailsUnicos(userId: Option<int>, a: Alteracao, t: seq<Usuario>, hash: string -> string)
    requires EmailsUnicos(t)
    ensures EmailsUnicos(AlterarPerfil(userId, a, t, hash).1)
  {
    var r := AlterarPerfil(userId, a, t, hash);
    if r.0.Ok? {
      var id := userId.value;
      var novo := r.1[id - 1];
      assert !EmailTomado(t, id, novo.email);
      forall i, j | 0 <= i < j < |r.1|
        ensures r.1[i].email != r.1[j].email
      {
        if i == id - 1 {
          assert r.1[j] == t[j];
        } else if j == id - 1 {
          assert r.1[i] == t[i];
        } else {
          assert r.1[i] == t[i] && r.1[j] == t[j];
        }
      }
    }
  }

  /** An empty body changes nothing. */
  lemma AlterarNadaNaoMuda(userId: Option<int>, t: seq<Usuario>, hash: string -> string)
    requires EmailsUnicos(t)
    ensures AlterarPerfil(userId, Alteracao(None, None, None, None, None), t, hash).1 == t
  {
    if FindByPk(t, userId).Some? {
      EmailProprioNaoTomado(t, userId.value);
    }
  }

  /** Under a unique index a row's own e-mail is not taken by another row. */
  lemma EmailProprioNaoTomado(t: seq<Usuario>, id: int)
    requires EmailsUnicos(t) && HasId(t, id)
    ensures !EmailTomado(t, id, t[id - 1].email)
  {
    forall k | 0 <= k < |t| && k != id - 1
      ensures t[k].email != t[id - 1].email
    {
      if k < id - 1 {
        assert t[k].email != t[id - 1].email;
      } else {
        assert t[id - 1].email != t[k].email;
      }
    }
  }
}

=== FILE: validators.dfy ===
/**
 * The input validators of `utils/validators.js`: e-mail shape, Brazilian
 * phone numbers, CPF check digits, password and name rules. Each takes an
 * arbitrary JavaScript value and answers `false` for anything that is not a
 * non-empty string.
 */
module Validators {
  import opened Wrappers
  import opened Js
  import opened Text

  // ---------------------------------------------------------------- e-mail

  /** `[^\s@]`: a character that is neither whitespace nor `@`. */
  predicate PlainChar(c: char)
  {
    !IsSpace(c) && c != '@'
  }

  predicate AllPlain(s: string)
  {
    forall i :: 0 <= i < |s| ==> PlainChar(s[i])
  }

  /** `d` has a `.` with at least one character on each side. */
  predicate HasInnerDot(d: string)
  {
    exists i :: 0 < i < |d| - 1 && d[i] == '.'
  }

  /** What `/^[^\s@]+@[^\s@]+\.[^\s@]+$/.test(t)` accepts: a non-empty local
      part and a domain with an inner dot, both free of whitespace and `@`,
      around one `@`. */
  predicate EmailRegex(t: string)
  {
    exists k :: 0 < k < |t| && t[k] == '@' && AllPlain(t[..k]) && AllPlain(t[k + 1..]) && HasInnerDot(t[k + 1..])
  }

  /** A scanner for the same language: split at the first `@`. */
  function MatchEmail(t: string): (ok: bool)
    ensures ok <==> EmailRegex(t)
  {
    match IndexOf(t, '@')
    case None => false
    case Some(k) =>
      var d := t[k + 1..];
      var ok := 0 < k && AllPlain(t[..k]) && AllPlain(d) && |d| >= 3 && '.' in d[1..|d| - 1];
      assert ok ==> EmailRegex(t) by {
        if ok {
          var j :| j in d[1..|d| - 1] && j == '.';
          var i :| 0 <= i < |d| - 2 && d[1..|d| - 1][i] == '.';
          assert d[i + 1] == '.';
        }
      }
      assert EmailRegex(t) ==> ok by {
        if EmailRegex(t) {
          var k' :| 0 < k' < |t| && t[k'] == '@' && AllPlain(t[..k']) && AllPlain(t[k' + 1..]) && HasInnerDot(t[k' + 1..]);
          FirstAt(t, k, k');
          var i :| 0 < i < |d| - 1 && d[i] == '.';
          assert d[1..|d| - 1][i - 1] == '.';
        }
      }
      ok
  }

  /** An `@` with no `@` before it is the first one. */
  lemma FirstAt(t: string, k: nat, k': nat)
    requires k < |t| && t[k] == '@' && forall j :: 0 <= j < k ==> t[j] != '@'
    requires k' < |t| && t[k'] == '@' && AllPlain(t[..k'])
    ensures k == k'
  {
  }

  predicate HasDoubleDot(t: string)
  {
    exists i :: 0 <= i < |t| - 1 && t[i] == '.' && t[i + 1] == '.'
  }

  /** The extra rejections of validarEmail: `..` anywhere, or a `.` or `@` at either end. */
  predicate EmailExtraRejects(t: string)
    requires t != []
  {
    HasDoubleDot(t) || t[0] == '.' || t[|t| - 1] == '.' || t[0] == '@' || t[|t| - 1] == '@'
  }

  /** `validarEmail(v)`. */
  function ValidarEmail(v: Value): (ok: bool)
    ensures !Truthy(v) || !v.Str? ==> !ok
    ensures v.Str? && Trim(v.s) == [] ==> !ok
    ensures v.Str? && Trim(v.s) != [] && EmailExtraRejects(Trim(v.s)) ==> !ok
    ensures ok <==> v.Str? && Trim(v.s) != [] && !EmailExtraRejects(Trim(v.s)) && EmailRegex(Trim(v.s))
    ensures ok ==> v.Str? && EmailShape(Trim(v.s))
  {
    if !Truthy(v) || !v.Str? then false
    else
      var t := Trim(v.s);
      if t == [] then false
      else if EmailExtraRejects(t) then false
      else if !MatchEmail(t) then false
      else EmailRegexShape(t); true
  }

  /** What an accepted address looks like: no whitespace, and exactly one
      `@`, followed by a domain with a `.` that has text on both sides. */
  predicate EmailShape(t: string)
  {
    && (forall i :: 0 <= i < |t| ==> !IsSpace(t[i]))
    && exists k :: 0 < k < |t| - 1 && t[k] == '@'
         && (forall j :: 0 <= j < |t| && t[j] == '@' ==> j == k)
         && HasInnerDot(t[k + 1..])
  }

  lemma EmailRegexShape(t: string)
    requires EmailRegex(t)
    ensures EmailShape(t)
  {
    var k :| 0 < k < |t| && t[k] == '@' && AllPlain(t[..k]) && AllPlain(t[k + 1..]) && HasInnerDot(t[k + 1..]);
    forall i | 0 <= i < |t|
      ensures !IsSpace(t[i]) && (t[i] == '@' ==> i == k)
    {
      if i < k {
        assert t[..k][i] == t[i];
      } else if i > k {
        assert t[k + 1..][i - k - 1] == t[i];
      }
    }
    assert k < |t| - 1;
  }

  // ----------------------------------------------------------------- phone

  /** The area codes (DDD) validarTelefone accepts. */
  const DDDs: set<int> := {
    11, 12, 13, 14, 15, 16, 17, 18, 19,
    21, 22, 24, 27, 28,
    31, 32, 33, 34, 35, 37, 38,
    41, 42, 43, 44, 45, 46, 47, 48, 49,
    51, 53, 54, 55,
    61, 62, 63, 64, 65, 66, 67, 68, 69,
    71, 73, 74, 75, 77, 79,
    81, 82, 83, 84, 85, 86, 87, 88, 89,
    91, 92, 93, 94, 95, 96, 97, 98, 99
  }

  /** `parseInt(d.substring(0, 2))` on a digit string. */
  function Ddd(d: string): (n: int)
    requires |d| >= 2 && AllDigits(d)
    ensures 0 <= n <= 99
  {
    DigitValue(d[0]) * 10 + DigitValue(d[1])
  }

  /** `validarTelefone(v)`. */
  function ValidarTelefone(v: Value): (ok: bool)
    ensures !v.Str? ==> !ok
    ensures ok ==> var d := Digits(v.s);
      && (|d| == 10 || |d| == 11)
      && Ddd(d) in DDDs
      && (d[2] == '9' <==> |d| == 11)
    ensures v.Str? && (|Digits(v.s)| == 10 || |Digits(v.s)| == 11) ==>
      var d := Digits(v.s);
      (ok <==> Ddd(d) in DDDs && (d[2] == '9' <==> |d| == 11))
  {
    if !Truthy(v) || !v.Str? then false
    else
      var d := Digits(v.s);
      if |d| != 10 && |d| != 11 then false
      else if Ddd(d) !in DDDs then false
      else if |d| == 11 && d[2] != '9' then false
      else if |d| == 10 && d[2] == '9' then false
      else true
  }

  // ------------------------------------------------------------------- CPF

  /** `Σ_{i < n} d_i · (top − i)`. */
  function WeightedSum(d: string, n: nat, top: int): int
    requires n <= |d| && AllDigits(d)
  {
    if n == 0 then 0 else WeightedSum(d, n - 1, top) + DigitValue(d[n - 1]) * (top - (n - 1))
  }

  /** The check digit validarCPF expects at position `n` (9 or 10): the
      weighted sum of the `n` digits before it with weights `n + 1` down to
      2, times 10, mod 11, with 10 read as 0. */
  function CheckDigit(d: string, n: nat): (c: nat)
    requires n <= |d| && AllDigits(d)
    ensures c < 10
  {
    var resto := (WeightedSum(d, n, n + 1) * 10) % 11;
    if resto == 10 || resto == 11 then 0 else resto
  }

  predicate AllSame(d: string)
  {
    forall i :: 0 <= i < |d| ==> d[i] == d[0]
  }

  /** The digits of a valid CPF. */
  predicate CpfDigitsValid(d: string)
    requires AllDigits(d)
  {
    && |d| == 11
    && !AllSame(d)
    && DigitValue(d[9]) == CheckDigit(d, 9)
    && DigitValue(d[10]) == CheckDigit(d, 10)
  }

  /** `validarCPF(v)`, with the source's two summing loops. */
  method ValidarCPF(v: Value) returns (ok: bool)
    ensures ok <==> v.Str? && CpfDigitsValid(Digits(v.s))
  {
    if !Truthy(v) || !v.Str? {
      return false;
    }
    var d := Digits(v.s);
    if |d| != 11 {
      return false;
    }
    var same := true;
    var i := 1;
    while i < 11
      invariant 1 <= i <= 11
      invariant same <==> forall j :: 0 <= j < i ==> d[j] == d[0]
    {
      same := same && d[i] == d[0];
      i := i + 1;
    }
    if same {
      return false;
    }
    var soma := 0;
    i := 0;
    while i < 9
      invariant 0 <= i <= 9
      invariant soma == WeightedSum(d, i, 10)
    {
      soma := soma + DigitValue(d[i]) * (10 - i);
      i := i + 1;
    }
    var resto := (soma * 10) % 11;
    if resto == 10 || resto == 11 {
      resto := 0;
    }
    if resto != DigitValue(d[9]) {
      return false;
    }
    soma := 0;
    i := 0;
    while i < 10
      invariant 0 <= i <= 10
      invariant soma == WeightedSum(d, i, 11)
    {
      soma := soma + DigitValue(d[i]) * (11 - i);
      i := i + 1;
    }
    resto := (soma * 10) % 11;
    if resto == 10 || resto == 11 {
      resto := 0;
    }
    if resto != DigitValue(d[10]) {
      return false;
    }
    return true;
  }

  lemma {:induction false} WeightedSumPrefix(a: string, b: string, n: nat, top: int)
    requires n <= |a| && AllDigits(a) && AllDigits(a + b)
    ensures WeightedSum(a + b, n, top) == WeightedSum(a, n, top)
  {
    if n > 0 {
      assert (a + b)[n - 1] == a[n - 1];
      WeightedSumPrefix(a, b, n - 1, top);
    }
  }

  /** Every nine digits that are not all equal complete to exactly one valid
      CPF: append the two check digits. */
  lemma CompleteCpf(base: string)
    requires |base| == 9 && AllDigits(base) && !AllSame(base)
    ensures var d1 := base + [DigitChar(CheckDigit(base, 9))];
      var d := d1 + [DigitChar(CheckDigit(d1, 10))];
      AllDigits(d) && CpfDigitsValid(d)
  {
    var d1 := base + [DigitChar(CheckDigit(base, 9))];
    var d := d1 + [DigitChar(CheckDigit(d1, 10))];
    assert d[..9] == base;
    WeightedSumPrefix(base, [DigitChar(CheckDigit(base, 9))], 9, 10);
    WeightedSumPrefix(base, d[9..], 9, 10);
    assert base + d[9..] == d;
    WeightedSumPrefix(d1, [DigitChar(CheckDigit(d1, 10))], 10, 11);
    assert !AllSame(d) by {
      var i :| 0 <= i < |base| && base[i] != base[0];
      assert d[i] == base[i] && d[0] == base[0];
    }
  }

  /** The check digits of a CPF are fixed by its first nine digits. */
  lemma CpfCheckDigitsDetermined(d: string, e: string)
    requires AllDigits(d) && AllDigits(e) && CpfDigitsValid(d) && CpfDigitsValid(e)
    requires d[..9] == e[..9]
    ensures d == e
  {
    WeightedSumPrefix(d[..9], d[9..], 9, 10);
    WeightedSumPrefix(e[..9], e[9..], 9, 10);
    assert d[..9] + d[9..] == d && e[..9] + e[9..] == e;
    assert d[9] == e[9];
    assert d[..10] == e[..10];
    WeightedSumPrefix(d[..10], d[10..], 10, 11);
    WeightedSumPrefix(e[..10], e[10..], 10, 11);
    assert d[..10] + d[10..] == d && e[..10] + e[10..] == e;
  }

  // -------------------------------------------------------------- password

  predicate IsAsciiLetter(c: char)
  {
    'a' <= c <= 'z' || 'A' <= c <= 'Z'
  }

  /** `/[a-zA-Z]/.test(s)`. */
  function HasAsciiLetter(s: string): (r: bool)
    ensures r <==> exists i :: 0 <= i < |s| && IsAsciiLetter(s[i])
  {
    if s == [] then false
    else if IsAsciiLetter(s[0]) then true
    else
      var r := HasAsciiLetter(s[1..]);
      assert r ==> exists i :: 0 <= i < |s| && IsAsciiLetter(s[i]) by {
        if r {
          var i :| 0 <= i < |s[1..]| && IsAsciiLetter(s[1..][i]);
          assert IsAsciiLetter(s[i + 1]);
        }
      }
      assert (exists i :: 0 <= i < |s| && IsAsciiLetter(s[i])) ==> r by {
        if exists i :: 0 <= i < |s| && IsAsciiLetter(s[i]) {
          var i :| 0 <= i < |s| && IsAsciiLetter(s[i]);
          assert s[1..][i - 1] == s[i];
        }
      }
      r
  }

  /** `/[0-9]/.test(s)`. */
  function HasDigit(s: string): (r: bool)
    ensures r <==> exists i :: 0 <= i < |s| && IsDigit(s[i])
  {
    if s == [] then false
    else if IsDigit(s[0]) then true
    else
      var r := HasDigit(s[1..]);
      assert r ==> exists i :: 0 <= i < |s| && IsDigit(s[i]) by {
        if r {
          var i :| 0 <= i < |s[1..]| && IsDigit(s[1..][i]);
          assert IsDigit(s[i + 1]);
        }
      }
      assert (exists i :: 0 <= i < |s| && IsDigit(s[i])) ==> r by {
        if exists i :: 0 <= i < |s| && IsDigit(s[i]) {
          var i :| 0 <= i < |s| && IsDigit(s[i]);
          assert s[1..][i - 1] == s[i];
        }
      }
      r
  }

  /** `validarSenha(v)`: 8 to 50 UTF-16 code units with an ASCII letter and
      a digit. */
  function ValidarSenha(v: Value): (ok: bool)
    ensures ok <==> (v.Str? && 8 <= Utf16Length(v.s) <= 50
      && (exists i :: 0 <= i < |v.s| && IsAsciiLetter(v.s[i]))
      && (exists i :: 0 <= i < |v.s| && IsDigit(v.s[i])))
  {
    if !Truthy(v) || !v.Str? then false
    else if Utf16Length(v.s) < 8 then false
    else if Utf16Length(v.s) > 50 then false
    else if !HasAsciiLetter(v.s) then false
    else if !HasDigit(v.s) then false
    else true
  }

  // ------------------------------------------------------------------ name

  /** `[a-zA-ZÀ-ÿ\s\-]`: ASCII letters, U+00C0 to U+00FF, whitespace, hyphen. */
  predicate NameChar(c: char)
  {
    IsAsciiLetter(c) || (0xC0 <= c as int <= 0xFF) || IsSpace(c) || c == '-'
  }

  /** `/^[a-zA-ZÀ-ÿ\s\-]+$/.test(s)` without the non-emptiness part. */
  function AllNameChars(s: string): (r: bool)
    ensures r <==> forall i :: 0 <= i < |s| ==> NameChar(s[i])
  {
    if s == [] then true
    else
      var r := NameChar(s[0]) && AllNameChars(s[1..]);
      assert (forall i :: 0 <= i < |s| ==> NameChar(s[i])) ==> r by {
        if forall i :: 0 <= i < |s| ==> NameChar(s[i]) {
          assert forall i :: 0 <= i < |s[1..]| ==> s[1..][i] == s[i + 1];
        }
      }
      assert r ==> forall i :: 0 <= i < |s| ==> NameChar(s[i]) by {
        if r {
          forall i | 0 <= i < |s| ensures NameChar(s[i]) {
            if i > 0 { assert s[1..][i - 1] == s[i]; }
          }
        }
      }
      r
  }

  /** `validarNome(v)`: after trimming, 2 to 100 characters, at least one
      space (U+0020), and only name characters. */
  function ValidarNome(v: Value): (ok: bool)
    ensures ok <==> (v.Str? &&
      var t := Trim(v.s);
      && 2 <= |t| <= 100
      && ' ' in t
      && forall i :: 0 <= i < |t| ==> NameChar(t[i]))
  {
    if !Truthy(v) || !v.Str? then false
    else
      var t := Trim(v.s);
      assert AllNameChars(t) ==> Utf16Length(t) == |t| by {
        assert forall c :: NameChar(c) ==> c as int <= 0xFFFF;
      }
      if Utf16Length(t) < 2 then false
      else if Utf16Length(t) > 100 then false
      else if ' ' !in t then false
      else if !AllNameChars(t) then false
      else true
  }

  /** The length limits count UTF-16 code units: three characters outside the
      Basic Multilingual Plane make a password of length 8. */
  lemma SenhaContaUnidadesUtf16()
    ensures ValidarSenha(Str("a1\U{1F600}\U{1F600}\U{1F600}"))
    ensures !ValidarSenha(Str("a1\U{1F600}\U{1F600}"))
  {
    var e := "\U{1F600}";
    var s := "a1" + e + e + e;
    var s2 := "a1" + e + e;
    assert Utf16Length(s) == 8 by {
      assert s[2..] == e + e + e;
      Utf16LengthAppend(e, e + e);
      Utf16LengthAppend(e, e);
    }
    assert Utf16Length(s2) == 6 by {
      assert s2[2..] == e + e;
      Utf16LengthAppend(e, e);
    }
    assert IsAsciiLetter(s[0]) && IsDigit(s[1]);
    assert IsAsciiLetter(s2[0]) && IsDigit(s2[1]);
    assert "a1\U{1F600}\U{1F600}\U{1F600}" == s;
    assert "a1\U{1F600}\U{1F600}" == s2;
  }

  /** At the upper limit: 49 ASCII characters pass, and one character
      outside the Basic Multilingual Plane more makes 51 code units. */
  lemma SenhaLimiteUtf16()
    ensures ValidarSenha(Str("a1" + seq(47, _ => 'x')))
    ensures !ValidarSenha(Str("a1" + seq(47, _ => 'x') + "\U{1F600}"))
  {
    var e := "\U{1F600}";
    var w := "a1" + seq(47, _ => 'x');
    assert forall i :: 0 <= i < |w| ==> w[i] as int <= 0xFFFF;
    assert Utf16Length(e) == 2;
    Utf16LengthAppend(w, e);
    assert IsAsciiLetter(w[0]) && IsDigit(w[1]);
  }

  /** The range À-ÿ of the name pattern also contains the multiplication
      sign U+00D7, so a word, a space and "×" pass as a name. */
  lemma NomeAcceptsMultiplicationSign(w: string)
    requires 1 <= |w| <= 98 && forall i :: 0 <= i < |w| ==> IsAsciiLetter(w[i])
    ensures ValidarNome(Str(w + " \U{00D7}"))
  {
    var s := w + [' ', '\U{00D7}'];
    assert w + " \U{00D7}" == s;
    assert !IsSpace(s[0]) by { assert s[0] == w[0]; }
    TrimNoOuterSpace(s);
    assert s[|w|] == ' ';
    forall i | 0 <= i < |s|
      ensures NameChar(s[i])
    {
      if i < |w| {
        assert s[i] == w[i];
      }
    }
  }
}

=== FILE: wrappers.dfy ===
/** Optional values and results, used by every module of the model. */
module Wrappers {

  /** A value that may be absent: `undefined`/`null` in the source. */
  datatype Option<+T> = None | Some(value: T) {

    /** The carried value, or `default` when absent (the source's `x ?? default`). */
    function GetOr(default: T): (r: T)
      ensures Some? ==> r == value
      ensures None? ==> r == default
    {
      match this
      case Some(v) => v
      case None => default
    }
  }

  /** The outcome of an operation that may throw: `Ok` or the thrown error. */
  datatype Result<+T, +E> = Ok(value: T) | Err(error: E)
}
